=== FILE: README.md ===
# Business logic of six small browser apps, modelled in Dafny

The repository is a portfolio of small single-page apps. Each one keeps its state in the
browser and does some pure, sequential business logic behind its UI. This project models that
logic and proves what it promises:

- **Investment simulator** (`Investments`, investments.dfy). The term is converted to months
  and the rate to a monthly rate. A month-by-month compound-growth loop builds the series of
  balances. The simulator also reports the final balance, the inflation-deflated value and the
  comparison of scenario B with scenario A.
- **Proposal generator** (`Proposals`, proposals.dfy). It sanitises text, computes the
  percentage or fixed discount and the total, validates the form in a fixed order, and adds and
  removes items.
- **Sales-goal dashboard** (`SalesGoals`, sales_goals.dfy, and `SalesMetrics`,
  sales_metrics.dfy). It keeps month-keyed lists of sales with create, update and remove. It
  computes per-channel totals, the goal metrics with their clamps, the state migration and the
  `;`-separated export.
- **Cash-flow tracker** (`CashFlow`, cash_flow.dfy). It covers state migration, saving and
  deleting transactions, the month's KPIs, the running daily balance, per-category and per-day
  totals, the report's top-5 expenses and top days, and the export.
- **Mini-CRM** (`MiniCrm`, mini_crm.dfy). It covers the lead board (move, toggle view,
  delete), the lead form's guards and fresh ids, import with normalisation and id
  re-assignment, the follow-up comparator and badge, the priority panel, filtering and sorting,
  and the `,`-separated export.
- **WhatsApp landing page** (`WhatsappMessage`, whatsapp.dfy). It assembles the message with
  an optional suffix and guards the copy and open buttons.

Shared modules hold the concepts several apps use:

- `Wrappers`: the `Option` type.
- `Seqs`: filter, sum, find-index and subsequence.
- `Text`: whitespace trimming and decimal digits.
- `EmailShape`: the `/\S+@\S+\.\S+/` test as an executable scan, proved equal to the pattern.
- `Csv`: quoting, joining and a reader used to state the export round trip.
- `Tally`: JavaScript objects used as insertion-ordered totals.
- `Sorting`: `Array.prototype.sort` with a key comparator, modelled as a stable insertion sort.

Amounts are `real`. Dates are strings, local day numbers or instants. The calendar (date parsing,
days of a month, weekdays, ISO formatting) comes in as function parameters. So do the clock
(`now`), id generation (a fresh id, or a draw sequence `gen`), the annual twelfth root
(`root12`), lower-casing, locale collation and number formatting. State updates are functions
that return the new state.

## Model

| member | source | states |
|---|---|---|
| Investments.OrDefault | simulador-investimentos/app.js:63-69 | `Number(x) \|\| d`: the reading when it is a non-zero number, otherwise the default |
| Investments.ReadForm | simulador-investimentos/app.js:60-72 | each amount is the form's number or 0 when missing/zero; the term is the form's or 1, never 0; the units are copied |
| Investments.ReadFillRoundTrip | simulador-investimentos/app.js:209-213 | writing a scenario into the form and reading it back gives the same scenario (what swap and copy-to-B rely on) |
| Investments.MonthsFromTerm | simulador-investimentos/app.js:15-17 | 12 × term for "years", the term unchanged for any other unit; sign and non-zeroness preserved |
| Investments.ToMonthlyRate | simulador-investimentos/app.js:11-14 | rate/100 for any unit but "annual"; for "annual", 1 + r is the twelfth root of 1 + rate/100 |
| Investments.AnnualRateCompounds | simulador-investimentos/app.js:11-14 | when root12 is a true twelfth root, twelve months at the converted annual rate grow the amount by exactly 1 + rate/100 |
| Investments.BalanceNoDeposits | simulador-investimentos/app.js:82-91 | without deposits the balance after i months is initial × growth^i |
| Investments.InvestedClosedForm | simulador-investimentos/app.js:80-85 | money put in after i months is initial + i × monthly |
| Investments.ProjectionEntries | simulador-investimentos/app.js:82-91 | entry i of the series is month i + 1's point |
| Investments.Project | simulador-investimentos/app.js:79-91 | the loop yields exactly max(months, 0) points, each balance the recurrence (b + monthly) × growth, and totalInvested = initial + n × monthly |
| Investments.FinalBalance | simulador-investimentos/app.js:93 | the last balance, falling back to the initial amount when the series is empty or ends at 0 |
| Investments.Deflate | simulador-investimentos/app.js:94-96 | no value when inflation is 0; otherwise the final balance divided by (1 + monthly inflation)^months: for months ≥ 0 a division (not finite when the power is 0), for a negative term a multiplication by (1 + monthly inflation)^-months |
| Investments.Simulate | simulador-investimentos/app.js:74-106 | months, series, total invested, final balance, interest = final − invested, and real balance, each as the source computes them |
| Investments.SimulationPoints | simulador-investimentos/app.js:84-90 | every point carries its month number, the recurrence balance, initial + i × monthly invested, and interest = balance − invested |
| Investments.NoRateNoInterest | simulador-investimentos/app.js:82-91 | with rate 0 every balance equals the money put in and interest is 0 |
| Investments.InterestNonNegative | simulador-investimentos/app.js:82-91 | with growth ≥ 1 and non-negative amounts the balance is never below the money put in |
| Investments.BalanceGrows | simulador-investimentos/app.js:82-91 | with growth ≥ 1 and non-negative amounts the balance never decreases month to month |
| Investments.DeflatedAtMost | simulador-investimentos/app.js:94-96 | positive inflation never raises a non-negative final balance, and lowers a positive one strictly over at least one month |
| Investments.Compare | simulador-investimentos/app.js:172-173 | diff = B − A; percent 0 when A's final balance is 0 |
| Investments.ComparePercent | simulador-investimentos/app.js:172-173 | for non-zero A, A + A × percent/100 = B; percent is 0 exactly when A is 0 or A = B; for positive A, percent > 0 exactly when B > A |
| Proposals.Sanitize | gerador-propostas/app.js:54-56 | no '<' or '>' in the result; a falsy text gives "" |
| Proposals.SanitizeAppend | gerador-propostas/app.js:54-56 | sanitising is character-wise: it distributes over concatenation, so kept characters stay in order |
| Proposals.SanitizeFixpoint | gerador-propostas/app.js:54-56 | a text is unchanged exactly when it holds no angle bracket |
| Proposals.SanitizeIdempotent | gerador-propostas/app.js:54-56 | sanitising twice equals sanitising once |
| Proposals.IsValidEmailSpec | gerador-propostas/app.js:57-59 | "" is accepted; a non-empty address exactly when it matches name@domain.tld |
| Proposals.CalculateDiscount | gerador-propostas/app.js:197-205 | percent: the value clamped to [0, 100] percent of the subtotal, lying in [0, subtotal] for subtotal ≥ 0; otherwise min(value, subtotal), not clamped below |
| Proposals.PercentOf | gerador-propostas/app.js:200-202 | the clamped share lies between 0 and the subtotal; 0 for value ≤ 0, the subtotal for value ≥ 100 |
| Proposals.Total | gerador-propostas/app.js:173-174 | max(subtotal − discount, 0): never negative, equal to subtotal − discount unless that is ≤ 0 |
| Proposals.TotalBounds | gerador-propostas/app.js:258-260 | a percent discount on a non-negative subtotal leaves a total ≤ the subtotal; a fixed value leaves subtotal − value or 0 |
| Proposals.PercentTotalIsShare | gerador-propostas/app.js:197-205 | a percentage p in [0, 100] leaves exactly (100 − p)% of a non-negative subtotal |
| Proposals.DiscountMonotone | gerador-propostas/app.js:197-205 | a larger discount value never gives a smaller discount on a non-negative subtotal |
| Proposals.ItemsErrorFirst | gerador-propostas/app.js:225-229 | the loop reports the message of the first unacceptable item, "" when every item is acceptable |
| Proposals.ValidateFormPasses | gerador-propostas/app.js:222-231 | "" iff the name is filled, the email empty or valid, the list non-empty and every item has a description, qty ≥ 1 and price > 0 |
| Proposals.ValidateFormFormChecks | gerador-propostas/app.js:223-225 | the name message first, then the email message, then the empty-list message |
| Proposals.ValidateFormDescription | gerador-propostas/app.js:226-227 | past the form checks, the description message exactly when the first bad item has a blank description |
| Proposals.ValidateFormQtyPrice | gerador-propostas/app.js:228 | past the form checks, the quantity/value message exactly when the first bad item has a description but a bad qty or price |
| Proposals.ValidFormPositiveSubtotal | gerador-propostas/app.js:158-162 | a proposal that passes validation has a positive subtotal |
| Proposals.AddItem | gerador-propostas/app.js:239-240 | appends one item with the fresh id, a blank description, qty 1 and price 0; the existing items are unchanged |
| Proposals.RemoveItem | gerador-propostas/app.js:246-251 | a single remaining item is kept with a toast; otherwise exactly the items without the id stay, in order |
| Proposals.RemoveAddRoundTrip | gerador-propostas/app.js:239-251 | removing an item just added under a fresh id restores the list |
| Proposals.RemoveItemNonEmpty | gerador-propostas/app.js:246-251 | the list stays non-empty unless every item carries the removed id |
| SalesGoals.GetMonthKey | dashboard-metas/app.js:71-73 | the year, a dash, and two month digits for a month in 0..11 |
| SalesGoals.MonthKeyParts | dashboard-metas/app.js:71-73 | the key is the year's digits, "-", and the 1-based month zero-padded to two digits |
| SalesGoals.MonthKeyRoundTrip | dashboard-metas/app.js:71-73 | the year and the month read back from the key |
| SalesGoals.MonthKeyInjective | dashboard-metas/app.js:71-73 | distinct (year, month) pairs never share a key |
| SalesGoals.MigrateIfNeeded | dashboard-metas/app.js:74-84 | without a version, the default empty state; otherwise the data unchanged |
| SalesGoals.MigrateIdempotent | dashboard-metas/app.js:74-84 | migrating twice equals migrating once |
| SalesGoals.List | dashboard-metas/app.js:114-116 | the month's sales, [] for a month without an entry |
| SalesGoals.CreateEffect | dashboard-metas/app.js:88-98 | create appends exactly the new sale (fresh id, payload fields, both timestamps now) to its month; other months unchanged |
| SalesGoals.Apply | dashboard-metas/app.js:102-106 | the payload's fields replace the sale's; id and creation time kept; updatedAt now |
| SalesGoals.Update | dashboard-metas/app.js:99-109 | an unknown id changes nothing; keys and list length preserved |
| SalesGoals.UpdateEffect | dashboard-metas/app.js:99-109 | a known id rewrites only the first sale carrying it; every other sale and month unchanged |
| SalesGoals.WithoutId | dashboard-metas/app.js:112 | the sales without the id, each as often as before, in their original order |
| SalesGoals.Remove | dashboard-metas/app.js:110-113 | the month keeps exactly the sales without the id, in order; other months unchanged |
| SalesGoals.RemoveCreateRoundTrip | dashboard-metas/app.js:88-113 | removing a sale just created under a fresh id gives back every month's list |
| SalesGoals.TotalsByChannelContents | dashboard-metas/app.js:128-137 | one entry per configured or used channel, holding the total of that channel's sales (0 for unused configured channels) |
| SalesGoals.TotalsByChannelSum | dashboard-metas/app.js:128-137 | the channel totals add up to the total sale value |
| SalesGoals.FormPayload | dashboard-metas/app.js:420-427 | cliente and observacoes trimmed, "" when absent; date, value and channel as entered |
| SalesGoals.SubmitSale | dashboard-metas/app.js:429-441 | a missing date or a value ≤ 0 is refused unchanged; otherwise update when editing, create otherwise |
| SalesGoals.SubmitStoresValidSales | dashboard-metas/app.js:429-441 | if every stored sale had a date and positive value, so does every sale after a submit |
| SalesGoals.SalesCsvRoundTrip | dashboard-metas/app.js:759-770 | reading the export back gives the header and, line by line, each sale's five fields |
| SalesMetrics.CountBusinessDays | dashboard-metas/app.js:733-740 | exactly the number of business days among 1..daysLimit; at most daysLimit, all of them when every day is a business day |
| SalesMetrics.CountBusinessDaysMonotone | dashboard-metas/app.js:733-740 | counting over more days never gives fewer business days |
| SalesMetrics.TotalsByDayEntry | dashboard-metas/app.js:117-127 | each daily total is the total of that day's sales in the month |
| SalesMetrics.BestDayLabel | dashboard-metas/app.js:162-165 | None exactly when no day sold; otherwise the 1-based first day holding the maximum |
| SalesMetrics.Percent | dashboard-metas/app.js:155 | 0 when the goal is 0; otherwise total × 100 / goal, or exactly 999 once that reaches 999 |
| SalesMetrics.Remaining | dashboard-metas/app.js:156 | never negative; 0 exactly when the goal is reached; otherwise total + remaining = goal |
| SalesMetrics.RemainingDays | dashboard-metas/app.js:159 | the difference of days when that is ≥ 1, otherwise exactly 1 |
| SalesMetrics.GoalPerDay | dashboard-metas/app.js:160 | spread over the remaining days it adds up to what remains |
| SalesMetrics.DaysWithoutSales | dashboard-metas/app.js:167 | exactly the number of days among the first daysElapsed whose total is 0; so 0 when every day sold |
| SalesMetrics.Compute | dashboard-metas/app.js:141-185 | total is the sum of sale values; percent, remaining, average, projection, goal per day, best day, best value and days without sales are each their clamp or count over the elapsed and counted days (business days when on); the pace is "acima" exactly when the projection reaches the goal |
| CashFlow.Migrate | controle-caixa/app.js:56-59 | no version gives the default state; otherwise each field of the data overrides the default's |
| CashFlow.MigrateSaved | controle-caixa/app.js:45-59 | a saved state migrates back unchanged |
| SalesMetrics.Average | dashboard-metas/app.js:157 | spread over the counted days the average adds up to the total; 0 when no day is counted |
| SalesMetrics.Projection | dashboard-metas/app.js:158 | projection × elapsed days = total × counted days: the average kept up over the whole month; 0 when no day elapsed |
| SalesMetrics.PastMonthPace | dashboard-metas/app.js:141-185 | for a month that is over the projection is the total, and the pace is "acima" exactly when the goal was met |
| CashFlow.FormPayload | controle-caixa/app.js:264-270 | the trimmed description, "" when absent |
| CashFlow.SaveTransaction | controle-caixa/app.js:261-293 | a missing date or value ≤ 0 is refused unchanged; editing keeps the length; creating appends one transaction with the fresh id, the payload and both timestamps now |
| CashFlow.SaveEdits | controle-caixa/app.js:275-284 | editing rewrites only the first transaction with the id, keeps its id and creation time |
| CashFlow.SaveKeepsValid | controle-caixa/app.js:271-293 | every stored transaction keeps a date and a positive value across a save |
| CashFlow.DeleteTransaction | controle-caixa/app.js:298-305 | after confirmation exactly the transactions without the id stay, in order, with their multiplicities |
| CashFlow.DeleteCreated | controle-caixa/app.js:285-301 | deleting a transaction just created under a fresh id gives back the list |
| CashFlow.CurrentTransactions | controle-caixa/app.js:393-400 | exactly the transactions dated in the month, in order |
| CashFlow.CurrentTransactionsAppend | controle-caixa/app.js:393-400 | the month's list of a concatenation is the concatenation of the month's lists |
| CashFlow.TotalsByCategorySpec | controle-caixa/app.js:421-430 | one entry per category or used category, holding that category's total |
| CashFlow.TotalsByDaySpec | controle-caixa/app.js:431-437 | an entry exactly for each date that occurs, holding that date's total |
| CashFlow.ComputeKpis | controle-caixa/app.js:447-453 | saldo = entradas − saidas; the top category is an entry of the saida totals holding the largest value, absent exactly when there are no totals |
| CashFlow.SaldoIsNet | controle-caixa/app.js:449-451 | the saldo is the signed sum of the month's transactions |
| CashFlow.KpisPerKind | controle-caixa/app.js:449-450 | the entradas card is the total of the month's entradas, the saidas card the total of its saidas |
| CashFlow.BuildBalanceSeries | controle-caixa/app.js:505-519 | one entry per day; entry d is the balance after days 1..d |
| CashFlow.BalanceSeriesStep | controle-caixa/app.js:509-517 | each entry is the previous one plus that day's change |
| CashFlow.DayNetIsInMinusOut | controle-caixa/app.js:511-515 | a day's change is its entradas minus its saidas |
| CashFlow.BalanceEndsAtSaldo | controle-caixa/app.js:449-519 | the balance chart ends at the saldo KPI when every transaction is dated in the month |
| CashFlow.TopExpensesOrdered | controle-caixa/app.js:367-369 | at most five saidas, five when there are that many, in non-increasing value order |
| CashFlow.TopExpensesMaximal | controle-caixa/app.js:367-369 | no expense left out is larger than one selected |
| CashFlow.TopDaysSpec | controle-caixa/app.js:370-374 | each top day is an expense date whose total equals the maximum and is positive; none when there are no expenses |
| CashFlow.TransactionsCsvRoundTrip | controle-caixa/app.js:590-598 | reading the export back gives the header and each transaction's fields |
| MiniCrm.StatusLabel | mini-crm/app.js:1-7 | a label exactly for the five statuses of the board |
| MiniCrm.MoveLead | mini-crm/app.js:450-458 | a missing id or unchanged status changes nothing; otherwise only that lead's status and updatedAt change |
| MiniCrm.MoveLeadIdempotent | mini-crm/app.js:450-458 | moving to the same status again changes nothing |
| MiniCrm.MoveLeadBack | mini-crm/app.js:450-458 | moving and moving back restores the board except the lead's updatedAt |
| MiniCrm.ToggleView | mini-crm/app.js:459-461 | "kanban" becomes "lista", anything else "kanban" |
| MiniCrm.ToggleViewTwice | mini-crm/app.js:459-461 | toggling twice restores either view |
| MiniCrm.DeleteLead | mini-crm/app.js:441-449 | no id or no confirmation: nothing changes; otherwise exactly the leads without the id stay, in order |
| MiniCrm.IsValidEmailSpec | mini-crm/app.js:577-579 | accepted exactly when the address matches name@domain.tld; "" is refused |
| MiniCrm.Overlay | mini-crm/app.js:401-422 | the trimmed form fields replace the lead's; id and creation time kept; updatedAt now |
| MiniCrm.FormError | mini-crm/app.js:390-398 | the blank-name error first, then "Email invalido." for a non-empty invalid email; None exactly when both pass |
| MiniCrm.NewLeadId | mini-crm/app.js:424-427 | the first drawn id not in use |
| MiniCrm.EditLead | mini-crm/app.js:414-422 | the form overlays the first lead with the id; no such lead: nothing changes |
| MiniCrm.EditLeadKeepsIds | mini-crm/app.js:414-422 | editing keeps every lead's id |
| MiniCrm.SubmitLead | mini-crm/app.js:384-440 | a failing guard leaves the leads; editing overlays; a new lead with an unused id goes in front |
| MiniCrm.NormalizeLead | mini-crm/app.js:618-633 | own id or a fresh draw; "" for missing texts, "Outro", "novo", valor 0, timestamps now |
| MiniCrm.NormalizeExported | mini-crm/app.js:618-633 | a complete lead, exported and normalised, comes back unchanged |
| MiniCrm.ReplaceImportContents | mini-crm/app.js:492-497 | the n-th lead is the n-th valid item normalised, keeping a truthy own id |
| MiniCrm.MergeImportContents | mini-crm/app.js:498-505 | apart from the id, the n-th merged lead is the n-th valid item normalised |
| MiniCrm.ImportLeads | mini-crm/app.js:492-505 | only items with nome and status; replace needs confirmation and swaps the list; merge appends |
| MiniCrm.MergeIds | mini-crm/app.js:499-504 | a lead keeps its own id when non-empty and unused before the import; otherwise it gets a fresh draw |
| MiniCrm.MergeAvoidsExisting | mini-crm/app.js:499-504 | when no draw collides with an existing id, no merged lead takes an existing id |
| MiniCrm.MergeKeepsFileDuplicates | mini-crm/app.js:499-504 | two items of one file with the same new id both keep it, since only pre-import ids are checked |
| MiniCrm.ReplaceImportExported | mini-crm/app.js:465-497 | exporting complete leads and importing them in replace mode gives them back |
| MiniCrm.FollowupCompare | mini-crm/app.js:570-575 | two leads without a follow-up compare equal; one without goes after one with; for readable dates the result is negative exactly when the first instant is earlier |
| MiniCrm.FollowupCompareAntisymmetric | mini-crm/app.js:570-575 | swapping the leads flips the comparator's sign |
| MiniCrm.FollowupCompareIsKeyOrder | mini-crm/app.js:570-575 | for readable dates the comparator orders by instant, leads without a follow-up last, two of those equal |
| MiniCrm.FollowupBadge | mini-crm/app.js:561-568 | "-" and no status without a date; "Atrasado"/overdue before today; "Hoje"/today on today; the formatted date and no status after |
| MiniCrm.FollowupBadgeDue | mini-crm/app.js:53-84 | a lead's badge carries a status exactly when it is due, and then shows the priority card's text |
| MiniCrm.PrioritiesSpec | mini-crm/app.js:56-65 | at most five, five when that many are due, all due by today, earliest first |
| MiniCrm.PrioritiesMaximal | mini-crm/app.js:56-65 | no due lead left out is due earlier than one shown |
| MiniCrm.FilterLeads | mini-crm/app.js:310-330 | a lead is in the result exactly when it is one of the leads and passes the search, status and origin filters |
| MiniCrm.FilteredLeadsSorted | mini-crm/app.js:331-346 | the filtered list is ordered by the chosen sort key (name rank, value largest first, follow-up, or newest first) |
| MiniCrm.LeadsCsvRoundTrip | mini-crm/app.js:592-616 | reading the export back gives the header and each lead's twelve fields |
| WhatsappMessage.Base | landing-whatsapp/app.js:57-59 | the fixed sentence with name, interest and time |
| WhatsappMessage.BuildMessage | landing-whatsapp/app.js:56-62 | the base sentence when the extra is empty or absent; otherwise base + " Mensagem adicional: " + extra |
| WhatsappMessage.BuildMessageExtraInjective | landing-whatsapp/app.js:56-62 | messages over the same fields are equal only when their extras are |
| WhatsappMessage.CopyClick | landing-whatsapp/app.js:83-92 | an empty output only shows the toast; otherwise the output is copied |
| WhatsappMessage.OpenClick | landing-whatsapp/app.js:94-100 | an empty output only shows the toast; otherwise WhatsApp opens with it |
| WhatsappMessage.ButtonsActAfterSubmit | landing-whatsapp/app.js:70-100 | once a message is generated both buttons act on it |
| EmailShape.HasEmailShapeCorrect | gerador-propostas/app.js:58 | the executable scan decides exactly `/\S+@\S+\.\S+/` |
| EmailShape.EmailShapeExamples | mini-crm/app.js:577-579 | "ana@x.co" passes, "ana.x.co" does not |
| Csv.ReadQuotedEscape | dashboard-metas/app.js:762-765 | a doubled-quote escaped field is read back exactly |
| Csv.ReadQuotedRecord | dashboard-metas/app.js:761-767 | an exported record is read back field by field |
| Csv.DocumentRoundTrip | dashboard-metas/app.js:759-770 | the header line and every row are read back |
| Tally.TotalsContents | controle-caixa/app.js:421-430 | the pre-seeded keys and every used key have one entry holding that key's total |
| Tally.TotalsSum | controle-caixa/app.js:421-430 | the totals add up to the sum of the values |
| Tally.KeysAtMaxSpec | controle-caixa/app.js:371-374 | the listed keys are exactly those whose value is the maximum and positive; none when no value is positive |
| Tally.FirstMaxIndex | controle-caixa/app.js:452-453 | the first entry holding the largest value |
| Sorting.SortSorted | mini-crm/app.js:64 | the sort's result is ordered by key |
| Sorting.SortStable | controle-caixa/app.js:369 | elements with equal keys keep their original order |
| Sorting.SortTakeTop | controle-caixa/app.js:369 | the first n of the sorted list are ordered and no element left out sorts earlier |
| Text.TrimIsCore | mini-crm/app.js:387-388 | trim removes exactly the leading and trailing whitespace |
| Text.TrimIdempotent | gerador-propostas/app.js:226 | trimming twice equals trimming once |
| Text.TrimEmptyIffBlank | gerador-propostas/app.js:226 | the trimmed text is empty exactly when the text is blank |
| Text.NatToStringRoundTrip | dashboard-metas/app.js:72 | the decimal digits of n read back as n |
| Text.LeadingZeros | dashboard-metas/app.js:72 | zero padding does not change the value read back |

## Left out

- Floating point: amounts are Dafny `real`. IEEE-754 rounding, overflow to Infinity and NaN are not modelled. So equalities such as `Proposals.PercentTotalIsShare`, `SalesMetrics.GoalPerDay` and `Investments.ComparePercent` hold exactly here but only approximately in the browser.
- SalesGoals.SubmitStoresValidSales: holds only because a `real` cannot be NaN. In the source, `Number` of a non-numeric field is NaN (dashboard-metas/app.js:423), and `NaN <= 0` is false, so the guard at dashboard-metas/app.js:429 lets a NaN value through.
- CashFlow.SaveKeepsValid: holds for the same reason. `Number` can give NaN at controle-caixa/app.js:267, and the guard at controle-caixa/app.js:271 lets it through.
- Investments.ReadForm: the term is an `int`. The source's `Number(...) || 1` accepts a fractional term (simulador-investimentos/app.js:65), which then drives a loop bound and an exponent. Fractional terms are not modelled.
- Tally: JavaScript objects list integer-like keys first, in ascending order, and other keys in insertion order. The model keeps plain insertion order. The order of category and date keys in the report and in `maxCategory` differs only when a key looks like an array index, which ISO dates and the default categories never do.
- Time zones: `new Date("YYYY-MM-DD")` parses as UTC midnight while `getMonth`/`getDate` read local time (dashboard-metas/app.js:117-126, controle-caixa/app.js:393-400). Dates therefore reach the model through the given functions `dateOf`, `monthOf`, `dayOf` and `isoOfDay`, which hide that shift.
- MiniCrm.FollowupKey: an unreadable follow-up date sorts last. In the source, `new Date(a) - new Date(b)` is NaN for such a date (mini-crm/app.js:574), which is not a consistent order. `MiniCrm.FollowupCompareIsKeyOrder` is stated for readable dates only.
- MiniCrm.FollowupCompare: for an unreadable follow-up date it returns 0, which is what the sort does with NaN. Both sort orders compare instants (`instantOf`, standing for `getTime`), while the badge and the priority panel compare local days (`dayOf`, standing for `startOfDay`). The model does not relate the two functions.
- MiniCrm.SortKeyOf: an unreadable `createdAt` sorts last in the "recente" order. In the source, `new Date(b.createdAt) - new Date(a.createdAt)` is NaN for it (mini-crm/app.js:344), which is not a consistent order.
- TypeErrors: a non-string `nome` in the store (`.toLowerCase()` at mini-crm/app.js:316) and a null item in an imported array (mini-crm/app.js:492) throw in the source. The model's types rule both out. The import's catch-all toast is not modelled.
- Parsing: `JSON.parse`, `Number()`, `parseFloat` and `parseCurrency` are not modelled. Their results come in as `Option<real>` (None for NaN or absent). Parsing the import file is not modelled, nor the "JSON invalido" toast for a non-array, nor `DataStore.load`/`Store.load`.
- MiniCrm.SubmitLead: requires that some draw of `gen` is unused. With an id generator that never yields a fresh id, the source's `while` loop (mini-crm/app.js:425-427) would not terminate.
- MiniCrm.NormalizeLead: a missing `nome` becomes "" in the model. In the source it stays `undefined`, but such items are filtered out before normalising (mini-crm/app.js:492), so this cannot be observed on import.
- Locale and formatting: `localeCompare` is the parameter `nameRank`, and `toLowerCase` is the parameter `lower`. `toLocaleDateString` is `formatDate`, `String(number)` is `numberText`, and `Intl.NumberFormat` is not modelled.
- `Math.pow(1 + r, 1/12)`: the twelfth root is the parameter `root12`, since it needs a fractional exponent.
- SalesMetrics.TotalsByDay: a sale whose parsed day lies outside 1..days is not added anywhere. The source would write past the array (dashboard-metas/app.js:123-124), which the given calendar rules out.
- SalesMetrics.CountBusinessDays: whether a day is a business day is the given function `isBusinessDay`.
- Ids and the clock: `generateId`/`crypto.randomUUID` are a fresh-id parameter or a draw sequence, and `new Date().toISOString()` is the parameter `now`. All clock reads within one operation are taken as the same instant. So `SalesGoals.CreateEffect`, `CashFlow.SaveTransaction`, `MiniCrm.NormalizeLead` and the import give createdAt == updatedAt, although the source reads the clock twice (dashboard-metas/app.js:92-93, controle-caixa/app.js:289-290, mini-crm/app.js:630-631) and the two readings can differ by a millisecond.
- Dashboard goal form (`handleGoalSubmit`), reset, whole-state export/import and the import preview of the dashboard and the cash-flow tracker: these are storage glue around `JSON.parse`/`localStorage`.
- Cash-flow category editing (`addCategory`) and the table filter (`getFilteredTransactions`): UI-side list maintenance outside the modelled core.
- The proposal's clipboard summary text (`handleCopy` beyond the total), the WhatsApp URL (`encodeURIComponent`, `window.open`) and `navigator.clipboard`: string formatting and browser I/O.
- Charts, rendering, modals, toasts, event binding, `localStorage`, `FileReader`, `Blob` downloads and `debounce`: UI and I/O.
- The top-level app.js (portfolio page) and mini-game/app.js: canvas animation, timers and randomness, with no business logic to state.

=== FILE: cash_flow.dfy ===
/** The cash-flow tracker: stored state and its migration, saving and deleting transactions,
    the month's KPIs (entradas, saidas, saldo, largest expense category), the running daily
    balance, per-category and per-day totals, the report's top-5 expenses and top days, and the
    CSV export. Dates stay ISO strings; the calendar is given: the ISO date of each day of the
    month, and the (year, month) a date string falls in. */
module CashFlow {
  import opened Wrappers
  import Text
  import Seqs
  import Tally
  import Csv
  import Sorting

  /** `CONFIG.version`. */
  const Version := 1

  datatype Category = Category(name: string, limit: real)

  /** `CONFIG.defaultCategories`. */
  const DefaultCategories: seq<Category> := [
    Category("Alimentacao", 0.0), Category("Transporte", 0.0), Category("Contas", 0.0),
    Category("Lazer", 0.0), Category("Saude", 0.0), Category("Outros", 0.0)]

  /** A stored transaction; `kind` is the source's `type` ("entrada" or "saida"). */
  datatype Transaction = Transaction(
    id: string, kind: string, date: string, value: real, category: string, description: string,
    createdAt: string, updatedAt: string)

  datatype Settings = Settings(reduceMotion: Option<bool>)

  datatype CashState = CashState(version: int, settings: Settings, categories: seq<Category>,
                                 transactions: seq<Transaction>)

  /** The parsed stored object; None marks a field that is absent (a version of None is also
      a null one). */
  datatype Loaded = Loaded(version: Option<int>, settings: Option<Settings>,
                           categories: Option<seq<Category>>, transactions: Option<seq<Transaction>>)

  // ----- stored state -----

  function DefaultState(): (s: CashState)
    ensures s.version == Version && s.categories == DefaultCategories && s.transactions == []
  {
    CashState(Version, Settings(None), DefaultCategories, [])
  }

  /** `!data.version`: missing, null or 0. */
  predicate VersionMissing(data: Loaded) {
    data.version.None? || data.version.value == 0
  }

  /** `Store.migrate`: no version gives the default state; otherwise the default state
      overlaid, field by field, by the fields the data has. */
  function Migrate(data: Loaded): (r: CashState)
    ensures r.version != 0
    ensures VersionMissing(data) ==> r == DefaultState()
    ensures !VersionMissing(data) ==> r.version == data.version.value
    ensures !VersionMissing(data) ==> r.settings == data.settings.GetOr(Settings(None))
    ensures !VersionMissing(data) ==> r.categories == data.categories.GetOr(DefaultCategories)
    ensures !VersionMissing(data) ==> r.transactions == data.transactions.GetOr([])
  {
    if VersionMissing(data) then DefaultState()
    else
      var d := DefaultState();
      CashState(data.version.value, data.settings.GetOr(d.settings), data.categories.GetOr(d.categories),
                data.transactions.GetOr(d.transactions))
  }

  /** What `Store.save` writes, as read back: every field present. */
  function Saved(s: CashState): (d: Loaded)
    ensures d.version == Some(s.version) && d.transactions == Some(s.transactions)
  {
    Loaded(Some(s.version), Some(s.settings), Some(s.categories), Some(s.transactions))
  }

  /** A saved state loads back unchanged, so loading is idempotent across save/load cycles. */
  lemma MigrateSaved(s: CashState)
    requires s.version != 0
    ensures Migrate(Saved(s)) == s
    ensures Migrate(Saved(Migrate(Saved(s)))) == Migrate(Saved(s))
  {
  }

  // ----- saving and deleting -----

  /** What the transaction form submits (the description already trimmed, "" when absent). */
  datatype Payload = Payload(kind: string, date: string, value: real, category: string, description: string)

  /** The form's fields: `description?.trim() || ""`. */
  function FormPayload(kind: string, date: string, value: real, category: string, description: Option<string>)
    : (p: Payload)
    ensures p.kind == kind && p.date == date && p.value == value && p.category == category
    ensures description.None? ==> p.description == ""
    ensures description.Some? ==> p.description == Text.Trim(description.value)
  {
    Payload(kind, date, value, category, if description.Some? then Text.Trim(description.value) else "")
  }

  const InvalidTransaction := "Preencha data e valor valido."
  const TransactionUpdated := "Lancamento atualizado."
  const TransactionCreated := "Lancamento criado."

  /** `{...t, ...payload, updatedAt: now}`. */
  function Apply(t: Transaction, p: Payload, now: string): (r: Transaction)
    ensures r.id == t.id && r.createdAt == t.createdAt && r.updatedAt == now
    ensures r.kind == p.kind && r.date == p.date && r.value == p.value
    ensures r.category == p.category && r.description == p.description
  {
    Transaction(t.id, p.kind, p.date, p.value, p.category, p.description, t.createdAt, now)
  }

  function HasId(t: Transaction, id: string): bool {
    t.id == id
  }

  /** `saveTransaction`: a missing date or a value that is not positive is refused; with an
      editing id the first transaction carrying it gets the payload (nothing changes when none
      does, the toast is the same); otherwise a new transaction with a fresh id and both
      timestamps at now is appended. Returns the list and the toast. */
  function SaveTransaction(txs: seq<Transaction>, editingId: string, p: Payload, freshId: string, now: string)
    : (r: (seq<Transaction>, string))
    ensures p.date == "" || p.value <= 0.0 ==> r == (txs, InvalidTransaction)
    ensures p.date != "" && p.value > 0.0 && editingId != "" ==>
              r.1 == TransactionUpdated && |r.0| == |txs|
    ensures p.date != "" && p.value > 0.0 && editingId == "" ==>
              r == (txs + [Transaction(freshId, p.kind, p.date, p.value, p.category, p.description, now, now)],
                    TransactionCreated)
  {
    if p.date == "" || p.value <= 0.0 then (txs, InvalidTransaction)
    else if editingId != "" then
      var i := Seqs.FindIndex(txs, (t: Transaction) => t.id == editingId);
      (if i >= 0 then txs[i := Apply(txs[i], p, now)] else txs, TransactionUpdated)
    else
      (txs + [Transaction(freshId, p.kind, p.date, p.value, p.category, p.description, now, now)],
       TransactionCreated)
  }

  /** Editing rewrites only the first transaction with the editing id, and every transaction
      keeps its id; an id nobody has changes nothing. */
  lemma SaveEdits(txs: seq<Transaction>, editingId: string, p: Payload, freshId: string, now: string, j: int)
    requires p.date != "" && p.value > 0.0 && editingId != ""
    requires 0 <= j < |txs|
    ensures var r := SaveTransaction(txs, editingId, p, freshId, now).0;
            var i := Seqs.FindIndex(txs, (t: Transaction) => t.id == editingId);
            && r[j].id == txs[j].id
            && (j == i ==> r[j] == Apply(txs[j], p, now))
            && (j != i ==> r[j] == txs[j])
            && (i == -1 ==> r == txs)
  {
  }

  /** Every stored transaction has a date and a positive value, if it was so before a save. */
  lemma SaveKeepsValid(txs: seq<Transaction>, editingId: string, p: Payload, freshId: string, now: string, j: int)
    requires forall k :: 0 <= k < |txs| ==> txs[k].date != "" && txs[k].value > 0.0
    requires 0 <= j < |SaveTransaction(txs, editingId, p, freshId, now).0|
    ensures SaveTransaction(txs, editingId, p, freshId, now).0[j].date != ""
    ensures SaveTransaction(txs, editingId, p, freshId, now).0[j].value > 0.0
  {
    if j < |txs| {
      assert SaveTransaction(txs, editingId, p, freshId, now).0[j] in {txs[j], Apply(txs[j], p, now)};
    }
  }

  /** `deleteTransaction`: after confirmation, the transactions without the id, in order. */
  function DeleteTransaction(txs: seq<Transaction>, id: string, confirmed: bool): (r: seq<Transaction>)
    ensures !confirmed ==> r == txs
    ensures confirmed ==> forall i :: 0 <= i < |r| ==> r[i].id != id
    ensures confirmed ==> forall t :: t in txs && t.id != id ==> t in r
    ensures forall t :: t in r ==> t in txs
    ensures confirmed ==> forall t :: multiset(r)[t] == if t.id != id then multiset(txs)[t] else 0
    ensures Seqs.IsSubseq(r, txs)
  {
    Seqs.FilterSpec(txs, (t: Transaction) => t.id != id);
    Seqs.SubseqRefl(txs);
    if confirmed then Seqs.Filter(txs, (t: Transaction) => t.id != id) else txs
  }

  /** Deleting a transaction just created under a fresh id gives back the list before. */
  lemma DeleteCreated(txs: seq<Transaction>, p: Payload, freshId: string, now: string)
    requires p.date != "" && p.value > 0.0
    requires forall i :: 0 <= i < |txs| ==> txs[i].id != freshId
    ensures DeleteTransaction(SaveTransaction(txs, "", p, freshId, now).0, freshId, true) == txs
  {
    var t := Transaction(freshId, p.kind, p.date, p.value, p.category, p.description, now, now);
    var keep := (t: Transaction) => t.id != freshId;
    Seqs.FilterAppend(txs, [t], keep);
    Seqs.FilterIdentity(txs, keep);
    assert Seqs.Filter([t], keep) == [];
  }

  /** `getCurrentTransactions`: the transactions dated in the given month. */
  function CurrentTransactions(txs: seq<Transaction>, year: int, month: int, monthOf: string -> (int, int))
    : (r: seq<Transaction>)
    ensures forall i :: 0 <= i < |r| ==> monthOf(r[i].date) == (year, month)
    ensures forall t :: t in txs && monthOf(t.date) == (year, month) ==> t in r
    ensures forall t :: t in r ==> t in txs
    ensures forall t :: multiset(r)[t] == if monthOf(t.date) == (year, month) then multiset(txs)[t] else 0
    ensures Seqs.IsSubseq(r, txs)
  {
    var inMonth := (t: Transaction) => monthOf(t.date) == (year, month);
    Seqs.FilterSpec(txs, inMonth);
    Seqs.Filter(txs, inMonth)
  }

  /** The month's list of a longer history is the month's list of each part, in order: a
      transaction added at the end shows up last in its own month and nowhere else. */
  lemma CurrentTransactionsAppend(a: seq<Transaction>, b: seq<Transaction>, year: int, month: int,
                                  monthOf: string -> (int, int))
    ensures CurrentTransactions(a + b, year, month, monthOf)
            == CurrentTransactions(a, year, month, monthOf) + CurrentTransactions(b, year, month, monthOf)
    ensures |b| == 1 ==>
              CurrentTransactions(b, year, month, monthOf) == if monthOf(b[0].date) == (year, month) then b else []
  {
    Seqs.FilterAppend(a, b, (t: Transaction) => monthOf(t.date) == (year, month));
    if |b| == 1 {
      assert b[1..] == [];
    }
  }

  // ----- KPIs -----

  function Value(t: Transaction): real {
    t.value
  }

  /** The transactions of one kind, in order. */
  function OfKind(list: seq<Transaction>, kind: string): seq<Transaction> {
    Seqs.Filter(list, (t: Transaction) => t.kind == kind)
  }

  /** A transaction's effect on the balance: entradas add, anything else subtracts. */
  function Signed(t: Transaction): real {
    if t.kind == "entrada" then t.value else -t.value
  }

  predicate KnownKinds(list: seq<Transaction>) {
    forall i :: 0 <= i < |list| ==> list[i].kind == "entrada" || list[i].kind == "saida"
  }

  /** When every transaction is an entrada or a saida, their signed sum is entradas minus saidas. */
  lemma {:induction false} SignedSum(list: seq<Transaction>)
    requires KnownKinds(list)
    ensures Seqs.Sum(list, Signed) == Seqs.Sum(OfKind(list, "entrada"), Value) - Seqs.Sum(OfKind(list, "saida"), Value)
  {
    if |list| > 0 {
      var n := |list| - 1;
      var init := list[..n];
      var t := list[n];
      assert list == init + [t];
      SignedSum(init);
      Seqs.FilterSumSnoc(init, t, (x: Transaction) => x.kind == "entrada", Value);
      Seqs.FilterSumSnoc(init, t, (x: Transaction) => x.kind == "saida", Value);
    }
  }

  function CategoryNames(categories: seq<Category>): (r: seq<string>)
    ensures |r| == |categories|
    ensures forall i :: 0 <= i < |r| ==> r[i] == categories[i].name
  {
    seq(|categories|, i requires 0 <= i < |categories| => categories[i].name)
  }

  function CategoryOf(t: Transaction): string {
    t.category
  }

  /** `totalsByCategory`: every category starts at 0, then each transaction adds its value
      under its category (an unknown category gets its own entry). */
  function TotalsByCategory(categories: seq<Category>, list: seq<Transaction>): Tally.Entries {
    Tally.Totals(CategoryNames(categories), list, CategoryOf, Value)
  }

  /** Each category, and each category a transaction names, has one entry holding the total of
      its transactions; nothing else has one; all entries add up to the total value. */
  lemma TotalsByCategorySpec(categories: seq<Category>, list: seq<Transaction>, name: string)
    ensures Tally.DistinctKeys(TotalsByCategory(categories, list))
    ensures Tally.Get(TotalsByCategory(categories, list), name) ==
              if name in CategoryNames(categories) || name in Tally.ItemKeys(list, CategoryOf)
              then Some(Tally.SumWhere(list, CategoryOf, Value, name))
              else None
    ensures Tally.ValueSum(TotalsByCategory(categories, list)) == Seqs.Sum(list, Value)
  {
    Tally.TotalsDistinct(CategoryNames(categories), list, CategoryOf, Value);
    Tally.TotalsContents(CategoryNames(categories), list, CategoryOf, Value, name);
    Tally.TotalsSum(CategoryNames(categories), list, CategoryOf, Value);
  }

  function DateOf(t: Transaction): string {
    t.date
  }

  /** `totalsByDay`: one entry per date that occurs, in order of first occurrence. */
  function TotalsByDay(list: seq<Transaction>): Tally.Entries {
    Tally.Totals([], list, DateOf, Value)
  }

  /** Exactly the dates that occur have an entry, each holding the total of that date. */
  lemma TotalsByDaySpec(list: seq<Transaction>, date: string)
    ensures Tally.DistinctKeys(TotalsByDay(list))
    ensures Tally.Get(TotalsByDay(list), date) ==
              if date in Tally.ItemKeys(list, DateOf) then Some(Tally.SumWhere(list, DateOf, Value, date)) else None
  {
    Tally.TotalsDistinct([], list, DateOf, Value);
    Tally.TotalsContents([], list, DateOf, Value, date);
  }

  datatype Kpis = Kpis(entradas: real, saidas: real, saldo: real, maxCategory: Option<(string, real)>)

  /** `renderKPIs`: the totals of entradas and saidas, their difference, and the first
      category with the largest expense total (None when there are no categories at all). */
  function ComputeKpis(categories: seq<Category>, list: seq<Transaction>): (k: Kpis)
    ensures k.saldo == k.entradas - k.saidas
    ensures k.maxCategory.None? <==> |TotalsByCategory(categories, OfKind(list, "saida"))| == 0
    ensures k.maxCategory.Some? ==>
              var e := TotalsByCategory(categories, OfKind(list, "saida"));
              && (exists i :: 0 <= i < |e| && e[i] == k.maxCategory.value)
              && forall j :: 0 <= j < |e| ==> e[j].1 <= k.maxCategory.value.1
  {
    var entradas := Seqs.Sum(OfKind(list, "entrada"), Value);
    var saidas := Seqs.Sum(OfKind(list, "saida"), Value);
    var e := TotalsByCategory(categories, OfKind(list, "saida"));
    var m := Tally.FirstMaxIndex(e);
    Kpis(entradas, saidas, entradas - saidas, if m >= 0 then Some(e[m]) else None)
  }

  function KindOf(t: Transaction): string {
    t.kind
  }

  /** The total of one kind's filtered list is the total of the transactions of that kind. */
  lemma {:induction false} OfKindSum(list: seq<Transaction>, kind: string)
    ensures Seqs.Sum(OfKind(list, kind), Value) == Tally.SumWhere(list, KindOf, Value, kind)
  {
    if |list| > 0 {
      var n := |list| - 1;
      assert list == list[..n] + [list[n]];
      OfKindSum(list[..n], kind);
      Seqs.FilterSumSnoc(list[..n], list[n], (t: Transaction) => t.kind == kind, Value);
    }
  }

  /** The KPI cards total exactly the month's entradas and saidas. */
  lemma KpisPerKind(categories: seq<Category>, list: seq<Transaction>)
    ensures ComputeKpis(categories, list).entradas == Tally.SumWhere(list, KindOf, Value, "entrada")
    ensures ComputeKpis(categories, list).saidas == Tally.SumWhere(list, KindOf, Value, "saida")
  {
    OfKindSum(list, "entrada");
    OfKindSum(list, "saida");
  }

  /** The month's saldo is the signed sum of its transactions when each is an entrada or a saida. */
  lemma SaldoIsNet(categories: seq<Category>, list: seq<Transaction>)
    requires KnownKinds(list)
    ensures ComputeKpis(categories, list).saldo == Seqs.Sum(list, Signed)
  {
    SignedSum(list);
  }

  // ----- the running balance -----

  /** The transactions dated exactly `date`. */
  function OnDate(list: seq<Transaction>, date: string): seq<Transaction> {
    Seqs.Filter(list, (t: Transaction) => t.date == date)
  }

  /** One day's change of the balance: the signed values of the transactions dated `date`. */
  function DayNet(list: seq<Transaction>, date: string): real {
    if |list| == 0 then 0.0
    else
      var last := list[|list| - 1];
      DayNet(list[..|list| - 1], date) + (if last.date == date then Signed(last) else 0.0)
  }

  /** The day's change is what the source computes: the signed sum over the day's filtered list. */
  lemma {:induction false} DayNetFiltered(list: seq<Transaction>, date: string)
    ensures DayNet(list, date) == Seqs.Sum(OnDate(list, date), Signed)
  {
    if |list| > 0 {
      var n := |list| - 1;
      assert list == list[..n] + [list[n]];
      DayNetFiltered(list[..n], date);
      Seqs.FilterSumSnoc(list[..n], list[n], (t: Transaction) => t.date == date, Signed);
    }
  }

  /** The balance at the end of day d of the month: the day changes of days 1..d. */
  function Cumulative(list: seq<Transaction>, isoOfDay: int -> string, d: nat): real {
    if d == 0 then 0.0 else Cumulative(list, isoOfDay, d - 1) + DayNet(list, isoOfDay(d))
  }

  /** `list.filter(...).forEach(...)` for one day: the balance moved by each transaction. */
  method ApplyDay(balance: real, onDay: seq<Transaction>) returns (b: real)
    ensures b == balance + Seqs.Sum(onDay, Signed)
  {
    b := balance;
    var j := 0;
    while j < |onDay|
      invariant 0 <= j <= |onDay|
      invariant b == balance + Seqs.Sum(onDay[..j], Signed)
    {
      assert onDay[..j + 1][..j] == onDay[..j];
      b := b + Signed(onDay[j]);
      j := j + 1;
    }
    assert onDay[..j] == onDay;
  }

  /** The balances at the end of days 1..n. */
  function BalanceSeries(list: seq<Transaction>, isoOfDay: int -> string, n: nat): (r: seq<real>)
    ensures |r| == n
  {
    if n == 0 then [] else BalanceSeries(list, isoOfDay, n - 1) + [Cumulative(list, isoOfDay, n)]
  }

  /** Entry i is the balance after day i + 1. */
  lemma {:induction false} BalanceSeriesEntries(list: seq<Transaction>, isoOfDay: int -> string, n: nat, i: int)
    requires 0 <= i < n
    ensures BalanceSeries(list, isoOfDay, n)[i] == Cumulative(list, isoOfDay, i + 1)
  {
    if i < n - 1 {
      BalanceSeriesEntries(list, isoOfDay, n - 1, i);
    }
  }

  /** The first entry is the first day's change; each later entry is the one before plus that
      day's change. */
  lemma BalanceSeriesStep(list: seq<Transaction>, isoOfDay: int -> string, n: nat, i: int)
    requires 0 <= i < n
    ensures i == 0 ==> BalanceSeries(list, isoOfDay, n)[i] == DayNet(list, isoOfDay(1))
    ensures i > 0 ==> BalanceSeries(list, isoOfDay, n)[i] ==
                        BalanceSeries(list, isoOfDay, n)[i - 1] + DayNet(list, isoOfDay(i + 1))
  {
    BalanceSeriesEntries(list, isoOfDay, n, i);
    assert Cumulative(list, isoOfDay, i + 1) == Cumulative(list, isoOfDay, i) + DayNet(list, isoOfDay(i + 1));
    if i > 0 {
      BalanceSeriesEntries(list, isoOfDay, n, i - 1);
    }
  }

  /** `buildBalanceSeries`: for each day 1..days, the balance after that day's transactions. */
  method BuildBalanceSeries(list: seq<Transaction>, days: nat, isoOfDay: int -> string)
    returns (series: seq<real>)
    ensures series == BalanceSeries(list, isoOfDay, days)
  {
    series := [];
    var balance := 0.0;
    var day := 1;
    while day <= days
      invariant 1 <= day <= days + 1
      invariant balance == Cumulative(list, isoOfDay, day - 1)
      invariant series == BalanceSeries(list, isoOfDay, day - 1)
    {
      assert Cumulative(list, isoOfDay, day) == balance + DayNet(list, isoOfDay(day));
      DayNetFiltered(list, isoOfDay(day));
      balance := ApplyDay(balance, OnDate(list, isoOfDay(day)));
      series := series + [balance];
      day := day + 1;
    }
  }

  /** A day's change is its entradas minus its saidas when every transaction is one of the two. */
  lemma DayNetIsInMinusOut(list: seq<Transaction>, date: string)
    requires KnownKinds(list)
    ensures DayNet(list, date) ==
              Seqs.Sum(OfKind(OnDate(list, date), "entrada"), Value) - Seqs.Sum(OfKind(OnDate(list, date), "saida"), Value)
  {
    var on := OnDate(list, date);
    assert forall i :: 0 <= i < |on| ==> on[i] in list;
    SignedSum(on);
    DayNetFiltered(list, date);
  }

  predicate InMonth(date: string, isoOfDay: int -> string, days: nat) {
    exists d :: 1 <= d <= days && isoOfDay(d) == date
  }

  /** The ISO dates of different days of the month differ. */
  predicate DistinctDays(isoOfDay: int -> string, days: nat) {
    forall a, b :: 1 <= a <= days && 1 <= b <= days && isoOfDay(a) == isoOfDay(b) ==> a == b
  }

  lemma DayNetSnoc(list: seq<Transaction>, t: Transaction, date: string)
    ensures DayNet(list + [t], date) == DayNet(list, date) + (if t.date == date then Signed(t) else 0.0)
  {
    assert (list + [t])[..|list|] == list;
  }

  lemma {:induction false} CumulativeEmpty(isoOfDay: int -> string, n: nat)
    ensures Cumulative([], isoOfDay, n) == 0.0
  {
    if n > 0 {
      CumulativeEmpty(isoOfDay, n - 1);
    }
  }

  /** What one transaction adds to the balance at the end of day n: its signed value once for
      each of the days 1..n that carries its date. */
  function Contribution(t: Transaction, isoOfDay: int -> string, n: nat): real {
    if n == 0 then 0.0 else Contribution(t, isoOfDay, n - 1) + (if isoOfDay(n) == t.date then Signed(t) else 0.0)
  }

  lemma {:induction false} CumulativeSnoc(list: seq<Transaction>, t: Transaction, isoOfDay: int -> string, n: nat)
    ensures Cumulative(list + [t], isoOfDay, n) == Cumulative(list, isoOfDay, n) + Contribution(t, isoOfDay, n)
  {
    if n > 0 {
      CumulativeSnoc(list, t, isoOfDay, n - 1);
      DayNetSnoc(list, t, isoOfDay(n));
    }
  }

  lemma {:induction false} ContributionOutside(t: Transaction, isoOfDay: int -> string, n: nat)
    requires !InMonth(t.date, isoOfDay, n)
    ensures Contribution(t, isoOfDay, n) == 0.0
  {
    if n > 0 {
      assert isoOfDay(n) != t.date;
      assert !InMonth(t.date, isoOfDay, n - 1);
      ContributionOutside(t, isoOfDay, n - 1);
    }
  }

  /** With distinct day dates, a transaction dated in the month counts exactly once. */
  lemma {:induction false} ContributionInside(t: Transaction, isoOfDay: int -> string, n: nat, d: int)
    requires DistinctDays(isoOfDay, n)
    requires 1 <= d <= n && isoOfDay(d) == t.date
    ensures Contribution(t, isoOfDay, n) == Signed(t)
  {
    if d == n {
      assert !InMonth(t.date, isoOfDay, n - 1);
      ContributionOutside(t, isoOfDay, n - 1);
    } else {
      assert isoOfDay(n) != t.date;
      ContributionInside(t, isoOfDay, n - 1, d);
    }
  }

  /** When every transaction is dated in the month, the last day's balance is their signed sum. */
  lemma {:induction false} CumulativeTotal(list: seq<Transaction>, isoOfDay: int -> string, n: nat)
    requires DistinctDays(isoOfDay, n)
    requires forall i :: 0 <= i < |list| ==> InMonth(list[i].date, isoOfDay, n)
    ensures Cumulative(list, isoOfDay, n) == Seqs.Sum(list, Signed)
  {
    if |list| == 0 {
      CumulativeEmpty(isoOfDay, n);
    } else {
      var k := |list| - 1;
      assert list == list[..k] + [list[k]];
      CumulativeTotal(list[..k], isoOfDay, n);
      CumulativeSnoc(list[..k], list[k], isoOfDay, n);
      var d :| 1 <= d <= n && isoOfDay(d) == list[k].date;
      ContributionInside(list[k], isoOfDay, n, d);
    }
  }

  /** The balance chart ends at the saldo KPI when the month's transactions are all entradas or
      saidas dated in the month. */
  lemma BalanceEndsAtSaldo(categories: seq<Category>, list: seq<Transaction>, isoOfDay: int -> string, days: nat)
    requires DistinctDays(isoOfDay, days)
    requires KnownKinds(list)
    requires forall i :: 0 <= i < |list| ==> InMonth(list[i].date, isoOfDay, days)
    ensures Cumulative(list, isoOfDay, days) == ComputeKpis(categories, list).saldo
  {
    CumulativeTotal(list, isoOfDay, days);
    SignedSum(list);
  }

  // ----- the report -----

  function Expenses(list: seq<Transaction>): (r: seq<Transaction>)
    ensures forall i :: 0 <= i < |r| ==> r[i].kind == "saida"
  {
    OfKind(list, "saida")
  }

  /** `(a, b) => b.value - a.value`: larger values first. */
  function ExpenseKey(t: Transaction): Sorting.SortKey {
    Sorting.Finite(-t.value)
  }

  /** The report's "Top 5 gastos": the expenses sorted by value, largest first, cut to five. */
  function TopExpenses(list: seq<Transaction>): seq<Transaction> {
    Sorting.SortTake(Expenses(list), ExpenseKey, 5)
  }

  /** At most five expenses, five when there are that many, largest first. */
  lemma TopExpensesOrdered(list: seq<Transaction>)
    ensures var top := TopExpenses(list);
            && |top| == (if |Expenses(list)| < 5 then |Expenses(list)| else 5)
            && (forall i :: 0 <= i < |top| ==> top[i].kind == "saida" && top[i] in list)
            && (forall i, j :: 0 <= i < j < |top| ==> top[i].value >= top[j].value)
  {
    var ex := Expenses(list);
    var top := TopExpenses(list);
    Sorting.SortTakeTop(ex, ExpenseKey, 5);
    forall i | 0 <= i < |top| ensures top[i].kind == "saida" && top[i] in list {
      assert top[i] in ex;
    }
  }

  /** No expense left out of the top five is larger than one selected. */
  lemma TopExpensesMaximal(list: seq<Transaction>, t: Transaction)
    requires t in multiset(Expenses(list)) - multiset(TopExpenses(list))
    ensures forall i :: 0 <= i < |TopExpenses(list)| ==> t.value <= TopExpenses(list)[i].value
  {
    Sorting.SortTakeRest(Expenses(list), ExpenseKey, 5, t);
  }

  /** The report's top days: the dates whose expense total is the largest and positive. */
  function TopDays(list: seq<Transaction>): seq<string> {
    Tally.KeysAtMax(TotalsByDay(Expenses(list)))
  }

  /** `maxDay`: the largest daily expense total, 0 when there is none. */
  function MaxDay(list: seq<Transaction>): real {
    Tally.MaxOrZero(TotalsByDay(Expenses(list)))
  }

  /** Each top day is an expense date whose total is the maximum and positive; there is no top
      day when there is no expense. */
  lemma TopDaysSpec(list: seq<Transaction>, day: string)
    ensures day in TopDays(list) ==>
              && Tally.Get(TotalsByDay(Expenses(list)), day) == Some(MaxDay(list))
              && MaxDay(list) > 0.0
              && day in Tally.ItemKeys(Expenses(list), DateOf)
    ensures |Expenses(list)| == 0 ==> TopDays(list) == []
  {
    var e := TotalsByDay(Expenses(list));
    Tally.KeysAtMaxSpec(e);
    TotalsByDaySpec(Expenses(list), day);
    if day in TopDays(list) {
      var i :| 0 <= i < |e| && e[i].0 == day && e[i].1 > 0.0 && forall j :: 0 <= j < |e| ==> e[j].1 <= e[i].1;
      Tally.GetAt(e, i);
      assert e[i].1 == MaxDay(list) by {
        var w :| 0 <= w < |e| && e[w].1 == MaxDay(list);
      }
    }
  }

  // ----- CSV export -----

  const CsvHeaders: seq<string> := ["date", "type", "value", "category", "description"]

  /** The fields of one exported transaction, in header order; numberText renders a value as
      `String` does. */
  function TransactionFields(t: Transaction, numberText: real -> string): (r: seq<string>)
    ensures |r| == |CsvHeaders|
  {
    [t.date, t.kind, numberText(t.value), t.category, t.description]
  }

  /** `convertToCSV`: the header line, then one line per transaction, fields quoted and joined by ';'. */
  function TransactionsToCsv(list: seq<Transaction>, numberText: real -> string): string {
    Csv.Document(CsvHeaders, seq(|list|, i requires 0 <= i < |list| => TransactionFields(list[i], numberText)), ';')
  }

  /** Reading the export back gives the header and every transaction's fields, line by line. */
  lemma TransactionsCsvRoundTrip(list: seq<Transaction>, numberText: real -> string)
    ensures Csv.ReadDocument(TransactionsToCsv(list, numberText), ';')
            == Some([CsvHeaders] + seq(|list|, i requires 0 <= i < |list| => TransactionFields(list[i], numberText)))
  {
    var rows := seq(|list|, i requires 0 <= i < |list| => TransactionFields(list[i], numberText));
    forall i | 0 <= i < |CsvHeaders| ensures Csv.Bare(CsvHeaders[i], ';') {
    }
    Csv.DocumentRoundTrip(CsvHeaders, rows, ';');
  }
}

=== FILE: csv.dfy ===
/** The delimited-text export shared by the sales dashboard and the cash-flow tracker:
    a header line of bare column names, then one line per record whose fields are each
    wrapped in '"' with every inner '"' doubled (the quoting of section 2 of RFC 4180),
    lines joined by '\n'. A reader for that format is defined too, so that the export
    can be shown to lose nothing. */
module Csv {
  import opened Wrappers

  /** `String(v).replace(/"/g, '""')`. */
  function Escape(s: string): (r: string)
    ensures |r| >= |s|
  {
    if |s| == 0 then ""
    else if s[0] == '"' then "\"\"" + Escape(s[1..])
    else [s[0]] + Escape(s[1..])
  }

  /** `"${escaped}"`. */
  function QuoteField(s: string): string {
    "\"" + Escape(s) + "\""
  }

  /** `parts.join(sep)`. */
  function Join(parts: seq<string>, sep: char): string {
    if |parts| == 0 then ""
    else if |parts| == 1 then parts[0]
    else parts[0] + [sep] + Join(parts[1..], sep)
  }

  /** One exported record: every field quoted, joined by sep. */
  function QuotedRecord(fields: seq<string>, sep: char): string {
    Join(seq(|fields|, i requires 0 <= i < |fields| => QuoteField(fields[i])), sep)
  }

  /** The exported document: the bare header line, then one quoted line per row. */
  function Document(header: seq<string>, rows: seq<seq<string>>, sep: char): string {
    Join([Join(header, sep)] + seq(|rows|, i requires 0 <= i < |rows| => QuotedRecord(rows[i], sep)), '\n')
  }

  /** A header name that needs no quoting: no quote, separator or line break in it. */
  predicate Bare(f: string, sep: char) {
    forall i :: 0 <= i < |f| ==> f[i] != '"' && f[i] != sep && f[i] != '\n'
  }

  // ----- reading the format back -----

  /** Reads the inside of a quoted field (after its opening quote) up to the closing quote,
      turning each doubled quote into one; returns the field and what follows the closing quote. */
  function ReadQuoted(s: string): (r: Option<(string, string)>)
    ensures r.Some? ==> |r.value.1| < |s|
  {
    if |s| == 0 then None
    else if s[0] == '"' then
      if |s| >= 2 && s[1] == '"' then
        match ReadQuoted(s[2..])
        case None => None
        case Some((f, rest)) => Some(("\"" + f, rest))
      else Some(("", s[1..]))
    else
      match ReadQuoted(s[1..])
      case None => None
      case Some((f, rest)) => Some(([s[0]] + f, rest))
  }

  /** Reads an unquoted field up to the next separator or line break. */
  function ReadBare(s: string, sep: char): (r: (string, string))
    ensures |r.1| <= |s|
  {
    if |s| == 0 || s[0] == sep || s[0] == '\n' then ("", s)
    else
      var (f, rest) := ReadBare(s[1..], sep);
      ([s[0]] + f, rest)
  }

  function ReadField(s: string, sep: char): (r: Option<(string, string)>)
    ensures r.Some? ==> |r.value.1| <= |s|
  {
    if |s| > 0 && s[0] == '"' then ReadQuoted(s[1..]) else Some(ReadBare(s, sep))
  }

  /** Reads the fields of one line; returns them and what follows the line's last field. */
  function ReadRecord(s: string, sep: char): (r: Option<(seq<string>, string)>)
    ensures r.Some? ==> |r.value.1| <= |s|
    decreases |s|
  {
    match ReadField(s, sep)
    case None => None
    case Some((f, rest)) =>
      if |rest| > 0 && rest[0] == sep then
        match ReadRecord(rest[1..], sep)
        case None => None
        case Some((fs, rest2)) => Some(([f] + fs, rest2))
      else Some(([f], rest))
  }

  /** Reads a whole document into its lines' fields; None when it is not in the format. */
  function ReadDocument(s: string, sep: char): Option<seq<seq<string>>>
    decreases |s|
  {
    match ReadRecord(s, sep)
    case None => None
    case Some((fields, rest)) =>
      if |rest| == 0 then Some([fields])
      else if rest[0] == '\n' then
        match ReadDocument(rest[1..], sep)
        case None => None
        case Some(lines) => Some([fields] + lines)
      else None
  }

  // ----- round trip -----

  /** A quoted field is read back exactly, whatever quotes it contains. */
  lemma {:induction false} ReadQuotedEscape(f: string, rest: string)
    requires |rest| == 0 || rest[0] != '"'
    ensures ReadQuoted(Escape(f) + "\"" + rest) == Some((f, rest))
  {
    var s := Escape(f) + "\"" + rest;
    if |f| == 0 {
      assert s == "\"" + rest;
      assert s[1..] == rest;
    } else if f[0] == '"' {
      assert s == "\"\"" + (Escape(f[1..]) + "\"" + rest);
      assert s[2..] == Escape(f[1..]) + "\"" + rest;
      ReadQuotedEscape(f[1..], rest);
      assert "\"" + f[1..] == f;
    } else {
      assert s == [f[0]] + (Escape(f[1..]) + "\"" + rest);
      assert s[1..] == Escape(f[1..]) + "\"" + rest;
      ReadQuotedEscape(f[1..], rest);
      assert [f[0]] + f[1..] == f;
    }
  }

  lemma {:induction false} ReadBareClean(f: string, rest: string, sep: char)
    requires Bare(f, sep)
    requires |rest| == 0 || rest[0] == sep || rest[0] == '\n'
    ensures ReadBare(f + rest, sep) == (f, rest)
  {
    if |f| == 0 {
      assert f + rest == rest;
    } else {
      assert (f + rest)[1..] == f[1..] + rest;
      ReadBareClean(f[1..], rest, sep);
      assert [f[0]] + f[1..] == f;
    }
  }

  lemma QuotedRecordCons(fields: seq<string>, sep: char)
    requires |fields| > 1
    ensures QuotedRecord(fields, sep) == QuoteField(fields[0]) + [sep] + QuotedRecord(fields[1..], sep)
  {
    var qs := seq(|fields|, i requires 0 <= i < |fields| => QuoteField(fields[i]));
    var more := seq(|fields| - 1, i requires 0 <= i < |fields| - 1 => QuoteField(fields[1..][i]));
    assert qs[1..] == more;
  }

  /** Reading a record whose first field is followed by a separator continues with the next field. */
  lemma ReadRecordCons(s: string, sep: char, f: string, after: string, fs: seq<string>, tail: string)
    requires ReadField(s, sep) == Some((f, after))
    requires |after| > 0 && after[0] == sep
    requires ReadRecord(after[1..], sep) == Some((fs, tail))
    ensures ReadRecord(s, sep) == Some(([f] + fs, tail))
  {
  }

  /** A quoted field at the start of a text is read back as that field. */
  lemma ReadFirstQuoted(f: string, after: string, sep: char)
    requires |after| == 0 || after[0] != '"'
    ensures ReadField(QuoteField(f) + after, sep) == Some((f, after))
  {
    var s := QuoteField(f) + after;
    assert s == "\"" + (Escape(f) + "\"" + after);
    assert s[1..] == Escape(f) + "\"" + after;
    ReadQuotedEscape(f, after);
  }

  /** An exported record, followed by the end of the text or a line break, is read back field by field. */
  lemma {:induction false} ReadQuotedRecord(fields: seq<string>, sep: char, tail: string)
    requires |fields| > 0
    requires sep != '"' && sep != '\n'
    requires |tail| == 0 || tail[0] == '\n'
    ensures ReadRecord(QuotedRecord(fields, sep) + tail, sep) == Some((fields, tail))
  {
    if |fields| == 1 {
      assert QuotedRecord(fields, sep) == QuoteField(fields[0]);
      ReadFirstQuoted(fields[0], tail, sep);
      assert fields == [fields[0]];
    } else {
      QuotedRecordCons(fields, sep);
      var after := [sep] + QuotedRecord(fields[1..], sep) + tail;
      assert QuotedRecord(fields, sep) + tail == QuoteField(fields[0]) + after;
      ReadFirstQuoted(fields[0], after, sep);
      assert after[1..] == QuotedRecord(fields[1..], sep) + tail;
      ReadQuotedRecord(fields[1..], sep, tail);
      ReadRecordCons(QuotedRecord(fields, sep) + tail, sep, fields[0], after, fields[1..], tail);
      assert [fields[0]] + fields[1..] == fields;
    }
  }

  /** The header line, followed by the end of the text or a line break, is read back name by name. */
  lemma {:induction false} ReadBareRecord(fields: seq<string>, sep: char, tail: string)
    requires |fields| > 0
    requires forall i :: 0 <= i < |fields| ==> Bare(fields[i], sep)
    requires sep != '"' && sep != '\n'
    requires |tail| == 0 || tail[0] == '\n'
    ensures ReadRecord(Join(fields, sep) + tail, sep) == Some((fields, tail))
  {
    var s := Join(fields, sep) + tail;
    if |fields| == 1 {
      ReadBareClean(fields[0], tail, sep);
      if |fields[0]| == 0 {
        assert s == tail;
      } else {
        assert s[0] == fields[0][0];
      }
      assert ReadField(s, sep) == Some((fields[0], tail));
      assert fields == [fields[0]];
    } else {
      var after := [sep] + Join(fields[1..], sep) + tail;
      assert s == fields[0] + after;
      ReadBareClean(fields[0], after, sep);
      if |fields[0]| == 0 {
        assert s == after;
      } else {
        assert s[0] == fields[0][0];
      }
      assert ReadField(s, sep) == Some((fields[0], after));
      assert after[1..] == Join(fields[1..], sep) + tail;
      ReadBareRecord(fields[1..], sep, tail);
      assert [fields[0]] + fields[1..] == fields;
    }
  }

  lemma {:induction false} ReadQuotedLines(rows: seq<seq<string>>, sep: char)
    requires |rows| > 0
    requires forall i :: 0 <= i < |rows| ==> |rows[i]| > 0
    requires sep != '"' && sep != '\n'
    ensures ReadDocument(Join(seq(|rows|, i requires 0 <= i < |rows| => QuotedRecord(rows[i], sep)), '\n'), sep)
            == Some(rows)
  {
    var lines := seq(|rows|, i requires 0 <= i < |rows| => QuotedRecord(rows[i], sep));
    var s := Join(lines, '\n');
    if |rows| == 1 {
      assert s == QuotedRecord(rows[0], sep) + "";
      ReadQuotedRecord(rows[0], sep, "");
      assert rows == [rows[0]];
    } else {
      var more := seq(|rows| - 1, i requires 0 <= i < |rows| - 1 => QuotedRecord(rows[1..][i], sep));
      assert lines[1..] == more;
      var tail := ['\n'] + Join(more, '\n');
      assert s == QuotedRecord(rows[0], sep) + tail;
      ReadQuotedRecord(rows[0], sep, tail);
      assert tail[1..] == Join(more, '\n');
      ReadQuotedLines(rows[1..], sep);
      assert [rows[0]] + rows[1..] == rows;
    }
  }

  /** Reading an exported document gives back the header and every row, field by field;
      in particular it has exactly one line per row plus the header line. */
  lemma DocumentRoundTrip(header: seq<string>, rows: seq<seq<string>>, sep: char)
    requires |header| > 0
    requires forall i :: 0 <= i < |header| ==> Bare(header[i], sep)
    requires forall i :: 0 <= i < |rows| ==> |rows[i]| > 0
    requires sep != '"' && sep != '\n'
    ensures ReadDocument(Document(header, rows, sep), sep) == Some([header] + rows)
  {
    var lines := seq(|rows|, i requires 0 <= i < |rows| => QuotedRecord(rows[i], sep));
    var all := [Join(header, sep)] + lines;
    var s := Document(header, rows, sep);
    if |rows| == 0 {
      assert all == [Join(header, sep)];
      assert s == Join(header, sep) + "";
      ReadBareRecord(header, sep, "");
      assert [header] + rows == [header];
    } else {
      assert all[1..] == lines;
      var tail := ['\n'] + Join(lines, '\n');
      assert s == Join(header, sep) + tail;
      ReadBareRecord(header, sep, tail);
      assert tail[1..] == Join(lines, '\n');
      ReadQuotedLines(rows, sep);
    }
  }
}

=== FILE: email.dfy ===
/** The email shape test shared by the proposal generator and the mini-CRM:
    the unanchored regular expression `\S+@\S+\.\S+`. */
module EmailShape {
  import opened Text

  /** The regular expression matches with '@' at index at and the separating '.' at index dot:
      a non-space character just before '@', a non-empty run of non-space characters
      between '@' and '.', and a non-space character just after '.'. */
  ghost predicate MatchAt(s: string, at: int, dot: int) {
    && 0 < at && at + 1 < dot && dot + 1 < |s|
    && s[at] == '@' && s[dot] == '.'
    && !IsSpace(s[at - 1]) && !IsSpace(s[dot + 1])
    && forall m :: at < m < dot ==> !IsSpace(s[m])
  }

  /** `/\S+@\S+\.\S+/.test(s)`: some substring of s has the shape name@domain.tld. */
  ghost predicate EmailPattern(s: string) {
    exists at, dot :: MatchAt(s, at, dot)
  }

  /** Searches for the '.' closing a match whose '@' sits at index at, trying dot positions from k on. */
  predicate ScanDot(s: string, at: nat, k: nat)
    requires at + 2 <= k
    decreases |s| - k
  {
    if k + 1 >= |s| then false
    else if IsSpace(s[k - 1]) then false
    else if s[k] == '.' && !IsSpace(s[k + 1]) then true
    else ScanDot(s, at, k + 1)
  }

  /** Searches for a match whose '@' sits at index i or later. */
  predicate ScanAt(s: string, i: nat)
    decreases |s| - i
  {
    if i >= |s| then false
    else (s[i] == '@' && i > 0 && !IsSpace(s[i - 1]) && ScanDot(s, i, i + 2)) || ScanAt(s, i + 1)
  }

  /** The executable test of the email shape. */
  predicate HasEmailShape(s: string) {
    ScanAt(s, 0)
  }

  lemma {:induction false} ScanDotSound(s: string, at: nat, k: nat)
    requires at + 2 <= k
    requires 0 < at < |s| && s[at] == '@' && !IsSpace(s[at - 1])
    requires forall m :: at < m < k - 1 && m < |s| ==> !IsSpace(s[m])
    ensures ScanDot(s, at, k) <==> exists dot :: k <= dot && MatchAt(s, at, dot)
    decreases |s| - k
  {
    if k + 1 >= |s| {
    } else if IsSpace(s[k - 1]) {
    } else if s[k] == '.' && !IsSpace(s[k + 1]) {
      assert MatchAt(s, at, k);
    } else {
      ScanDotSound(s, at, k + 1);
      if exists dot :: k <= dot && MatchAt(s, at, dot) {
        var dot :| k <= dot && MatchAt(s, at, dot);
        assert dot != k;
      }
    }
  }

  lemma {:induction false} ScanAtSound(s: string, i: nat)
    ensures ScanAt(s, i) <==> exists at, dot :: i <= at && MatchAt(s, at, dot)
    decreases |s| - i
  {
    if i < |s| {
      ScanAtSound(s, i + 1);
      var here := s[i] == '@' && i > 0 && !IsSpace(s[i - 1]);
      if here {
        ScanDotSound(s, i, i + 2);
      }
      if exists at, dot :: i <= at && MatchAt(s, at, dot) {
        var at, dot :| i <= at && MatchAt(s, at, dot);
        if at == i {
          assert here;
          assert ScanDot(s, i, i + 2);
        } else {
          assert i + 1 <= at;
        }
      }
    }
  }

  /** The executable scan decides exactly the regular expression. */
  lemma HasEmailShapeCorrect(s: string)
    ensures HasEmailShape(s) <==> EmailPattern(s)
  {
    ScanAtSound(s, 0);
  }

  /** A well-formed address such as "ana@x.co" passes; a string without '@' never does. */
  lemma EmailShapeExamples()
    ensures HasEmailShape("ana@x.co")
    ensures !HasEmailShape("ana.x.co")
  {
    HasEmailShapeCorrect("ana@x.co");
    assert MatchAt("ana@x.co", 3, 5);
    HasEmailShapeCorrect("ana.x.co");
  }
}

=== FILE: investments.dfy ===
/** The investment simulator: a monthly compound-growth projection of an initial amount plus a
    fixed monthly deposit, an inflation-deflated final value, and the comparison of two scenarios.
    Amounts are real numbers (no floating-point rounding, no NaN). The annual-to-monthly rate
    conversion needs a twelfth root, which is passed in as the function root12. */
module Investments {
  import opened Wrappers

  /** The raw form: each numeric field is the result of `Number(...)` on the text typed in,
      None standing for NaN; the unit fields are the selected option values. */
  datatype Form = Form(
    initial: Option<real>, monthly: Option<real>, term: Option<int>, termUnit: string,
    rate: Option<real>, rateUnit: string, inflation: Option<real>, inflationUnit: string)

  /** One scenario after defaulting. */
  datatype Input = Input(
    initial: real, monthly: real, term: int, termUnit: string,
    rate: real, rateUnit: string, inflation: real, inflationUnit: string)

  /** One point of the growth series. */
  datatype Point = Point(month: int, balance: real, totalInvested: real, interest: real)

  /** The deflated final value: absent when inflation is 0, otherwise a number, or not finite
      when the deflating power is zero. */
  datatype Deflated = NoInflation | Finite(value: real) | NotFinite

  datatype Simulation = Simulation(
    months: int, series: seq<Point>, totalInvested: real, finalBalance: real,
    interest: real, realBalance: Deflated)

  /** `Number(x) || d`: a NaN or zero reading falls back to d. */
  function OrDefault(x: Option<real>, d: real): (r: real)
    ensures r == d || (x.Some? && r == x.value)
    ensures r == 0.0 ==> d == 0.0
    ensures x.Some? && x.value != 0.0 ==> r == x.value
  {
    if x.Some? && x.value != 0.0 then x.value else d
  }

  /** readForm: every amount defaults to 0 and the term to 1. */
  function ReadForm(f: Form): (r: Input)
    ensures r.term != 0
    ensures f.term.Some? && f.term.value != 0 ==> r.term == f.term.value
    ensures r.termUnit == f.termUnit && r.rateUnit == f.rateUnit && r.inflationUnit == f.inflationUnit
    ensures r.initial == 0.0 <==> f.initial.None? || f.initial.value == 0.0
    ensures r.monthly == 0.0 <==> f.monthly.None? || f.monthly.value == 0.0
    ensures r.rate == 0.0 <==> f.rate.None? || f.rate.value == 0.0
    ensures r.inflation == 0.0 <==> f.inflation.None? || f.inflation.value == 0.0
    ensures !(f.term.Some? && f.term.value != 0) ==> r.term == 1
    ensures f.initial.Some? && f.initial.value != 0.0 ==> r.initial == f.initial.value
    ensures f.monthly.Some? && f.monthly.value != 0.0 ==> r.monthly == f.monthly.value
    ensures f.rate.Some? && f.rate.value != 0.0 ==> r.rate == f.rate.value
    ensures f.inflation.Some? && f.inflation.value != 0.0 ==> r.inflation == f.inflation.value
  {
    Input(
      OrDefault(f.initial, 0.0), OrDefault(f.monthly, 0.0),
      if f.term.Some? && f.term.value != 0 then f.term.value else 1,
      f.termUnit,
      OrDefault(f.rate, 0.0), f.rateUnit,
      OrDefault(f.inflation, 0.0), f.inflationUnit)
  }

  /** `fillForm`: a scenario written back into the form, every field filled in. */
  function FillForm(input: Input): (f: Form)
    ensures f.initial.Some? && f.monthly.Some? && f.term.Some? && f.rate.Some? && f.inflation.Some?
  {
    Form(Some(input.initial), Some(input.monthly), Some(input.term), input.termUnit,
         Some(input.rate), input.rateUnit, Some(input.inflation), input.inflationUnit)
  }

  /** Filling a form with a scenario and reading it back gives the scenario again, so swapping or
      copying scenarios, or restoring a saved one, changes nothing; reading is idempotent. */
  lemma ReadFillRoundTrip(input: Input, f: Form)
    requires input.term != 0
    ensures ReadForm(FillForm(input)) == input
    ensures ReadForm(FillForm(ReadForm(f))) == ReadForm(f)
  {
  }

  /** `Utils.monthsFromTerm`: a term in years counts twelve months a year; any other unit is
      already in months. */
  function MonthsFromTerm(term: int, unit: string): (m: int)
    ensures unit == "years" ==> m == 12 * term
    ensures unit != "years" ==> m == term
    ensures term != 0 ==> m != 0
    ensures (m > 0) == (term > 0)
  {
    if unit == "years" then term * 12 else term
  }

  /** `Utils.toMonthlyRate`: a percentage per month or, for the unit "annual", the monthly rate
      that compounds to the annual one, root12(x) standing for `Math.pow(x, 1 / 12)`. */
  function ToMonthlyRate(rate: real, unit: string, root12: real -> real): (r: real)
    ensures unit != "annual" ==> r == rate / 100.0
    ensures unit == "annual" ==> 1.0 + r == root12(1.0 + rate / 100.0)
  {
    var x := rate / 100.0;
    if unit == "annual" then root12(1.0 + x) - 1.0 else x
  }

  function Pow(x: real, n: nat): real {
    if n == 0 then 1.0 else Pow(x, n - 1) * x
  }

  lemma {:induction false} PowPositive(x: real, n: nat)
    requires x > 0.0
    ensures Pow(x, n) > 0.0
  {
    if n > 0 {
      PowPositive(x, n - 1);
    }
  }

  lemma {:induction false} PowAtLeastOne(x: real, n: nat)
    requires x >= 1.0
    ensures Pow(x, n) >= 1.0
  {
    if n > 0 {
      PowAtLeastOne(x, n - 1);
      assert Pow(x, n) == Pow(x, n - 1) * x;
    }
  }

  lemma {:induction false} PowAboveOne(x: real, n: nat)
    requires x > 1.0 && n > 0
    ensures Pow(x, n) > 1.0
  {
    if n > 1 {
      PowAboveOne(x, n - 1);
      assert Pow(x, n) == Pow(x, n - 1) * x;
      assert Pow(x, n - 1) * x > Pow(x, n - 1);
    }
  }

  /** The balance after i months: the previous balance plus the deposit, grown by the factor
      growth = 1 + monthly rate; the balance after 0 months is the initial amount. */
  function BalanceAt(initial: real, monthly: real, growth: real, i: nat): real {
    if i == 0 then initial else (BalanceAt(initial, monthly, growth, i - 1) + monthly) * growth
  }

  /** Without deposits the balance is the initial amount grown by the factor once a month. */
  lemma {:induction false} BalanceNoDeposits(initial: real, growth: real, i: nat)
    ensures BalanceAt(initial, 0.0, growth, i) == initial * Pow(growth, i)
  {
    if i > 0 {
      BalanceNoDeposits(initial, growth, i - 1);
      assert initial * Pow(growth, i - 1) * growth == initial * (Pow(growth, i - 1) * growth);
    }
  }

  /** When root12 really is a twelfth root at 1 + rate/100, a year of monthly compounding at the
      converted annual rate grows an amount by exactly the annual rate. */
  lemma AnnualRateCompounds(initial: real, rate: real, root12: real -> real)
    requires Pow(root12(1.0 + rate / 100.0), 12) == 1.0 + rate / 100.0
    ensures BalanceAt(initial, 0.0, 1.0 + ToMonthlyRate(rate, "annual", root12), 12) == initial * (1.0 + rate / 100.0)
  {
    BalanceNoDeposits(initial, 1.0 + ToMonthlyRate(rate, "annual", root12), 12);
  }

  /** The money put in after i months: the initial amount and one deposit per month. */
  function Invested(initial: real, monthly: real, i: nat): real {
    if i == 0 then initial else Invested(initial, monthly, i - 1) + monthly
  }

  lemma {:induction false} InvestedClosedForm(initial: real, monthly: real, i: nat)
    ensures Invested(initial, monthly, i) == initial + (i as real) * monthly
  {
    if i > 0 {
      InvestedClosedForm(initial, monthly, i - 1);
      assert ((i - 1) as real) * monthly + monthly == (i as real) * monthly;
    }
  }

  /** The i-th point (counting from 1) of the series, as the loop pushes it. */
  function PointAt(initial: real, monthly: real, growth: real, i: nat): Point {
    var b := BalanceAt(initial, monthly, growth, i);
    var t := Invested(initial, monthly, i);
    Point(i, b, t, b - t)
  }

  /** `series[series.length - 1]?.balance || input.initial`. */
  function FinalBalance(series: seq<Point>, initial: real): (r: real)
    ensures |series| == 0 ==> r == initial
    ensures |series| > 0 && series[|series| - 1].balance != 0.0 ==> r == series[|series| - 1].balance
    ensures |series| > 0 && series[|series| - 1].balance == 0.0 ==> r == initial
  {
    if |series| > 0 && series[|series| - 1].balance != 0.0 then series[|series| - 1].balance else initial
  }

  /** `finalBalance / Math.pow(1 + inflationMonthly, months)` when inflation is non-zero. */
  function Deflate(finalBalance: real, inflation: real, inflationMonthly: real, months: int): (r: Deflated)
    ensures inflation == 0.0 <==> r == NoInflation
    ensures inflation != 0.0 && months >= 0 && Pow(1.0 + inflationMonthly, months) != 0.0 ==>
              r == Finite(finalBalance / Pow(1.0 + inflationMonthly, months))
    ensures inflation != 0.0 && months >= 0 && Pow(1.0 + inflationMonthly, months) == 0.0 ==> r == NotFinite
    ensures inflation != 0.0 && months < 0 ==> r.Finite? && r.value == finalBalance * Pow(1.0 + inflationMonthly, -months)
    ensures inflation != 0.0 && months == 0 ==> r == Finite(finalBalance)
  {
    if inflation == 0.0 then NoInflation
    else
      if months >= 0 then
        var p := Pow(1.0 + inflationMonthly, months);
        if p != 0.0 then Finite(finalBalance / p) else NotFinite
      else
        // a negative exponent divides by 1 / p; for p == 0 that is a division by Infinity, giving 0
        Finite(finalBalance * Pow(1.0 + inflationMonthly, -months))
  }

  /** The points of months 1..n. */
  function Projection(initial: real, monthly: real, growth: real, n: nat): (r: seq<Point>)
    ensures |r| == n
  {
    if n == 0 then [] else Projection(initial, monthly, growth, n - 1) + [PointAt(initial, monthly, growth, n)]
  }

  /** Entry i of the projection is the point of month i + 1. */
  lemma {:induction false} ProjectionEntries(initial: real, monthly: real, growth: real, n: nat, i: int)
    requires 0 <= i < n
    ensures Projection(initial, monthly, growth, n)[i] == PointAt(initial, monthly, growth, i + 1)
  {
    if i < n - 1 {
      ProjectionEntries(initial, monthly, growth, n - 1, i);
    }
  }

  /** The loop of `simulate`: month by month, the deposit is added and the balance grows by the
      factor growth; each month pushes its point. */
  method Project(initial: real, monthly: real, growth: real, months: int)
    returns (series: seq<Point>, totalInvested: real)
    ensures series == Projection(initial, monthly, growth, if months > 0 then months else 0)
    ensures totalInvested == Invested(initial, monthly, |series|)
  {
    var balance := initial;
    totalInvested := initial;
    series := [];
    var i := 1;
    while i <= months
      invariant 1 <= i <= if months >= 1 then months + 1 else 1
      invariant balance == BalanceAt(initial, monthly, growth, i - 1)
      invariant totalInvested == Invested(initial, monthly, i - 1)
      invariant series == Projection(initial, monthly, growth, i - 1)
      decreases months - i
    {
      balance := (balance + monthly) * growth;
      totalInvested := totalInvested + monthly;
      series := series + [Point(i, balance, totalInvested, balance - totalInvested)];
      i := i + 1;
    }
  }

  /** `simulate`: the month-by-month projection of one scenario. */
  method Simulate(input: Input, root12: real -> real) returns (s: Simulation)
    ensures s.months == MonthsFromTerm(input.term, input.termUnit)
    ensures s.series == Projection(input.initial, input.monthly, 1.0 + ToMonthlyRate(input.rate, input.rateUnit, root12),
                                   if s.months > 0 then s.months else 0)
    ensures s.totalInvested == input.initial + (|s.series| as real) * input.monthly
    ensures s.finalBalance == FinalBalance(s.series, input.initial)
    ensures s.interest == s.finalBalance - s.totalInvested
    ensures s.realBalance == Deflate(s.finalBalance, input.inflation,
                                     ToMonthlyRate(input.inflation, input.inflationUnit, root12), s.months)
  {
    var months := MonthsFromTerm(input.term, input.termUnit);
    var rateMonthly := ToMonthlyRate(input.rate, input.rateUnit, root12);
    var inflationMonthly := ToMonthlyRate(input.inflation, input.inflationUnit, root12);
    var series, totalInvested := Project(input.initial, input.monthly, 1.0 + rateMonthly, months);
    InvestedClosedForm(input.initial, input.monthly, |series|);
    var finalBalance := FinalBalance(series, input.initial);
    s := Simulation(months, series, totalInvested, finalBalance, finalBalance - totalInvested,
                    Deflate(finalBalance, input.inflation, inflationMonthly, months));
  }

  /** Every point of a simulation is the balance of its month, and its interest is that balance
      less the money put in by then. */
  lemma SimulationPoints(input: Input, root12: real -> real, n: nat, i: int)
    requires 0 <= i < n
    ensures var growth := 1.0 + ToMonthlyRate(input.rate, input.rateUnit, root12);
            var p := Projection(input.initial, input.monthly, growth, n)[i];
            && p.month == i + 1
            && p.balance == BalanceAt(input.initial, input.monthly, growth, i + 1)
            && p.totalInvested == input.initial + ((i + 1) as real) * input.monthly
            && p.interest == p.balance - p.totalInvested
  {
    ProjectionEntries(input.initial, input.monthly, 1.0 + ToMonthlyRate(input.rate, input.rateUnit, root12), n, i);
    InvestedClosedForm(input.initial, input.monthly, i + 1);
  }

  /** Without growth (rate 0), every balance is exactly the money put in, so no interest accrues. */
  lemma {:induction false} NoRateNoInterest(initial: real, monthly: real, i: nat)
    ensures BalanceAt(initial, monthly, 1.0, i) == initial + (i as real) * monthly
    ensures PointAt(initial, monthly, 1.0, i).interest == 0.0
  {
    if i > 0 {
      NoRateNoInterest(initial, monthly, i - 1);
    }
  }

  /** With a non-negative rate and non-negative amounts, the balance never falls below the money
      put in: the interest of every point is non-negative. */
  lemma {:induction false} InterestNonNegative(initial: real, monthly: real, growth: real, i: nat)
    requires initial >= 0.0 && monthly >= 0.0 && growth >= 1.0
    ensures BalanceAt(initial, monthly, growth, i) >= initial + (i as real) * monthly
    ensures PointAt(initial, monthly, growth, i).interest >= 0.0
  {
    if i > 0 {
      InterestNonNegative(initial, monthly, growth, i - 1);
      var prev := BalanceAt(initial, monthly, growth, i - 1);
      assert (prev + monthly) * growth >= prev + monthly by {
        assert prev + monthly >= 0.0;
        assert (prev + monthly) * growth - (prev + monthly) == (prev + monthly) * (growth - 1.0);
      }
    }
  }

  /** With a non-negative rate and non-negative amounts the balance never decreases month to month. */
  lemma BalanceGrows(initial: real, monthly: real, growth: real, i: nat)
    requires initial >= 0.0 && monthly >= 0.0 && growth >= 1.0
    ensures BalanceAt(initial, monthly, growth, i + 1) >= BalanceAt(initial, monthly, growth, i)
  {
    InterestNonNegative(initial, monthly, growth, i);
    var b := BalanceAt(initial, monthly, growth, i);
    assert (i as real) * monthly >= 0.0;
    assert (b + monthly) * growth - (b + monthly) == (b + monthly) * (growth - 1.0);
  }

  /** With positive inflation over a non-negative number of months, the deflated value of a
      non-negative final balance is never above it. */
  lemma DeflatedAtMost(finalBalance: real, inflation: real, inflationMonthly: real, months: int)
    requires finalBalance >= 0.0 && inflation != 0.0 && inflationMonthly >= 0.0 && months >= 0
    ensures Deflate(finalBalance, inflation, inflationMonthly, months).Finite?
    ensures Deflate(finalBalance, inflation, inflationMonthly, months).value <= finalBalance
    ensures inflationMonthly > 0.0 && months > 0 && finalBalance > 0.0 ==>
              Deflate(finalBalance, inflation, inflationMonthly, months).value < finalBalance
  {
    PowAtLeastOne(1.0 + inflationMonthly, months);
    var p := Pow(1.0 + inflationMonthly, months);
    assert finalBalance / p <= finalBalance by {
      assert finalBalance / p * p == finalBalance;
    }
    if inflationMonthly > 0.0 && months > 0 && finalBalance > 0.0 {
      PowAboveOne(1.0 + inflationMonthly, months);
      DivideBelow(finalBalance, p);
    }
  }

  /** Dividing a positive amount by a factor above 1 makes it strictly smaller. */
  lemma DivideBelow(a: real, p: real)
    requires a > 0.0 && p > 1.0
    ensures a / p < a
  {
    var q := a / p;
    assert q * p == a;
    assert q > 0.0;
    assert a - q == q * (p - 1.0);
    assert q * (p - 1.0) > 0.0;
  }

  /** The comparison cards: the difference B − A and its percentage of A (0 when A is 0). */
  datatype Comparison = Comparison(diff: real, percent: real)

  function Compare(a: Simulation, b: Simulation): (c: Comparison)
    ensures c.diff == b.finalBalance - a.finalBalance
    ensures a.finalBalance == 0.0 ==> c.percent == 0.0
  {
    var diff := b.finalBalance - a.finalBalance;
    Comparison(diff, if a.finalBalance != 0.0 then (diff / a.finalBalance) * 100.0 else 0.0)
  }

  /** The percentage reconstructs B from A when A is non-zero, and is 0 exactly when the two
      final balances are equal or A is 0. */
  lemma ComparePercent(a: Simulation, b: Simulation)
    ensures a.finalBalance != 0.0 ==>
              b.finalBalance == a.finalBalance * (1.0 + Compare(a, b).percent / 100.0)
    ensures Compare(a, b).percent == 0.0 <==> a.finalBalance == 0.0 || a.finalBalance == b.finalBalance
    ensures a.finalBalance > 0.0 ==> (Compare(a, b).percent > 0.0 <==> b.finalBalance > a.finalBalance)
  {
    var x, y := a.finalBalance, b.finalBalance;
    if x != 0.0 {
      var d := y - x;
      assert (d / x) * 100.0 / 100.0 == d / x;
      assert x * (1.0 + d / x) == x + d;
      if x > 0.0 {
        assert d / x > 0.0 <==> d > 0.0;
      }
    }
  }
}

=== FILE: mini_crm.dfy ===
/** The mini-CRM's lead logic: the status board (move, view toggle, delete), the lead form's
    guards and id assignment, JSON import with normalisation and id re-assignment, the list's
    filters and sort orders, the follow-up comparator and badge, the priority panel, and the CSV
    export. The id generator is an oracle `gen`: draw number n returns gen(n), and every call
    takes the next draw. Dates are given as local day numbers through `dayOf` (`startOfDay`,
    for the badge and the priority panel) and as instants through `instantOf` (`getTime`, for
    the list's sort orders), each None for a string no date can be read from; locale collation
    is a given rank. */
module MiniCrm {
  import opened Wrappers
  import Text
  import Seqs
  import EmailShape
  import Sorting
  import Csv

  /** `STATUS_ORDER`, the board's columns. */
  const StatusOrder: seq<string> := ["novo", "contato", "proposta", "fechado", "perdido"]

  /** `STATUS_LABELS[status]`, None standing for `undefined`. */
  function StatusLabel(status: string): (r: Option<string>)
    ensures r.Some? <==> status in StatusOrder
  {
    if status == "novo" then Some("Novo")
    else if status == "contato" then Some("Contato")
    else if status == "proposta" then Some("Proposta")
    else if status == "fechado" then Some("Fechado")
    else if status == "perdido" then Some("Perdido")
    else None
  }

  datatype Lead = Lead(
    id: string, nome: string, telefone: string, email: string, origem: string, status: string,
    valor: real, acao: string, followup: string, observacoes: string, createdAt: string, updatedAt: string)

  function Ids(leads: seq<Lead>): (r: seq<string>)
    ensures |r| == |leads|
    ensures forall i :: 0 <= i < |r| ==> r[i] == leads[i].id
  {
    seq(|leads|, i requires 0 <= i < |leads| => leads[i].id)
  }

  // ----- the board -----

  /** The index of the first lead with the id, -1 when there is none. */
  function Find(leads: seq<Lead>, id: string): (i: int)
    ensures -1 <= i < |leads|
    ensures i == -1 <==> id !in Ids(leads)
    ensures i >= 0 ==> leads[i].id == id && forall j :: 0 <= j < i ==> leads[j].id != id
  {
    Seqs.FindIndex(leads, (l: Lead) => l.id == id)
  }

  /** `moveLead`: the first lead with the id gets the new status and `updatedAt = now`; nothing
      happens when no lead has the id or it already has that status. Returns the leads and the
      toast (None when nothing happened); an unknown status reads "undefined" in the toast. */
  function MoveLead(leads: seq<Lead>, id: string, newStatus: string, now: string): (r: (seq<Lead>, Option<string>))
    ensures |r.0| == |leads|
    ensures r.1.None? <==> Find(leads, id) == -1 || leads[Find(leads, id)].status == newStatus
    ensures r.1.None? ==> r.0 == leads
    ensures r.1.Some? ==>
              var i := Find(leads, id);
              && r.0[i] == leads[i].(status := newStatus, updatedAt := now)
              && forall j :: 0 <= j < |leads| && j != i ==> r.0[j] == leads[j]
  {
    var i := Find(leads, id);
    if i == -1 || leads[i].status == newStatus then (leads, None)
    else
      (leads[i := leads[i].(status := newStatus, updatedAt := now)],
       Some("Movido para " + StatusLabel(newStatus).GetOr("undefined") + "."))
  }

  /** Moving to the same status again changes nothing. */
  lemma MoveLeadIdempotent(leads: seq<Lead>, id: string, s: string, now: string, later: string)
    ensures MoveLead(MoveLead(leads, id, s, now).0, id, s, later).0 == MoveLead(leads, id, s, now).0
  {
    var r := MoveLead(leads, id, s, now).0;
    var i := Find(leads, id);
    if i >= 0 {
      assert Ids(r) == Ids(leads);
    }
  }

  /** Moving a lead and moving it back restores the board, except the lead's `updatedAt`. */
  lemma MoveLeadBack(leads: seq<Lead>, id: string, s: string, now: string, later: string)
    requires Find(leads, id) >= 0
    ensures var i := Find(leads, id);
            var back := MoveLead(MoveLead(leads, id, s, now).0, id, leads[i].status, later).0;
            && |back| == |leads|
            && back[i].(updatedAt := leads[i].updatedAt) == leads[i]
            && forall j :: 0 <= j < |leads| && j != i ==> back[j] == leads[j]
  {
    var r := MoveLead(leads, id, s, now).0;
    assert Ids(r) == Ids(leads);
  }

  /** `toggleView`: "kanban" becomes "lista", anything else "kanban". */
  function ToggleView(view: string): (r: string)
    ensures r == "kanban" || r == "lista"
    ensures r != view || view !in {"kanban", "lista"}
    ensures view == "kanban" ==> r == "lista"
    ensures view != "kanban" ==> r == "kanban"
  {
    if view == "kanban" then "lista" else "kanban"
  }

  /** Toggling twice gives back either view. */
  lemma ToggleViewTwice(view: string)
    requires view == "kanban" || view == "lista"
    ensures ToggleView(ToggleView(view)) == view
  {
  }

  /** `deleteLead`: without an id or without confirmation nothing changes; otherwise the leads
      without the id remain, in order. */
  function DeleteLead(leads: seq<Lead>, id: string, confirmed: bool): (r: seq<Lead>)
    ensures id == "" || !confirmed ==> r == leads
    ensures id != "" && confirmed ==> id !in Ids(r)
    ensures forall l :: l in leads && l.id != id ==> l in r
    ensures forall l :: l in r ==> l in leads
    ensures id != "" && confirmed ==> forall l :: multiset(r)[l] == if l.id != id then multiset(leads)[l] else 0
    ensures Seqs.IsSubseq(r, leads)
  {
    Seqs.FilterSpec(leads, (l: Lead) => l.id != id);
    Seqs.SubseqRefl(leads);
    if id == "" || !confirmed then leads else Seqs.Filter(leads, (l: Lead) => l.id != id)
  }

  // ----- the lead form -----

  const NameRequired := "Nome e obrigatorio."
  const EmailInvalid := "Email invalido."
  const LeadUpdated := "Lead atualizado."
  const LeadCreated := "Lead criado."

  /** `isValidEmail`: the plain pattern test, so the empty string is not accepted. */
  predicate IsValidEmail(email: string) {
    EmailShape.HasEmailShape(email)
  }

  /** An address is accepted exactly when it has the shape name@domain.tld; "" is refused. */
  lemma IsValidEmailSpec(email: string)
    ensures IsValidEmail(email) <==> EmailShape.EmailPattern(email)
    ensures !IsValidEmail("")
  {
    EmailShape.HasEmailShapeCorrect(email);
  }

  /** The raw form fields; valor is `parseFloat` of its field (None when it is not a number). */
  datatype LeadForm = LeadForm(
    nome: string, telefone: string, email: string, origem: string, status: string,
    valor: Option<real>, acao: string, followup: string, observacoes: string)

  /** The submitted payload over an existing lead: the form's trimmed fields replace the lead's,
      the id and creation time stay, `updatedAt` is now. */
  function Overlay(l: Lead, f: LeadForm, now: string): (r: Lead)
    ensures r.id == l.id && r.createdAt == l.createdAt && r.updatedAt == now
    ensures r.nome == Text.Trim(f.nome) && r.email == Text.Trim(f.email) && r.status == f.status
    ensures r.telefone == Text.Trim(f.telefone) && r.origem == f.origem && r.valor == f.valor.GetOr(0.0)
    ensures r.acao == Text.Trim(f.acao) && r.followup == f.followup && r.observacoes == Text.Trim(f.observacoes)
  {
    Lead(l.id, Text.Trim(f.nome), Text.Trim(f.telefone), Text.Trim(f.email), f.origem, f.status,
         f.valor.GetOr(0.0), Text.Trim(f.acao), f.followup, Text.Trim(f.observacoes), l.createdAt, now)
  }

  /** A lead made from the form, with its id and both timestamps at now. */
  function NewLead(f: LeadForm, id: string, now: string): (r: Lead)
    ensures r == Overlay(r, f, now) && r.id == id && r.createdAt == now
  {
    Overlay(Lead(id, "", "", "", "", "", 0.0, "", "", "", now, now), f, now)
  }

  /** The form's guards in order: a blank name, then a non-empty address that is not valid. */
  function FormError(f: LeadForm): (r: Option<string>)
    ensures r.None? <==> Text.Trim(f.nome) != "" && (Text.Trim(f.email) == "" || IsValidEmail(Text.Trim(f.email)))
    ensures r == Some(NameRequired) <==> Text.Trim(f.nome) == ""
    ensures Text.Trim(f.nome) != "" && Text.Trim(f.email) != "" && !IsValidEmail(Text.Trim(f.email)) ==>
              r == Some(EmailInvalid)
  {
    if Text.Trim(f.nome) == "" then Some(NameRequired)
    else if Text.Trim(f.email) != "" && !IsValidEmail(Text.Trim(f.email)) then Some(EmailInvalid)
    else None
  }

  /** `do newId = generateId() while some lead has it`: draws from gen until an unused id comes. */
  method NewLeadId(ids: seq<string>, gen: nat -> string) returns (id: string, draws: nat)
    requires exists k :: gen(k) !in ids
    ensures id == gen(draws) && id !in ids
    ensures forall j :: 0 <= j < draws ==> gen(j) in ids
  {
    ghost var w: nat :| gen(w) !in ids;
    draws := 0;
    while gen(draws) in ids
      invariant draws <= w
      invariant forall j :: 0 <= j < draws ==> gen(j) in ids
      decreases w - draws
    {
      draws := draws + 1;
    }
    id := gen(draws);
  }

  /** The edit branch of `handleFormSubmit`: the form overlays the first lead with the id; with
      no such lead nothing changes. Every lead keeps its id. */
  function EditLead(leads: seq<Lead>, id: string, f: LeadForm, now: string): (r: seq<Lead>)
    ensures |r| == |leads|
    ensures id !in Ids(leads) ==> r == leads
    ensures var i := Find(leads, id);
            i >= 0 ==> r[i] == Overlay(leads[i], f, now) && forall j :: 0 <= j < |leads| && j != i ==> r[j] == leads[j]
  {
    var i := Find(leads, id);
    if i >= 0 then
      Seqs.UpdateFrame(leads, i, Overlay(leads[i], f, now));
      leads[i := Overlay(leads[i], f, now)]
    else leads
  }

  /** Editing keeps every lead's id. */
  lemma EditLeadKeepsIds(leads: seq<Lead>, id: string, f: LeadForm, now: string)
    ensures Ids(EditLead(leads, id, f, now)) == Ids(leads)
  {
    var r := EditLead(leads, id, f, now);
    var i := Find(leads, id);
    if i >= 0 {
      assert r[i].id == leads[i].id;
      SameIds(r, leads);
    }
  }

  /** Two lists whose leads carry the same ids position by position have the same id list. */
  lemma SameIds(a: seq<Lead>, b: seq<Lead>)
    requires |a| == |b| && forall j :: 0 <= j < |a| ==> a[j].id == b[j].id
    ensures Ids(a) == Ids(b)
  {
  }

  /** `handleFormSubmit`: a failing guard leaves the leads and says why; editing (a non-empty
      current id) overlays the form on the first lead with that id (the same toast when there is
      none); otherwise a new lead with an unused id goes in front. */
  method SubmitLead(leads: seq<Lead>, currentId: string, f: LeadForm, gen: nat -> string, now: string)
    returns (r: seq<Lead>, toast: string)
    requires currentId == "" ==> exists k :: gen(k) !in Ids(leads)
    ensures FormError(f).Some? ==> r == leads && toast == FormError(f).value
    ensures FormError(f).None? && currentId != "" ==> toast == LeadUpdated && r == EditLead(leads, currentId, f, now)
    ensures FormError(f).None? && currentId == "" ==>
              && toast == LeadCreated && |r| == |leads| + 1 && r[1..] == leads
              && r[0] == NewLead(f, r[0].id, now) && r[0].id !in Ids(leads)
  {
    var err := FormError(f);
    if err.Some? {
      return leads, err.value;
    }
    if currentId != "" {
      r := EditLead(leads, currentId, f, now);
      toast := LeadUpdated;
    } else {
      var id, _ := NewLeadId(Ids(leads), gen);
      r := [NewLead(f, id, now)] + leads;
      assert r[1..] == leads;
      toast := LeadCreated;
    }
  }

  // ----- import -----

  /** A lead as read from an imported JSON file: None for a missing or null field; valor is
      `parseFloat` of the field (None when that is NaN). */
  datatype RawLead = RawLead(
    id: Option<string>, nome: Option<string>, telefone: Option<string>, email: Option<string>,
    origem: Option<string>, status: Option<string>, valor: Option<real>, acao: Option<string>,
    followup: Option<string>, observacoes: Option<string>, createdAt: Option<string>, updatedAt: Option<string>)

  /** A string field that JavaScript treats as true: present and not empty. */
  predicate Truthy(o: Option<string>) {
    o.Some? && o.value != ""
  }

  /** `field || fallback`. */
  function Or(o: Option<string>, fallback: string): (r: string)
    ensures Truthy(o) ==> r == o.value
    ensures !Truthy(o) ==> r == fallback
  {
    if Truthy(o) then o.value else fallback
  }

  /** `normalizeLead`: defaults for missing fields ("" for the texts, "Outro", "novo", valor 0,
      timestamps now) and an id drawn from gen (draw `next`) when the lead has none. Returns the
      lead and the next draw number. The name is copied ("" standing for a missing one). */
  function NormalizeLead(raw: RawLead, gen: nat -> string, next: nat, now: string): (r: (Lead, nat))
    ensures Truthy(raw.id) ==> r.0.id == raw.id.value && r.1 == next
    ensures !Truthy(raw.id) ==> r.0.id == gen(next) && r.1 == next + 1
    ensures r.0.origem != "" && r.0.status != ""
    ensures now != "" ==> r.0.createdAt != "" && r.0.updatedAt != ""
    ensures Truthy(raw.nome) ==> r.0.nome == raw.nome.value
    ensures Truthy(raw.status) ==> r.0.status == raw.status.value
    ensures !Truthy(raw.origem) ==> r.0.origem == "Outro"
    ensures !Truthy(raw.status) ==> r.0.status == "novo"
    ensures r.0.nome == raw.nome.GetOr("") && r.0.valor == raw.valor.GetOr(0.0)
    ensures r.0.telefone == Or(raw.telefone, "") && r.0.email == Or(raw.email, "")
    ensures r.0.acao == Or(raw.acao, "") && r.0.followup == Or(raw.followup, "")
    ensures r.0.observacoes == Or(raw.observacoes, "")
    ensures r.0.createdAt == Or(raw.createdAt, now) && r.0.updatedAt == Or(raw.updatedAt, now)
  {
    var id := if Truthy(raw.id) then raw.id.value else gen(next);
    var lead := Lead(id, raw.nome.GetOr(""), Or(raw.telefone, ""), Or(raw.email, ""), Or(raw.origem, "Outro"),
                     Or(raw.status, "novo"), raw.valor.GetOr(0.0), Or(raw.acao, ""), Or(raw.followup, ""),
                     Or(raw.observacoes, ""), Or(raw.createdAt, now), Or(raw.updatedAt, now));
    (lead, if Truthy(raw.id) then next else next + 1)
  }

  /** What `JSON.stringify` of a lead reads back as. */
  function Exported(l: Lead): (raw: RawLead)
    ensures raw.id == Some(l.id) && raw.nome == Some(l.nome) && raw.valor == Some(l.valor)
  {
    RawLead(Some(l.id), Some(l.nome), Some(l.telefone), Some(l.email), Some(l.origem), Some(l.status),
            Some(l.valor), Some(l.acao), Some(l.followup), Some(l.observacoes), Some(l.createdAt), Some(l.updatedAt))
  }

  /** A lead with its id, origin, status and timestamps set normalises to itself. */
  predicate Complete(l: Lead) {
    l.id != "" && l.nome != "" && l.origem != "" && l.status != "" && l.createdAt != "" && l.updatedAt != ""
  }

  lemma NormalizeExported(l: Lead, gen: nat -> string, next: nat, now: string)
    requires Complete(l)
    ensures NormalizeLead(Exported(l), gen, next, now) == (l, next)
  {
  }

  /** `item.nome && item.status`. */
  predicate ValidRaw(raw: RawLead) {
    Truthy(raw.nome) && Truthy(raw.status)
  }

  /** Replace mode: every valid item normalised, in order. */
  function ReplaceImport(items: seq<RawLead>, gen: nat -> string, next: nat, now: string): (r: seq<Lead>)
    ensures |r| == |items|
    decreases |items|
  {
    if |items| == 0 then []
    else
      var (lead, after) := NormalizeLead(items[0], gen, next, now);
      [lead] + ReplaceImport(items[1..], gen, after, now)
  }

  /** Merge mode: each valid item normalised; one whose id is empty or already used by a lead
      that existed before the import gets the next draw instead. Ids of earlier items of the
      same file are not checked. */
  function MergeImport(existing: seq<string>, items: seq<RawLead>, gen: nat -> string, next: nat, now: string)
    : (r: seq<Lead>)
    ensures |r| == |items|
    decreases |items|
  {
    if |items| == 0 then []
    else
      var (lead, after) := NormalizeLead(items[0], gen, next, now);
      if lead.id == "" || lead.id in existing then
        [lead.(id := gen(after))] + MergeImport(existing, items[1..], gen, after + 1, now)
      else [lead] + MergeImport(existing, items[1..], gen, after, now)
  }

  /** Apart from the id, the n-th replaced lead is the n-th item normalised; an item's own id
      is kept. */
  lemma {:induction false} ReplaceImportContents(items: seq<RawLead>, gen: nat -> string, next: nat, now: string)
    ensures var r := ReplaceImport(items, gen, next, now);
            forall i :: 0 <= i < |r| ==>
              r[i] == NormalizeLead(items[i], gen, 0, now).0.(id := r[i].id)
              && (Truthy(items[i].id) ==> r[i].id == items[i].id.value)
    decreases |items|
  {
    if |items| > 0 {
      var (lead, after) := NormalizeLead(items[0], gen, next, now);
      ReplaceImportContents(items[1..], gen, after, now);
      var r := ReplaceImport(items, gen, next, now);
      assert r == [lead] + ReplaceImport(items[1..], gen, after, now);
      forall i | 0 < i < |r|
        ensures r[i] == NormalizeLead(items[i], gen, 0, now).0.(id := r[i].id)
        ensures Truthy(items[i].id) ==> r[i].id == items[i].id.value
      {
        assert r[i] == ReplaceImport(items[1..], gen, after, now)[i - 1];
        assert items[1..][i - 1] == items[i];
      }
    }
  }

  /** The draw number only reaches the id. */
  lemma NormalizeIdOnly(raw: RawLead, gen: nat -> string, next: nat, now: string)
    ensures var l := NormalizeLead(raw, gen, next, now).0;
            l == NormalizeLead(raw, gen, 0, now).0.(id := l.id)
  {
  }

  /** One merge step: the first item normalised, perhaps under a fresh draw, before the rest,
      which is merged from the returned draw number on. */
  lemma MergeImportStep(existing: seq<string>, items: seq<RawLead>, gen: nat -> string, next: nat, now: string)
    returns (nextRest: nat)
    requires |items| > 0
    ensures var r := MergeImport(existing, items, gen, next, now);
            r[0] == NormalizeLead(items[0], gen, next, now).0.(id := r[0].id)
            && r[1..] == MergeImport(existing, items[1..], gen, nextRest, now)
  {
    var (lead, after) := NormalizeLead(items[0], gen, next, now);
    nextRest := if lead.id == "" || lead.id in existing then after + 1 else after;
  }

  /** Apart from the id, the n-th merged lead is the n-th item normalised. */
  lemma {:induction false} MergeImportContents(existing: seq<string>, items: seq<RawLead>, gen: nat -> string,
                                               next: nat, now: string)
    ensures var r := MergeImport(existing, items, gen, next, now);
            forall i :: 0 <= i < |r| ==> r[i] == NormalizeLead(items[i], gen, 0, now).0.(id := r[i].id)
    decreases |items|
  {
    if |items| > 0 {
      var nextRest := MergeImportStep(existing, items, gen, next, now);
      NormalizeIdOnly(items[0], gen, next, now);
      MergeImportContents(existing, items[1..], gen, nextRest, now);
      var r := MergeImport(existing, items, gen, next, now);
      var rest := MergeImport(existing, items[1..], gen, nextRest, now);
      forall i | 0 < i < |r|
        ensures r[i] == NormalizeLead(items[i], gen, 0, now).0.(id := r[i].id)
      {
        Seqs.TailAt(r, rest, i);
        Seqs.TailAt(items, items[1..], i);
      }
    }
  }

  /** `handleImport` once the file is parsed as an array: only items with a name and a status
      are kept; replace mode (when confirmed) swaps the leads for them, merge mode appends them. */
  function ImportLeads(leads: seq<Lead>, data: seq<RawLead>, replace: bool, confirmed: bool,
                       gen: nat -> string, now: string): (r: seq<Lead>)
    ensures replace && !confirmed ==> r == leads
    ensures !replace ==> |r| == |leads| + |Seqs.Filter(data, ValidRaw)| && r[..|leads|] == leads
    ensures replace && confirmed ==> |r| == |Seqs.Filter(data, ValidRaw)|
    ensures var valid := Seqs.Filter(data, ValidRaw);
            replace && confirmed ==>
              forall i :: 0 <= i < |r| ==>
                r[i] == NormalizeLead(valid[i], gen, 0, now).0.(id := r[i].id)
                && (Truthy(valid[i].id) ==> r[i].id == valid[i].id.value)
    ensures var valid := Seqs.Filter(data, ValidRaw);
            !replace ==>
              forall i :: |leads| <= i < |r| ==> r[i] == NormalizeLead(valid[i - |leads|], gen, 0, now).0.(id := r[i].id)
  {
    var valid := Seqs.Filter(data, ValidRaw);
    ReplaceImportContents(valid, gen, 0, now);
    MergeImportContents(Ids(leads), valid, gen, 0, now);
    if replace then (if confirmed then ReplaceImport(valid, gen, 0, now) else leads)
    else leads + MergeImport(Ids(leads), valid, gen, 0, now)
  }

  /** Each merged lead keeps its own id when that is non-empty and unused before the import;
      otherwise its id is a draw of gen at or after `next`. */
  lemma {:induction false} MergeIds(existing: seq<string>, items: seq<RawLead>, gen: nat -> string, next: nat,
                                    now: string, i: int)
    requires 0 <= i < |items|
    ensures var r := MergeImport(existing, items, gen, next, now);
            if Truthy(items[i].id) && items[i].id.value !in existing then r[i].id == items[i].id.value
            else exists j :: next <= j && r[i].id == gen(j)
    decreases |items|
  {
    var (lead, after) := NormalizeLead(items[0], gen, next, now);
    var r := MergeImport(existing, items, gen, next, now);
    var nextRest := if lead.id == "" || lead.id in existing then after + 1 else after;
    if i == 0 {
      if !(Truthy(items[0].id) && items[0].id.value !in existing) {
        if lead.id == "" || lead.id in existing {
          assert r[0].id == gen(after);
        } else {
          assert r[0].id == gen(next);
        }
      }
    } else {
      MergeIds(existing, items[1..], gen, nextRest, now, i - 1);
      assert r[i] == MergeImport(existing, items[1..], gen, nextRest, now)[i - 1];
    }
  }

  /** When no draw of gen collides with an existing id, no merged lead takes an existing id. */
  lemma MergeAvoidsExisting(existing: seq<string>, items: seq<RawLead>, gen: nat -> string, now: string, i: int)
    requires forall j :: gen(j) !in existing
    requires 0 <= i < |items|
    ensures MergeImport(existing, items, gen, 0, now)[i].id !in existing
  {
    MergeIds(existing, items, gen, 0, now, i);
  }

  /** Two items of one file with the same new id both keep it: merge checks only the ids that
      existed before the import. */
  lemma MergeKeepsFileDuplicates(gen: nat -> string)
    ensures var raw := RawLead(Some("a"), Some("Ana"), None, None, None, Some("novo"), None, None, None, None, None, None);
            var r := MergeImport([], [raw, raw], gen, 0, "t");
            r[0].id == "a" && r[1].id == "a"
  {
  }

  /** Exporting complete leads and importing the file in replace mode gives them back. */
  lemma {:induction false} ReplaceImportExported(leads: seq<Lead>, gen: nat -> string, next: nat, now: string)
    requires forall i :: 0 <= i < |leads| ==> Complete(leads[i])
    ensures ReplaceImport(seq(|leads|, i requires 0 <= i < |leads| => Exported(leads[i])), gen, next, now) == leads
    decreases |leads|
  {
    if |leads| > 0 {
      var raws := seq(|leads|, i requires 0 <= i < |leads| => Exported(leads[i]));
      NormalizeExported(leads[0], gen, next, now);
      ReplaceImportExported(leads[1..], gen, next, now);
      assert raws[1..] == seq(|leads[1..]|, i requires 0 <= i < |leads[1..]| => Exported(leads[1..][i]));
      assert leads == [leads[0]] + leads[1..];
    }
  }

  // ----- follow-ups -----

  /** `sortByFollowup`: leads without a follow-up go after those with one, two without compare
      equal, otherwise the earlier instant first. instantOf is `new Date(s).getTime()`, None for
      an invalid date; with one, the subtraction gives NaN, which the sort treats as "equal". */
  function FollowupCompare(a: Lead, b: Lead, instantOf: string -> Option<real>): (c: real)
    ensures a.followup == "" && b.followup == "" ==> c == 0.0
    ensures a.followup == "" && b.followup != "" ==> c > 0.0
    ensures a.followup != "" && b.followup == "" ==> c < 0.0
    ensures a.followup != "" && b.followup != "" && instantOf(a.followup).Some? && instantOf(b.followup).Some? ==>
              (c < 0.0 <==> instantOf(a.followup).value < instantOf(b.followup).value)
  {
    if a.followup == "" && b.followup == "" then 0.0
    else if a.followup == "" then 1.0
    else if b.followup == "" then -1.0
    else
      var ta := instantOf(a.followup);
      var tb := instantOf(b.followup);
      if ta.Some? && tb.Some? then ta.value - tb.value else 0.0
  }

  /** The comparator is antisymmetric: swapping the leads flips its sign. */
  lemma FollowupCompareAntisymmetric(a: Lead, b: Lead, instantOf: string -> Option<real>)
    ensures FollowupCompare(a, b, instantOf) == -FollowupCompare(b, a, instantOf)
  {
  }

  /** The sort key the comparator orders by: the follow-up instant, or last when there is none. */
  function FollowupKey(l: Lead, instantOf: string -> Option<real>): Sorting.SortKey {
    if l.followup == "" || instantOf(l.followup).None? then Sorting.Last
    else Sorting.Finite(instantOf(l.followup).value)
  }

  /** For readable dates the comparator orders exactly as the key does, so sorting with it is
      the stable sort by `FollowupKey`. */
  lemma FollowupCompareIsKeyOrder(a: Lead, b: Lead, instantOf: string -> Option<real>)
    requires a.followup == "" || instantOf(a.followup).Some?
    requires b.followup == "" || instantOf(b.followup).Some?
    ensures FollowupCompare(a, b, instantOf) <= 0.0 <==> Sorting.KeyLe(FollowupKey(a, instantOf), FollowupKey(b, instantOf))
    ensures FollowupCompare(a, b, instantOf) == 0.0 <==> FollowupKey(a, instantOf) == FollowupKey(b, instantOf)
  {
  }

  /** The badge's `label` (`text` here) and `status`. */
  datatype Badge = Badge(text: string, status: Option<string>)

  /** `formatFollowupBadge`: "-" without a date; "Atrasado"/overdue before today, "Hoje"/today on
      today; otherwise the formatted date and no status. formatDate is the locale formatter. */
  function FollowupBadge(dateString: string, today: int, dayOf: string -> Option<int>,
                         formatDate: string -> string): (b: Badge)
    ensures dateString == "" ==> b == Badge("-", None)
    ensures b.status.Some? <==> dateString != "" && dayOf(dateString).Some? && dayOf(dateString).value <= today
    ensures b.status == Some("overdue") <==> dateString != "" && dayOf(dateString).Some? && dayOf(dateString).value < today
    ensures b.status == Some("today") <==> dateString != "" && dayOf(dateString) == Some(today)
    ensures b.status == Some("overdue") ==> b.text == "Atrasado"
    ensures b.status == Some("today") ==> b.text == "Hoje"
    ensures dateString != "" && b.status.None? ==> b.text == formatDate(dateString)
  {
    if dateString == "" then Badge("-", None)
    else
      var d := dayOf(dateString);
      if d.Some? && d.value < today then Badge("Atrasado", Some("overdue"))
      else if d.Some? && d.value == today then Badge("Hoje", Some("today"))
      else Badge(formatDate(dateString), None)
  }

  /** A lead due for follow-up with its follow-up day. */
  datatype Priority = Priority(lead: Lead, day: int)

  /** The leads whose follow-up day is readable and not after today, in order. */
  function DueLeads(leads: seq<Lead>, today: int, dayOf: string -> Option<int>): (r: seq<Priority>)
    ensures forall i :: 0 <= i < |r| ==>
              && r[i].lead in leads && r[i].lead.followup != ""
              && dayOf(r[i].lead.followup) == Some(r[i].day) && r[i].day <= today
    ensures forall l :: l in leads && l.followup != "" && dayOf(l.followup).Some? && dayOf(l.followup).value <= today
              ==> Priority(l, dayOf(l.followup).value) in r
  {
    if |leads| == 0 then []
    else
      var rest := DueLeads(leads[1..], today, dayOf);
      var l := leads[0];
      assert forall x :: x in leads[1..] ==> x in leads;
      assert forall x :: x in leads ==> x == l || x in leads[1..];
      if l.followup != "" && dayOf(l.followup).Some? && dayOf(l.followup).value <= today
      then [Priority(l, dayOf(l.followup).value)] + rest
      else rest
  }

  /** The list's badge and the priority panel agree: a lead's badge carries a status exactly when
      the lead is due, and then its text is the one the panel's card shows. */
  lemma FollowupBadgeDue(leads: seq<Lead>, l: Lead, today: int, dayOf: string -> Option<int>,
                         formatDate: string -> string)
    requires l in leads
    ensures FollowupBadge(l.followup, today, dayOf, formatDate).status.Some? <==>
              exists p :: p in DueLeads(leads, today, dayOf) && p.lead == l
    ensures forall p :: p in DueLeads(leads, today, dayOf) && p.lead == l ==>
              FollowupBadge(l.followup, today, dayOf, formatDate).text == PriorityBadge(p, today)
  {
    var due := DueLeads(leads, today, dayOf);
    if l.followup != "" && dayOf(l.followup).Some? && dayOf(l.followup).value <= today {
      assert Priority(l, dayOf(l.followup).value) in due;
    }
    forall p | p in due && p.lead == l
      ensures l.followup != "" && dayOf(l.followup) == Some(p.day) && p.day <= today
    {
      var k :| 0 <= k < |due| && due[k] == p;
    }
  }

  function PriorityKey(p: Priority): Sorting.SortKey {
    Sorting.Finite(p.day as real)
  }

  /** `renderPriorities`' list: the due leads by follow-up day, earliest first, at most five. */
  function Priorities(leads: seq<Lead>, today: int, dayOf: string -> Option<int>): seq<Priority> {
    Sorting.SortTake(DueLeads(leads, today, dayOf), PriorityKey, 5)
  }

  /** The priority card's badge. */
  function PriorityBadge(p: Priority, today: int): string {
    if p.day < today then "Atrasado" else "Hoje"
  }

  /** At most five leads, five when that many are due, each due by today, earliest first; no due
      lead left out is earlier than one shown; and each card's badge is the one the list shows. */
  lemma PrioritiesSpec(leads: seq<Lead>, today: int, dayOf: string -> Option<int>, formatDate: string -> string)
    ensures var due := DueLeads(leads, today, dayOf);
            var top := Priorities(leads, today, dayOf);
            && |top| == (if |due| < 5 then |due| else 5)
            && (forall i :: 0 <= i < |top| ==>
                  && top[i].lead in leads && top[i].day <= today
                  && FollowupBadge(top[i].lead.followup, today, dayOf, formatDate).text == PriorityBadge(top[i], today))
            && (forall i, j :: 0 <= i < j < |top| ==> top[i].day <= top[j].day)
  {
    Sorting.SortTakeTop(DueLeads(leads, today, dayOf), PriorityKey, 5);
    PrioritiesCards(leads, today, dayOf, formatDate);
  }

  /** Every card shown is a due lead with the badge the list shows for it. */
  lemma PrioritiesCards(leads: seq<Lead>, today: int, dayOf: string -> Option<int>, formatDate: string -> string)
    ensures var top := Priorities(leads, today, dayOf);
            forall i :: 0 <= i < |top| ==>
              && top[i].lead in leads && top[i].day <= today
              && FollowupBadge(top[i].lead.followup, today, dayOf, formatDate).text == PriorityBadge(top[i], today)
  {
    var due := DueLeads(leads, today, dayOf);
    var top := Priorities(leads, today, dayOf);
    Sorting.SortTakeTop(due, PriorityKey, 5);
    forall i | 0 <= i < |top|
      ensures top[i].lead in leads && top[i].day <= today
      ensures FollowupBadge(top[i].lead.followup, today, dayOf, formatDate).text == PriorityBadge(top[i], today)
    {
      assert top[i] in due;
    }
  }

  /** No due lead left out of the five is due earlier than one shown. */
  lemma PrioritiesMaximal(leads: seq<Lead>, today: int, dayOf: string -> Option<int>, p: Priority)
    requires p in multiset(DueLeads(leads, today, dayOf)) - multiset(Priorities(leads, today, dayOf))
    ensures forall i :: 0 <= i < |Priorities(leads, today, dayOf)| ==> Priorities(leads, today, dayOf)[i].day <= p.day
  {
    Sorting.SortTakeRest(DueLeads(leads, today, dayOf), PriorityKey, 5, p);
  }

  // ----- the filtered list -----

  /** sub occurs in s at position i. */
  predicate OccursAt(s: string, sub: string, i: int) {
    0 <= i && i + |sub| <= |s| && s[i..i + |sub|] == sub
  }

  /** `s.includes(sub)`. */
  predicate Includes(s: string, sub: string) {
    exists i :: 0 <= i <= |s| && OccursAt(s, sub, i)
  }

  datatype Filters = Filters(search: string, status: string, origem: string, sort: string)

  /** The search box: a non-empty (lower-cased) query must occur in the lower-cased name,
      phone or email. lower is `toLowerCase`. */
  predicate MatchesSearch(l: Lead, query: string, lower: string -> string) {
    Includes(lower(l.nome), query) || Includes(lower(l.telefone), query) || Includes(lower(l.email), query)
  }

  /** The lead passes every active filter. */
  predicate Selected(l: Lead, f: Filters, lower: string -> string) {
    && (lower(f.search) == "" || MatchesSearch(l, lower(f.search), lower))
    && (f.status == "" || l.status == f.status)
    && (f.origem == "" || l.origem == f.origem)
  }

  /** `sortLeads`' order as a key: by name rank (the locale collation), by value largest first,
      by follow-up, or by creation instant newest first (an unreadable one last). */
  function SortKeyOf(l: Lead, mode: string, nameRank: string -> real,
                     instantOf: string -> Option<real>): Sorting.SortKey {
    if mode == "nome" then Sorting.Finite(nameRank(l.nome))
    else if mode == "valor" then Sorting.Finite(-l.valor)
    else if mode == "followup" then FollowupKey(l, instantOf)
    else if instantOf(l.createdAt).Some? then Sorting.Finite(-instantOf(l.createdAt).value)
    else Sorting.Last
  }

  /** `leads.filter(p)` when the filter is active, the leads themselves otherwise. */
  function FilterIf(leads: seq<Lead>, active: bool, p: Lead -> bool): (r: seq<Lead>)
    ensures forall l :: l in r <==> l in leads && (!active || p(l))
  {
    if active then Seqs.Filter(leads, p) else leads
  }

  /** The three filters of `getFilteredLeads`, in turn. */
  function FilterLeads(leads: seq<Lead>, f: Filters, lower: string -> string): (r: seq<Lead>)
    ensures forall l :: l in r <==> l in leads && Selected(l, f, lower)
  {
    var query := lower(f.search);
    var bySearch := FilterIf(leads, query != "", (l: Lead) => MatchesSearch(l, query, lower));
    var byStatus := FilterIf(bySearch, f.status != "", (l: Lead) => l.status == f.status);
    FilterIf(byStatus, f.origem != "", (l: Lead) => l.origem == f.origem)
  }

  /** `getFilteredLeads`: the filters, then the sort. */
  function FilteredLeads(leads: seq<Lead>, f: Filters, lower: string -> string, nameRank: string -> real,
                         instantOf: string -> Option<real>): (r: seq<Lead>)
    ensures multiset(r) == multiset(FilterLeads(leads, f, lower))
    ensures forall l :: l in r <==> l in leads && Selected(l, f, lower)
  {
    var kept := FilterLeads(leads, f, lower);
    var sorted := Sorting.Sort(kept, (l: Lead) => SortKeyOf(l, f.sort, nameRank, instantOf));
    assert forall l :: l in sorted <==> l in multiset(kept);
    sorted
  }

  /** The filtered list is in the chosen order. */
  lemma FilteredLeadsSorted(leads: seq<Lead>, f: Filters, lower: string -> string, nameRank: string -> real,
                            instantOf: string -> Option<real>)
    ensures var r := FilteredLeads(leads, f, lower, nameRank, instantOf);
            forall i, j :: 0 <= i < j < |r| ==>
              Sorting.KeyLe(SortKeyOf(r[i], f.sort, nameRank, instantOf), SortKeyOf(r[j], f.sort, nameRank, instantOf))
  {
    Sorting.SortSorted(FilterLeads(leads, f, lower), (l: Lead) => SortKeyOf(l, f.sort, nameRank, instantOf));
  }

  // ----- CSV export -----

  const CsvHeaders: seq<string> := ["id", "nome", "telefone", "email", "origem", "status", "valor", "acao",
                                    "followup", "observacoes", "createdAt", "updatedAt"]

  /** The fields of one exported lead, in header order; numberText renders valor as `String` does. */
  function LeadFields(l: Lead, numberText: real -> string): (r: seq<string>)
    ensures |r| == |CsvHeaders|
  {
    [l.id, l.nome, l.telefone, l.email, l.origem, l.status, numberText(l.valor), l.acao, l.followup,
     l.observacoes, l.createdAt, l.updatedAt]
  }

  /** `convertToCSV`: the header line, then one line per lead, fields quoted and joined by ','. */
  function LeadsToCsv(leads: seq<Lead>, numberText: real -> string): string {
    Csv.Document(CsvHeaders, seq(|leads|, i requires 0 <= i < |leads| => LeadFields(leads[i], numberText)), ',')
  }

  /** Reading the export back gives the header and every lead's fields, line by line. */
  lemma LeadsCsvRoundTrip(leads: seq<Lead>, numberText: real -> string)
    ensures Csv.ReadDocument(LeadsToCsv(leads, numberText), ',')
            == Some([CsvHeaders] + seq(|leads|, i requires 0 <= i < |leads| => LeadFields(leads[i], numberText)))
  {
    var rows := seq(|leads|, i requires 0 <= i < |leads| => LeadFields(leads[i], numberText));
    forall i | 0 <= i < |CsvHeaders| ensures Csv.Bare(CsvHeaders[i], ',') {
    }
    Csv.DocumentRoundTrip(CsvHeaders, rows, ',');
  }
}

=== FILE: proposals.dfy ===
/** The proposal generator: item list editing, subtotal, discount and total, form validation
    with a fixed order of checks, and the sanitising of text shown in the preview. */
module Proposals {
  import opened Wrappers
  import opened Text
  import Seqs
  import EmailShape

  /** One line of the proposal; qty and price are the numbers read from the item inputs. */
  datatype Item = Item(id: string, description: string, qty: real, price: real)

  /** The result of an action on the item list: the new list and the toast shown, if any. */
  datatype ItemsOutcome = ItemsOutcome(items: seq<Item>, toast: Option<string>)

  const NameRequired := "Nome do cliente e obrigatorio."
  const EmailInvalid := "Email invalido."
  const ItemsRequired := "Adicione pelo menos um item."
  const DescriptionRequired := "Descricao do item obrigatoria."
  const QtyPriceInvalid := "Quantidade e valor devem ser validos."
  const KeepOneItem := "Mantenha pelo menos 1 item."

  // ----- sanitising and email -----

  predicate NotAngle(c: char) {
    c != '<' && c != '>'
  }

  /** `String(text || "").replace(/[<>]/g, "")`, an absent text (None) reading as "". */
  function Sanitize(text: Option<string>): (r: string)
    ensures forall i :: 0 <= i < |r| ==> NotAngle(r[i])
    ensures text.None? ==> r == ""
    ensures text.Some? ==> |r| <= |text.value|
    ensures text.Some? ==> forall c :: c in text.value && NotAngle(c) ==> c in r
    ensures text.Some? ==> forall c :: c in r ==> c in text.value
  {
    if text.None? then "" else Seqs.Filter(text.value, NotAngle)
  }

  /** Sanitising works character by character: it keeps the order of what it keeps. */
  lemma SanitizeAppend(a: string, b: string)
    ensures Sanitize(Some(a + b)) == Sanitize(Some(a)) + Sanitize(Some(b))
  {
    Seqs.FilterAppend(a, b, NotAngle);
  }

  /** A text is left unchanged exactly when it holds no angle bracket. */
  lemma SanitizeFixpoint(s: string)
    ensures Sanitize(Some(s)) == s <==> forall i :: 0 <= i < |s| ==> NotAngle(s[i])
  {
    Seqs.FilterIdentity(s, NotAngle);
  }

  /** Sanitising twice is the same as sanitising once. */
  lemma SanitizeIdempotent(text: Option<string>)
    ensures Sanitize(Some(Sanitize(text))) == Sanitize(text)
  {
    SanitizeFixpoint(Sanitize(text));
  }

  /** `!email || /\S+@\S+\.\S+/.test(email)`. */
  predicate IsValidEmail(email: string) {
    email == "" || EmailShape.HasEmailShape(email)
  }

  /** An empty address is accepted; a non-empty one exactly when it has the shape name@domain.tld. */
  lemma IsValidEmailSpec(email: string)
    ensures IsValidEmail(email) <==> email == "" || EmailShape.EmailPattern(email)
    ensures IsValidEmail("")
  {
    EmailShape.HasEmailShapeCorrect(email);
  }

  // ----- pricing -----

  function LineTotal(item: Item): real {
    item.qty * item.price
  }

  /** The sum of qty × price over the items. */
  function Subtotal(items: seq<Item>): real {
    Seqs.Sum(items, LineTotal)
  }

  /** `calculateDiscount`: a percentage clamped to [0, 100] of the subtotal, or any other type
      read as a fixed amount capped at the subtotal. */
  function CalculateDiscount(discountType: string, value: real, subtotal: real): (d: real)
    ensures discountType == "percent" && subtotal >= 0.0 ==> 0.0 <= d <= subtotal
    ensures discountType == "percent" && value <= 0.0 ==> d == 0.0
    ensures discountType == "percent" && value >= 100.0 ==> d == subtotal
    ensures discountType == "percent" && 0.0 <= value <= 100.0 ==> d == subtotal * value / 100.0
    ensures discountType != "percent" ==> d <= subtotal && d <= value && (d == value || d == subtotal)
  {
    if discountType == "percent" then PercentOf(subtotal, value)
    else if value < subtotal then value else subtotal
  }

  /** `Math.min(Math.max(value, 0), 100)`. */
  function Clamp100(value: real): (l: real)
    ensures 0.0 <= l <= 100.0
    ensures value <= 0.0 ==> l == 0.0
    ensures value >= 100.0 ==> l == 100.0
    ensures 0.0 <= value <= 100.0 ==> l == value
  {
    if value < 0.0 then 0.0 else if value > 100.0 then 100.0 else value
  }

  /** The product of two non-negative numbers is non-negative, and negating a factor negates it. */
  lemma ProductSign(x: real, y: real)
    requires 0.0 <= x && 0.0 <= y
    ensures 0.0 <= x * y
    ensures (-x) * y == -(x * y)
  {
  }

  /** Taking a share in [0, 100] percent keeps a number between itself and 0. */
  lemma ShareBetween(a: real, l: real)
    requires 0.0 <= l <= 100.0
    ensures a >= 0.0 ==> 0.0 <= a * l / 100.0 <= a
    ensures a < 0.0 ==> a <= a * l / 100.0 <= 0.0
  {
    assert a - a * l / 100.0 == a * (100.0 - l) / 100.0;
    if a >= 0.0 {
      ProductSign(a, l);
      ProductSign(a, 100.0 - l);
    } else {
      ProductSign(-a, l);
      ProductSign(-a, 100.0 - l);
    }
  }

  /** The percentage value clamped to [0, 100], applied to the subtotal. */
  function PercentOf(subtotal: real, value: real): (d: real)
    ensures subtotal >= 0.0 ==> 0.0 <= d <= subtotal
    ensures subtotal < 0.0 ==> subtotal <= d <= 0.0
    ensures value <= 0.0 ==> d == 0.0
    ensures value >= 100.0 ==> d == subtotal
    ensures 0.0 <= value <= 100.0 ==> d == subtotal * value / 100.0
  {
    ShareBetween(subtotal, Clamp100(value));
    subtotal * Clamp100(value) / 100.0
  }

  /** `Math.max(subtotal - discount, 0)`. */
  function Total(items: seq<Item>, discountType: string, value: real): (t: real)
    ensures t >= 0.0
    ensures t >= Subtotal(items) - CalculateDiscount(discountType, value, Subtotal(items))
    ensures t == Subtotal(items) - CalculateDiscount(discountType, value, Subtotal(items))
            || (t == 0.0 && Subtotal(items) - CalculateDiscount(discountType, value, Subtotal(items)) <= 0.0)
  {
    var subtotal := Subtotal(items);
    var discount := CalculateDiscount(discountType, value, subtotal);
    if subtotal - discount > 0.0 then subtotal - discount else 0.0
  }

  /** A percentage discount never lifts the total above the subtotal: on a non-negative subtotal
      the total is exactly the undiscounted part, on a negative one it is 0. A fixed discount
      lowers the total by the discount and stops at 0, whatever its sign. */
  lemma TotalBounds(items: seq<Item>, discountType: string, value: real)
    ensures discountType == "percent" && Subtotal(items) >= 0.0 ==>
              Total(items, discountType, value) == Subtotal(items) - CalculateDiscount(discountType, value, Subtotal(items))
    ensures discountType == "percent" && Subtotal(items) >= 0.0 ==> Total(items, discountType, value) <= Subtotal(items)
    ensures discountType == "percent" && Subtotal(items) < 0.0 ==> Total(items, discountType, value) == 0.0
    ensures discountType != "percent" ==>
              Total(items, discountType, value) == if value < Subtotal(items) then Subtotal(items) - value else 0.0
  {
  }

  /** A percentage between 0 and 100 leaves exactly the remaining share of a non-negative subtotal. */
  lemma PercentTotalIsShare(items: seq<Item>, value: real)
    requires 0.0 <= value <= 100.0
    ensures Subtotal(items) >= 0.0 ==> Total(items, "percent", value) == Subtotal(items) * (100.0 - value) / 100.0
  {
    TotalBounds(items, "percent", value);
  }

  /** A larger discount value never gives a smaller discount on a non-negative subtotal,
      whichever type it is. */
  lemma DiscountMonotone(discountType: string, v1: real, v2: real, subtotal: real)
    requires v1 <= v2 && subtotal >= 0.0
    ensures CalculateDiscount(discountType, v1, subtotal) <= CalculateDiscount(discountType, v2, subtotal)
  {
    if discountType == "percent" {
      var l1, l2 := Clamp100(v1), Clamp100(v2);
      assert l1 <= l2;
      assert subtotal * l2 / 100.0 - subtotal * l1 / 100.0 == subtotal * (l2 - l1) / 100.0;
      ProductSign(subtotal, l2 - l1);
    }
  }

  // ----- validation -----

  /** The message for one item, "" when the item is acceptable. */
  function ItemError(item: Item): (m: string)
    ensures m == "" <==> !IsBlank(item.description) && item.qty >= 1.0 && item.price > 0.0
    ensures m == DescriptionRequired <==> IsBlank(item.description)
    ensures m == QtyPriceInvalid <==> !IsBlank(item.description) && (item.qty < 1.0 || item.price <= 0.0)
  {
    TrimEmptyIffBlank(item.description);
    if Trim(item.description) == "" then DescriptionRequired
    else if item.qty < 1.0 || item.price <= 0.0 then QtyPriceInvalid
    else ""
  }

  predicate ItemOk(item: Item) {
    ItemError(item) == ""
  }

  predicate ItemBad(item: Item) {
    !ItemOk(item)
  }

  /** The `for ... of` loop: the message of the first unacceptable item, "" when there is none. */
  function ItemsError(items: seq<Item>): (m: string)
    ensures m == "" || m == DescriptionRequired || m == QtyPriceInvalid
  {
    if |items| == 0 then ""
    else if ItemError(items[0]) != "" then ItemError(items[0])
    else ItemsError(items[1..])
  }

  /** The loop reports exactly the first unacceptable item, found by its index. */
  lemma {:induction false} ItemsErrorFirst(items: seq<Item>)
    ensures var k := Seqs.FindIndex(items, ItemBad);
            ItemsError(items) == if k == -1 then "" else ItemError(items[k])
  {
    if |items| > 0 && ItemOk(items[0]) {
      ItemsErrorFirst(items[1..]);
      var k := Seqs.FindIndex(items[1..], ItemBad);
      assert Seqs.FindIndex(items, ItemBad) == if k == -1 then -1 else k + 1;
      if k != -1 {
        assert items[1..][k] == items[k + 1];
      }
    } else if |items| > 0 {
      assert Seqs.FindIndex(items, ItemBad) == 0;
    }
  }

  /** `validateForm`: the client name, then the email, then the item count, then the items in
      order; "" when everything is acceptable. */
  function ValidateForm(clientName: string, clientEmail: string, items: seq<Item>): (m: string)
    ensures m in {"", NameRequired, EmailInvalid, ItemsRequired, DescriptionRequired, QtyPriceInvalid}
  {
    if clientName == "" then NameRequired
    else if !IsValidEmail(clientEmail) then EmailInvalid
    else if |items| == 0 then ItemsRequired
    else ItemsError(items)
  }

  /** The first unacceptable item is determined by its position alone. */
  lemma FirstBadIndex(items: seq<Item>, k: int)
    requires 0 <= k < |items| && ItemBad(items[k])
    requires forall j :: 0 <= j < k ==> ItemOk(items[j])
    ensures Seqs.FindIndex(items, ItemBad) == k
  {
    Seqs.FindIndexAt(items, ItemBad, k);
  }

  /** The loop reports a given item message exactly when the first unacceptable item has it. */
  lemma {:induction false} ItemsErrorIs(items: seq<Item>, msg: string)
    requires msg != ""
    ensures ItemsError(items) == msg <==>
              exists k :: 0 <= k < |items| && ItemError(items[k]) == msg && forall j :: 0 <= j < k ==> ItemOk(items[j])
  {
    ItemsErrorFirst(items);
    var f := Seqs.FindIndex(items, ItemBad);
    if exists k :: 0 <= k < |items| && ItemError(items[k]) == msg && forall j :: 0 <= j < k ==> ItemOk(items[j]) {
      var k :| 0 <= k < |items| && ItemError(items[k]) == msg && forall j :: 0 <= j < k ==> ItemOk(items[j]);
      FirstBadIndex(items, k);
    }
    if ItemsError(items) == msg {
      assert f != -1;
      assert ItemError(items[f]) == msg;
    }
  }

  /** The form passes exactly when the name is filled in, the email is empty or well formed,
      there is an item, and every item has a non-blank description, qty ≥ 1 and price > 0. */
  lemma ValidateFormPasses(clientName: string, clientEmail: string, items: seq<Item>)
    ensures ValidateForm(clientName, clientEmail, items) == "" <==>
              clientName != "" && IsValidEmail(clientEmail) && |items| > 0
              && forall i :: 0 <= i < |items| ==>
                   !IsBlank(items[i].description) && items[i].qty >= 1.0 && items[i].price > 0.0
  {
    ItemsErrorFirst(items);
    var f := Seqs.FindIndex(items, ItemBad);
    if f != -1 {
      assert ItemBad(items[f]);
    }
  }

  /** A failing form reports the check that fails first: the name, then the email, then the
      item count. */
  lemma ValidateFormFormChecks(clientName: string, clientEmail: string, items: seq<Item>)
    ensures ValidateForm(clientName, clientEmail, items) == NameRequired <==> clientName == ""
    ensures ValidateForm(clientName, clientEmail, items) == EmailInvalid <==>
              clientName != "" && !IsValidEmail(clientEmail)
    ensures ValidateForm(clientName, clientEmail, items) == ItemsRequired <==>
              clientName != "" && IsValidEmail(clientEmail) && |items| == 0
  {
  }

  /** Past the form checks, a blank description is reported when the first unacceptable item
      has one. */
  lemma ValidateFormDescription(clientName: string, clientEmail: string, items: seq<Item>)
    ensures ValidateForm(clientName, clientEmail, items) == DescriptionRequired <==>
              clientName != "" && IsValidEmail(clientEmail)
              && exists k :: 0 <= k < |items| && IsBlank(items[k].description)
                             && forall j :: 0 <= j < k ==> ItemOk(items[j])
  {
    ItemsErrorIs(items, DescriptionRequired);
  }

  /** Past the form checks, a bad qty or price is reported when the first unacceptable item has
      a description but a qty below 1 or a price not above 0. */
  lemma ValidateFormQtyPrice(clientName: string, clientEmail: string, items: seq<Item>)
    ensures ValidateForm(clientName, clientEmail, items) == QtyPriceInvalid <==>
              clientName != "" && IsValidEmail(clientEmail)
              && exists k :: 0 <= k < |items| && !IsBlank(items[k].description)
                             && (items[k].qty < 1.0 || items[k].price <= 0.0)
                             && forall j :: 0 <= j < k ==> ItemOk(items[j])
  {
    ItemsErrorIs(items, QtyPriceInvalid);
  }

  /** An item with qty ≥ 1 and a positive price has a positive line total. */
  lemma LinePositive(item: Item)
    requires item.qty >= 1.0 && item.price > 0.0
    ensures LineTotal(item) >= item.price > 0.0
  {
    assert item.qty * item.price - item.price == (item.qty - 1.0) * item.price;
    ProductSign(item.qty - 1.0, item.price);
  }

  /** A proposal that passes validation has a positive subtotal. */
  lemma ValidFormPositiveSubtotal(clientName: string, clientEmail: string, items: seq<Item>)
    requires ValidateForm(clientName, clientEmail, items) == ""
    ensures Subtotal(items) > 0.0
  {
    ValidateFormPasses(clientName, clientEmail, items);
    forall i | 0 <= i < |items| ensures LineTotal(items[i]) > 0.0 {
      LinePositive(items[i]);
    }
    Seqs.SumPositive(items, LineTotal);
  }

  // ----- editing the item list -----

  /** `addItem`: a blank item with qty 1 and price 0 is appended under a fresh id. */
  function AddItem(items: seq<Item>, freshId: string): (r: seq<Item>)
    ensures |r| == |items| + 1
    ensures r[..|items|] == items
    ensures r[|items|] == Item(freshId, "", 1.0, 0.0)
  {
    items + [Item(freshId, "", 1.0, 0.0)]
  }

  predicate HasId(items: seq<Item>, id: string) {
    exists i :: 0 <= i < |items| && items[i].id == id
  }

  /** `removeItem`: a single remaining item is kept, with a toast; otherwise every item with the
      id is dropped. */
  function RemoveItem(items: seq<Item>, id: string): (r: ItemsOutcome)
    ensures |items| == 1 ==> r == ItemsOutcome(items, Some(KeepOneItem))
    ensures |items| != 1 ==> r.toast.None?
    ensures forall i :: 0 <= i < |r.items| ==> r.items[i] in items
    ensures |items| != 1 ==> forall i :: 0 <= i < |r.items| ==> r.items[i].id != id
    ensures |items| != 1 ==> forall x :: x in items && x.id != id ==> x in r.items
    ensures |items| != 1 ==> forall x :: multiset(r.items)[x] == if x.id != id then multiset(items)[x] else 0
    ensures Seqs.IsSubseq(r.items, items)
  {
    if |items| == 1 then
      Seqs.SubseqRefl(items);
      ItemsOutcome(items, Some(KeepOneItem))
    else
      Seqs.FilterSpec(items, (x: Item) => x.id != id);
      ItemsOutcome(Seqs.Filter(items, (x: Item) => x.id != id), None)
  }

  /** Removing an item that was just added under a fresh id restores the list. */
  lemma RemoveAddRoundTrip(items: seq<Item>, freshId: string)
    requires |items| > 0
    requires !HasId(items, freshId)
    ensures RemoveItem(AddItem(items, freshId), freshId) == ItemsOutcome(items, None)
  {
    var p := (x: Item) => x.id != freshId;
    Seqs.FilterAppend(items, [Item(freshId, "", 1.0, 0.0)], p);
    Seqs.FilterIdentity(items, p);
    assert Seqs.Filter([Item(freshId, "", 1.0, 0.0)], p) == [];
  }

  /** When some item carries another id the list stays non-empty; it empties only when every one
      of at least two items carries the id (ids are not forced to be distinct). */
  lemma RemoveItemNonEmpty(items: seq<Item>, id: string)
    ensures (exists i :: 0 <= i < |items| && items[i].id != id) ==> |RemoveItem(items, id).items| > 0
    ensures |items| >= 2 && (forall i :: 0 <= i < |items| ==> items[i].id == id) ==>
              RemoveItem(items, id).items == []
  {
    if exists i :: 0 <= i < |items| && items[i].id != id {
      var i :| 0 <= i < |items| && items[i].id != id;
      assert items[i] in items;
    }
  }
}

=== FILE: sales_goals.dfy ===
/** The sales-goal dashboard's data layer: month keys, the stored state and its migration,
    the sales kept per month (create, update, remove, list), per-channel totals, the sale form's
    guard and the CSV export of a month's sales. Ids and timestamps come from outside
    (a fresh id and the current ISO time are parameters). */
module SalesGoals {
  import opened Wrappers
  import opened Text
  import Seqs
  import Tally
  import Csv

  /** `CONFIG.channels`. */
  const Channels: seq<string> := ["Loja", "WhatsApp", "Instagram", "Indicacao", "Outro"]

  /** `CONFIG.schemaVersion`. */
  const SchemaVersion := 1

  /** What the sale form submits. */
  datatype Payload = Payload(data: string, valor: real, canal: string, cliente: string, observacoes: string)

  /** A stored sale: the form fields plus its id and ISO timestamps. */
  datatype Sale = Sale(
    id: string, data: string, valor: real, canal: string, cliente: string, observacoes: string,
    createdAt: string, updatedAt: string)

  /** `state.sales`: month key to that month's sales, in insertion order. */
  type SalesByMonth = map<string, seq<Sale>>

  datatype Settings = Settings(reduceMotion: Option<bool>, useBusinessDays: bool)

  /** The persisted state; version None stands for a missing or null `version`. */
  datatype Stored = Stored(version: Option<int>, settings: Settings, goals: map<string, real>, sales: SalesByMonth)

  // ----- month keys -----

  /** `getMonthKey(year, month)`: the year, a dash, and the 1-based month padded to two digits. */
  function GetMonthKey(year: int, month: int): (key: string)
    ensures 0 <= month < 12 ==> |key| == |IntToString(year)| + 3
    ensures 0 <= month < 12 ==> key[|key| - 3] == '-'
  {
    var mm := PadStart(IntToString(month + 1), 2, '0');
    assert 0 <= month < 12 ==> |mm| == 2 by {
      if 0 <= month < 12 {
        TwoDigits(month + 1);
      }
    }
    IntToString(year) + "-" + mm
  }

  /** A key is the year's digits, a dash and the padded month digits. */
  lemma MonthKeyParts(year: nat, month: int)
    requires 0 <= month < 12
    ensures var key := GetMonthKey(year, month);
            && key[..|key| - 3] == NatToString(year)
            && key[|key| - 2..] == PadStart(NatToString(month + 1), 2, '0')
  {
    var y := NatToString(year);
    var mm := PadStart(NatToString(month + 1), 2, '0');
    TwoDigits(month + 1);
    assert GetMonthKey(year, month) == y + "-" + mm;
    DashSplit(y, mm);
  }

  lemma DashSplit(a: string, b: string)
    requires |b| == 2
    ensures (a + "-" + b)[..|a + "-" + b| - 3] == a
    ensures (a + "-" + b)[|a + "-" + b| - 2..] == b
  {
  }

  /** The two month digits of a key read back as the 1-based month, the part before the dash
      as the year: the key can be parsed back. */
  lemma MonthKeyRoundTrip(year: nat, month: int)
    requires 0 <= month < 12
    ensures var key := GetMonthKey(year, month);
            && AllDigits(key[..|key| - 3]) && DigitsValue(key[..|key| - 3]) == year
            && AllDigits(key[|key| - 2..]) && DigitsValue(key[|key| - 2..]) == month + 1
  {
    MonthKeyParts(year, month);
    var m := NatToString(month + 1);
    NatToStringRoundTrip(year);
    NatToStringRoundTrip(month + 1);
    LeadingZeros(|PadStart(m, 2, '0')| - |m|, m);
  }

  /** Different months, or the same month of different years, never share a key. */
  lemma MonthKeyInjective(y1: nat, m1: int, y2: nat, m2: int)
    requires 0 <= m1 < 12 && 0 <= m2 < 12
    requires GetMonthKey(y1, m1) == GetMonthKey(y2, m2)
    ensures y1 == y2 && m1 == m2
  {
    MonthKeyRoundTrip(y1, m1);
    MonthKeyRoundTrip(y2, m2);
  }

  // ----- stored state -----

  function DefaultState(): (s: Stored)
    ensures s.version == Some(SchemaVersion)
    ensures s.sales == map[] && s.goals == map[]
  {
    Stored(Some(SchemaVersion), Settings(None, false), map[], map[])
  }

  /** `!data.version`: the version is missing, null or 0. */
  predicate VersionMissing(data: Stored) {
    data.version.None? || data.version.value == 0
  }

  /** `migrateIfNeeded`: data without a version is replaced by the default state; data with one
      is kept as it is. */
  function MigrateIfNeeded(data: Stored): (r: Stored)
    ensures !VersionMissing(r)
    ensures !VersionMissing(data) ==> r == data
    ensures VersionMissing(data) ==> r.sales == map[] && r.goals == map[] && r.version == Some(SchemaVersion)
  {
    if VersionMissing(data) then DefaultState() else data
  }

  /** Migrating a migrated state changes nothing. */
  lemma MigrateIdempotent(data: Stored)
    ensures MigrateIfNeeded(MigrateIfNeeded(data)) == MigrateIfNeeded(data)
  {
  }

  // ----- the sales service -----

  /** `list`: a copy of the month's sales, [] for a month without an entry. */
  function List(sales: SalesByMonth, monthKey: string): (r: seq<Sale>)
    ensures monthKey !in sales ==> r == []
    ensures monthKey in sales ==> r == sales[monthKey]
  {
    if monthKey in sales then sales[monthKey] else []
  }

  /** `create`: a new sale with the payload's fields, a fresh id and both timestamps set to now,
      appended to the month's list (created when absent). Returns the new map and the sale. */
  function Create(sales: SalesByMonth, monthKey: string, p: Payload, freshId: string, now: string)
    : (r: (SalesByMonth, Sale))
    ensures r.1 == Sale(freshId, p.data, p.valor, p.canal, p.cliente, p.observacoes, now, now)
    ensures r.0.Keys == sales.Keys + {monthKey}
  {
    var sale := Sale(freshId, p.data, p.valor, p.canal, p.cliente, p.observacoes, now, now);
    (sales[monthKey := List(sales, monthKey) + [sale]], sale)
  }

  /** Creating a sale appends exactly it to its month and leaves every other month as it was. */
  lemma CreateEffect(sales: SalesByMonth, monthKey: string, p: Payload, freshId: string, now: string, k: string)
    ensures var (r, sale) := Create(sales, monthKey, p, freshId, now);
            List(r, k) == if k == monthKey then List(sales, k) + [sale] else List(sales, k)
  {
  }

  /** `{...sale, ...payload, updatedAt: now}`: the payload's fields replace the sale's, the id and
      the creation time stay. */
  function Apply(sale: Sale, p: Payload, now: string): (r: Sale)
    ensures r.id == sale.id && r.createdAt == sale.createdAt && r.updatedAt == now
    ensures r.data == p.data && r.valor == p.valor && r.canal == p.canal
    ensures r.cliente == p.cliente && r.observacoes == p.observacoes
  {
    Sale(sale.id, p.data, p.valor, p.canal, p.cliente, p.observacoes, sale.createdAt, now)
  }

  predicate HasSaleId(list: seq<Sale>, id: string) {
    exists i :: 0 <= i < |list| && list[i].id == id
  }

  /** `update`: the first sale of the month with the id gets the payload; nothing changes when the
      month has no such sale (and no entry is created for an absent month). */
  function Update(sales: SalesByMonth, monthKey: string, id: string, p: Payload, now: string): (r: SalesByMonth)
    ensures !HasSaleId(List(sales, monthKey), id) ==> r == sales
    ensures r.Keys == sales.Keys
    ensures |List(r, monthKey)| == |List(sales, monthKey)|
  {
    var list := List(sales, monthKey);
    var i := Seqs.FindIndex(list, (s: Sale) => s.id == id);
    if i >= 0 then sales[monthKey := list[i := Apply(list[i], p, now)]] else sales
  }

  /** Updating a known id rewrites exactly the first sale carrying it, keeping its id and
      creation time, and touches no other sale and no other month. */
  lemma UpdateEffect(sales: SalesByMonth, monthKey: string, id: string, p: Payload, now: string, k: string, j: int)
    requires HasSaleId(List(sales, monthKey), id)
    ensures var list := List(sales, monthKey);
            var i := Seqs.FindIndex(list, (s: Sale) => s.id == id);
            && 0 <= i < |list| && list[i].id == id
            && (forall m :: 0 <= m < i ==> list[m].id != id)
            && List(Update(sales, monthKey, id, p, now), monthKey)[i] == Apply(list[i], p, now)
            && (0 <= j < |list| && j != i ==> List(Update(sales, monthKey, id, p, now), monthKey)[j] == list[j])
            && (k != monthKey ==> List(Update(sales, monthKey, id, p, now), k) == List(sales, k))
  {
  }

  /** Storing a list under one month leaves the other months' lists as they were. */
  lemma ListFrame(sales: SalesByMonth, monthKey: string, list: seq<Sale>)
    ensures forall k :: k != monthKey ==> List(sales[monthKey := list], k) == List(sales, k)
  {
    forall k | k != monthKey
      ensures List(sales[monthKey := list], k) == List(sales, k)
    {
      assert (k in sales[monthKey := list]) == (k in sales);
    }
  }

  /** `list.filter((sale) => sale.id !== id)`: the sales without the id, in order, each as often
      as before. */
  function WithoutId(list: seq<Sale>, id: string): (r: seq<Sale>)
    ensures forall i :: 0 <= i < |r| ==> r[i].id != id
    ensures forall s :: s in list && s.id != id ==> s in r
    ensures forall s :: s in r ==> s in list
    ensures forall s :: multiset(r)[s] == if s.id != id then multiset(list)[s] else 0
    ensures Seqs.IsSubseq(r, list)
  {
    Seqs.FilterSpec(list, (s: Sale) => s.id != id);
    Seqs.Filter(list, (s: Sale) => s.id != id)
  }

  /** `remove`: the month's list keeps the sales without the id, in order; the month gets an
      entry (possibly empty) even when it had none. */
  function Remove(sales: SalesByMonth, monthKey: string, id: string): (r: SalesByMonth)
    ensures r.Keys == sales.Keys + {monthKey}
    ensures forall i :: 0 <= i < |r[monthKey]| ==> r[monthKey][i].id != id
    ensures forall s :: s in List(sales, monthKey) && s.id != id ==> s in r[monthKey]
    ensures forall s :: s in r[monthKey] ==> s in List(sales, monthKey)
    ensures forall k :: k != monthKey ==> List(r, k) == List(sales, k)
    ensures forall s :: multiset(r[monthKey])[s] == if s.id != id then multiset(List(sales, monthKey))[s] else 0
    ensures Seqs.IsSubseq(r[monthKey], List(sales, monthKey))
  {
    ListFrame(sales, monthKey, WithoutId(List(sales, monthKey), id));
    sales[monthKey := WithoutId(List(sales, monthKey), id)]
  }

  /** Removing a sale that was just created under a fresh id gives back every month's list. */
  lemma RemoveCreateRoundTrip(sales: SalesByMonth, monthKey: string, p: Payload, freshId: string, now: string, k: string)
    requires !HasSaleId(List(sales, monthKey), freshId)
    ensures List(Remove(Create(sales, monthKey, p, freshId, now).0, monthKey, freshId), k) == List(sales, k)
  {
    var list := List(sales, monthKey);
    var (created, sale) := Create(sales, monthKey, p, freshId, now);
    CreateEffect(sales, monthKey, p, freshId, now, monthKey);
    var removed := Remove(created, monthKey, freshId);
    if k == monthKey {
      var keep := (s: Sale) => s.id != freshId;
      assert removed[monthKey] == WithoutId(list + [sale], freshId) == Seqs.Filter(list + [sale], keep);
      Seqs.FilterAppend(list, [sale], keep);
      Seqs.FilterIdentity(list, keep);
      assert Seqs.Filter([sale], keep) == [];
    } else {
      CreateEffect(sales, monthKey, p, freshId, now, k);
    }
  }

  /** `totalsByChannel`: every configured channel starts at 0, then each sale adds its value
      under its channel (an unknown channel gets its own entry). */
  function TotalsByChannel(sales: seq<Sale>): Tally.Entries {
    Tally.Totals(Channels, sales, (s: Sale) => s.canal, (s: Sale) => s.valor)
  }

  /** Each configured channel and each channel used by a sale has exactly one entry, holding
      the total of that channel's sales; no other name has one. */
  lemma TotalsByChannelContents(sales: seq<Sale>, channel: string)
    ensures Tally.DistinctKeys(TotalsByChannel(sales))
    ensures Tally.Get(TotalsByChannel(sales), channel) ==
              if channel in Channels || channel in Tally.ItemKeys(sales, (s: Sale) => s.canal)
              then Some(Tally.SumWhere(sales, (s: Sale) => s.canal, (s: Sale) => s.valor, channel))
              else None
  {
    Tally.TotalsDistinct(Channels, sales, (s: Sale) => s.canal, (s: Sale) => s.valor);
    Tally.TotalsContents(Channels, sales, (s: Sale) => s.canal, (s: Sale) => s.valor, channel);
  }

  /** The channel totals add up to the total value of the sales. */
  lemma TotalsByChannelSum(sales: seq<Sale>)
    ensures Tally.ValueSum(TotalsByChannel(sales)) == Seqs.Sum(sales, (s: Sale) => s.valor)
  {
    Tally.TotalsSum(Channels, sales, (s: Sale) => s.canal, (s: Sale) => s.valor);
  }

  // ----- the sale form -----

  /** The sale form's fields: `cliente` and `observacoes` are `?.trim() || ""` (None for a
      field the form does not have); the date, value and channel are copied. */
  function FormPayload(data: string, valor: real, canal: string, cliente: Option<string>,
                       observacoes: Option<string>): (p: Payload)
    ensures p.data == data && p.valor == valor && p.canal == canal
    ensures cliente.None? ==> p.cliente == ""
    ensures cliente.Some? ==> p.cliente == Text.Trim(cliente.value)
    ensures observacoes.None? ==> p.observacoes == ""
    ensures observacoes.Some? ==> p.observacoes == Text.Trim(observacoes.value)
  {
    Payload(data, valor, canal, if cliente.Some? then Text.Trim(cliente.value) else "",
            if observacoes.Some? then Text.Trim(observacoes.value) else "")
  }

  const InvalidSale := "Preencha data e valor valido."
  const SaleUpdated := "Venda atualizada."
  const SaleCreated := "Venda registrada."

  /** `handleSaleSubmit`: a sale without a date or with a value that is not positive is refused;
      otherwise the sale being edited (a non-empty editing id) is updated, or a new one created.
      Returns the new map and the toast. */
  function SubmitSale(sales: SalesByMonth, monthKey: string, editingId: string, p: Payload,
                      freshId: string, now: string): (r: (SalesByMonth, string))
    ensures p.data == "" || p.valor <= 0.0 ==> r == (sales, InvalidSale)
    ensures p.data != "" && p.valor > 0.0 && editingId != "" ==>
              r == (Update(sales, monthKey, editingId, p, now), SaleUpdated)
    ensures p.data != "" && p.valor > 0.0 && editingId == "" ==>
              r == (Create(sales, monthKey, p, freshId, now).0, SaleCreated)
  {
    if p.data == "" || p.valor <= 0.0 then (sales, InvalidSale)
    else if editingId != "" then (Update(sales, monthKey, editingId, p, now), SaleUpdated)
    else (Create(sales, monthKey, p, freshId, now).0, SaleCreated)
  }

  /** Every sale the form stores has a date and a positive value. */
  lemma SubmitStoresValidSales(sales: SalesByMonth, monthKey: string, editingId: string, p: Payload,
                               freshId: string, now: string, k: string, i: int)
    requires forall k', j :: k' in sales && 0 <= j < |sales[k']| ==> sales[k'][j].data != "" && sales[k'][j].valor > 0.0
    requires k in SubmitSale(sales, monthKey, editingId, p, freshId, now).0
    requires 0 <= i < |SubmitSale(sales, monthKey, editingId, p, freshId, now).0[k]|
    ensures SubmitSale(sales, monthKey, editingId, p, freshId, now).0[k][i].data != ""
    ensures SubmitSale(sales, monthKey, editingId, p, freshId, now).0[k][i].valor > 0.0
  {
    var r := SubmitSale(sales, monthKey, editingId, p, freshId, now).0;
    if p.data != "" && p.valor > 0.0 && k == monthKey {
      var list := List(sales, monthKey);
      if editingId != "" {
        var f := Seqs.FindIndex(list, (s: Sale) => s.id == editingId);
        if f >= 0 && i != f {
          assert r[k][i] == list[i];
        }
      } else {
        if i < |list| {
          assert r[k][i] == list[i];
        }
      }
    }
  }

  // ----- CSV export -----

  const CsvHeaders: seq<string> := ["data", "valor", "canal", "cliente", "observacoes"]

  /** The fields of one exported sale, in header order; numberText renders a value as `String` does. */
  function SaleFields(s: Sale, numberText: real -> string): (r: seq<string>)
    ensures |r| == |CsvHeaders|
  {
    [s.data, numberText(s.valor), s.canal, s.cliente, s.observacoes]
  }

  /** `convertSalesToCSV`: the header line, then one line per sale, fields quoted and joined by ';'. */
  function SalesToCsv(sales: seq<Sale>, numberText: real -> string): string {
    Csv.Document(CsvHeaders, seq(|sales|, i requires 0 <= i < |sales| => SaleFields(sales[i], numberText)), ';')
  }

  /** Reading the export back gives the header and, line by line, every sale's fields. */
  lemma SalesCsvRoundTrip(sales: seq<Sale>, numberText: real -> string)
    ensures Csv.ReadDocument(SalesToCsv(sales, numberText), ';')
            == Some([CsvHeaders] + seq(|sales|, i requires 0 <= i < |sales| => SaleFields(sales[i], numberText)))
  {
    var rows := seq(|sales|, i requires 0 <= i < |sales| => SaleFields(sales[i], numberText));
    forall i | 0 <= i < |CsvHeaders| ensures Csv.Bare(CsvHeaders[i], ';') {
    }
    Csv.DocumentRoundTrip(CsvHeaders, rows, ';');
  }
}

=== FILE: sales_metrics.dfy ===
/** The sales-goal dashboard's metrics: the month's total against its goal, the clamped
    percentage, what remains and what is needed per remaining day, the daily totals with the best
    day, and the business-day counts. The calendar is given, not computed: daysInMonth, whether
    today falls in the month and which day it is, which days of the month are business days,
    and the calendar date of each sale (None for an unreadable date). */
module SalesMetrics {
  import opened Wrappers
  import Seqs
  import SalesGoals

  type Sale = SalesGoals.Sale

  /** A calendar date: year, 0-based month, day of the month. */
  datatype Date = Date(year: int, month: int, day: int)

  datatype Metrics = Metrics(
    total: real, percent: real, remaining: real, avg: real, projection: real, goalPerDay: real,
    bestDayValue: real, bestDayLabel: Option<int>, daysWithoutSales: nat, paceStatus: string,
    requiredDaily: real)

  function Valor(s: Sale): real {
    s.valor
  }

  /** The business days among 1..daysLimit. */
  function BusinessDaysUpTo(isBusinessDay: int -> bool, daysLimit: int): set<int> {
    set d | 1 <= d <= daysLimit && isBusinessDay(d)
  }

  /** `countBusinessDays`: how many of the days 1..daysLimit are business days. */
  function CountBusinessDays(isBusinessDay: int -> bool, daysLimit: int): (n: nat)
    ensures n == |BusinessDaysUpTo(isBusinessDay, daysLimit)|
    ensures n <= if daysLimit > 0 then daysLimit else 0
    ensures daysLimit > 0 && (forall d :: 1 <= d <= daysLimit ==> isBusinessDay(d)) ==> n == daysLimit
    decreases daysLimit
  {
    if daysLimit <= 0 then
      assert BusinessDaysUpTo(isBusinessDay, daysLimit) == {};
      0
    else
      var before := BusinessDaysUpTo(isBusinessDay, daysLimit - 1);
      assert BusinessDaysUpTo(isBusinessDay, daysLimit)
             == before + (if isBusinessDay(daysLimit) then {daysLimit} else {});
      assert daysLimit !in before;
      CountBusinessDays(isBusinessDay, daysLimit - 1) + (if isBusinessDay(daysLimit) then 1 else 0)
  }

  /** Counting over more days never gives fewer business days. */
  lemma {:induction false} CountBusinessDaysMonotone(isBusinessDay: int -> bool, a: int, b: int)
    requires a <= b
    ensures CountBusinessDays(isBusinessDay, a) <= CountBusinessDays(isBusinessDay, b)
    decreases b - a
  {
    if a < b {
      CountBusinessDaysMonotone(isBusinessDay, a, b - 1);
    }
  }

  /** The day of the month a sale counts for in the given month, None when it is dated elsewhere
      or its date cannot be read. */
  function DayIn(s: Sale, year: int, month: int, dateOf: string -> Option<Date>): Option<int> {
    var d := dateOf(s.data);
    if d.Some? && d.value.month == month && d.value.year == year then Some(d.value.day) else None
  }

  /** `totalsByDay`: one total per day of the month, each sale adding its value to its day. */
  function TotalsByDay(sales: seq<Sale>, year: int, month: int, days: nat, dateOf: string -> Option<Date>)
    : (r: seq<real>)
    ensures |r| == days
  {
    if |sales| == 0 then seq(days, _ => 0.0)
    else
      var prev := TotalsByDay(sales[..|sales| - 1], year, month, days, dateOf);
      var last := sales[|sales| - 1];
      var d := DayIn(last, year, month, dateOf);
      if d.Some? && 1 <= d.value <= days then prev[d.value - 1 := prev[d.value - 1] + last.valor] else prev
  }

  /** The total of the sales of the month dated on day d. */
  function DaySum(sales: seq<Sale>, year: int, month: int, d: int, dateOf: string -> Option<Date>): real {
    if |sales| == 0 then 0.0
    else
      var last := sales[|sales| - 1];
      DaySum(sales[..|sales| - 1], year, month, d, dateOf)
        + (if DayIn(last, year, month, dateOf) == Some(d) then last.valor else 0.0)
  }

  /** Each daily total is the total of that day's sales. */
  lemma {:induction false} TotalsByDayEntry(sales: seq<Sale>, year: int, month: int, days: nat,
                                            dateOf: string -> Option<Date>, i: int)
    requires 0 <= i < days
    ensures TotalsByDay(sales, year, month, days, dateOf)[i] == DaySum(sales, year, month, i + 1, dateOf)
  {
    if |sales| > 0 {
      TotalsByDayEntry(sales[..|sales| - 1], year, month, days, dateOf, i);
    }
  }

  /** `Math.max(0, ...xs)`. */
  function MaxWithZero(xs: seq<real>): (m: real)
    ensures m >= 0.0
    ensures forall i :: 0 <= i < |xs| ==> xs[i] <= m
    ensures m == 0.0 || exists i :: 0 <= i < |xs| && xs[i] == m
  {
    if |xs| == 0 then 0.0
    else
      var rest := MaxWithZero(xs[..|xs| - 1]);
      assert forall i :: 0 <= i < |xs| - 1 ==> xs[i] == xs[..|xs| - 1][i];
      if xs[|xs| - 1] > rest then xs[|xs| - 1] else rest
  }

  /** `bestDayLabel`: the 1-based day of the first largest daily total, None when no day sold. */
  function BestDayLabel(totals: seq<real>): (best: Option<int>)
    ensures best.None? <==> forall i :: 0 <= i < |totals| ==> totals[i] <= 0.0
    ensures best.Some? ==> 1 <= best.value <= |totals|
    ensures best.Some? ==> totals[best.value - 1] == MaxWithZero(totals) > 0.0
    ensures best.Some? ==> forall i :: 0 <= i < best.value - 1 ==> totals[i] < totals[best.value - 1]
  {
    var m := MaxWithZero(totals);
    var idx := Seqs.FindIndex(totals, (x: real) => x == m);
    if m > 0.0 then
      assert idx >= 0;
      Some(idx + 1)
    else None
  }

  function IsZero(x: real): bool {
    x == 0.0
  }

  /** `goal ? Math.min((total / goal) * 100, 999) : 0`. */
  function Percent(total: real, goal: real): (p: real)
    ensures goal == 0.0 ==> p == 0.0
    ensures p <= 999.0
    ensures goal > 0.0 && total >= 0.0 ==> p >= 0.0
    ensures goal != 0.0 && (total / goal) * 100.0 <= 999.0 ==> p * goal == total * 100.0
    ensures goal != 0.0 && (total / goal) * 100.0 >= 999.0 ==> p == 999.0
  {
    if goal == 0.0 then 0.0
    else
      var raw := (total / goal) * 100.0;
      if raw < 999.0 then raw else 999.0
  }

  /** `Math.max(goal - total, 0)`. */
  function Remaining(total: real, goal: real): (r: real)
    ensures r >= 0.0
    ensures r == 0.0 <==> total >= goal
    ensures r > 0.0 ==> total + r == goal
  {
    if goal - total > 0.0 then goal - total else 0.0
  }

  /** `Math.max(totalBusinessDays - effectiveDays, 1)`: never 0, so the per-day goal is defined. */
  function RemainingDays(totalDays: int, effectiveDays: int): (d: int)
    ensures d >= 1
    ensures d >= totalDays - effectiveDays
    ensures totalDays - effectiveDays >= 1 ==> d == totalDays - effectiveDays
    ensures totalDays - effectiveDays < 1 ==> d == 1
  {
    if totalDays - effectiveDays > 1 then totalDays - effectiveDays else 1
  }

  /** `remaining / remainingDays`: spread over the remaining days, it adds up to what remains. */
  function GoalPerDay(remaining: real, remainingDays: int): (g: real)
    requires remaining >= 0.0 && remainingDays >= 1
    ensures g >= 0.0
    ensures g * (remainingDays as real) == remaining
    ensures g <= remaining
  {
    var g := remaining / (remainingDays as real);
    assert g * (remainingDays as real) == remaining;
    assert g <= remaining by {
      assert g * (remainingDays as real) - g == g * ((remainingDays - 1) as real);
    }
    g
  }

  /** `totalsByDay.slice(0, daysElapsed).filter((value) => value === 0).length`. */
  function DaysWithoutSales(totals: seq<real>, daysElapsed: int): (n: nat)
    ensures n == |set i | 0 <= i < |totals| && i < daysElapsed && totals[i] == 0.0|
    ensures n <= |totals|
    ensures n <= if daysElapsed > 0 then daysElapsed else 0
    ensures (forall i :: 0 <= i < |totals| ==> totals[i] != 0.0) ==> n == 0
  {
    var window := Seqs.Take(totals, if daysElapsed > 0 then daysElapsed else 0);
    Seqs.FilterLength(window, IsZero);
    assert Seqs.PositionsWhere(window, IsZero)
           == set i | 0 <= i < |totals| && i < daysElapsed && totals[i] == 0.0;
    |Seqs.Filter(window, IsZero)|
  }

  /** `effectiveDays ? total / effectiveDays : 0`: the daily average over the days counted. */
  function Average(total: real, days: int): (a: real)
    ensures days != 0 ==> a * (days as real) == total
    ensures days == 0 ==> a == 0.0
  {
    if days != 0 then total / (days as real) else 0.0
  }

  /** `avg * totalBusinessDays`: the month's total if the daily average over the elapsed days
      kept up over every counted day of the month. */
  function Projection(total: real, elapsedDays: int, totalDays: int): (p: real)
    ensures elapsedDays != 0 ==> p * (elapsedDays as real) == total * (totalDays as real)
    ensures elapsedDays == 0 ==> p == 0.0
  {
    var avg := Average(total, elapsedDays);
    assert avg * (totalDays as real) * (elapsedDays as real) == (avg * (elapsedDays as real)) * (totalDays as real);
    avg * (totalDays as real)
  }

  /** The days counted as elapsed: today's day when today is in the month, otherwise the whole month. */
  function DaysElapsed(inMonth: bool, todayDay: int, daysInMonth: nat): int {
    if inMonth then todayDay else daysInMonth
  }

  /** The days 1..limit counted: all of them, or only the business days. */
  function DayCount(useBusinessDays: bool, isBusinessDay: int -> bool, limit: int): int {
    if useBusinessDays then CountBusinessDays(isBusinessDay, limit) else limit
  }

  /** `MetricsService.compute`. daysElapsed is today's day when today is in the month, otherwise
      the whole month; with business days on, both day counts count only business days. */
  function Compute(sales: seq<Sale>, goal: real, year: int, month: int, daysInMonth: nat,
                   inMonth: bool, todayDay: int, useBusinessDays: bool,
                   isBusinessDay: int -> bool, dateOf: string -> Option<Date>): (m: Metrics)
    ensures m.total == Seqs.Sum(sales, Valor)
    ensures m.percent == Percent(m.total, goal) && m.remaining == Remaining(m.total, goal)
    ensures m.avg == Average(m.total, DayCount(useBusinessDays, isBusinessDay, DaysElapsed(inMonth, todayDay, daysInMonth)))
    ensures m.projection == Projection(m.total, DayCount(useBusinessDays, isBusinessDay, DaysElapsed(inMonth, todayDay, daysInMonth)),
                                       DayCount(useBusinessDays, isBusinessDay, daysInMonth))
    ensures m.goalPerDay == m.requiredDaily
    ensures m.goalPerDay == GoalPerDay(m.remaining, RemainingDays(DayCount(useBusinessDays, isBusinessDay, daysInMonth),
                                                                  DayCount(useBusinessDays, isBusinessDay,
                                                                           DaysElapsed(inMonth, todayDay, daysInMonth))))
    ensures var totals := TotalsByDay(sales, year, month, daysInMonth, dateOf);
            && m.bestDayValue == MaxWithZero(totals)
            && m.bestDayLabel == BestDayLabel(totals)
            && m.daysWithoutSales == DaysWithoutSales(totals, DaysElapsed(inMonth, todayDay, daysInMonth))
    ensures m.paceStatus == if m.projection >= goal then "acima" else "abaixo"
    ensures m.percent <= 999.0 && (goal == 0.0 ==> m.percent == 0.0)
    ensures m.remaining >= 0.0 && m.goalPerDay >= 0.0
    ensures m.daysWithoutSales <= daysInMonth
    ensures m.bestDayLabel.Some? ==> 1 <= m.bestDayLabel.value <= daysInMonth
  {
    var total := Seqs.Sum(sales, Valor);
    var daysElapsed := DaysElapsed(inMonth, todayDay, daysInMonth);
    var effectiveDays := DayCount(useBusinessDays, isBusinessDay, daysElapsed);
    var totalBusinessDays := DayCount(useBusinessDays, isBusinessDay, daysInMonth);
    var remaining := Remaining(total, goal);
    var avg := Average(total, effectiveDays);
    var projection := Projection(total, effectiveDays, totalBusinessDays);
    var goalPerDay := GoalPerDay(remaining, RemainingDays(totalBusinessDays, effectiveDays));
    var totals := TotalsByDay(sales, year, month, daysInMonth, dateOf);
    Metrics(total, Percent(total, goal), remaining, avg, projection, goalPerDay,
            MaxWithZero(totals), BestDayLabel(totals), DaysWithoutSales(totals, daysElapsed),
            if projection >= goal then "acima" else "abaixo", goalPerDay)
  }

  /** For a month that is over, every counted day has elapsed: the projection is the month's
      total, and the pace is "acima" exactly when the goal was met. */
  lemma PastMonthPace(sales: seq<Sale>, goal: real, year: int, month: int, daysInMonth: nat, todayDay: int,
                      useBusinessDays: bool, isBusinessDay: int -> bool, dateOf: string -> Option<Date>)
    requires DayCount(useBusinessDays, isBusinessDay, daysInMonth) != 0
    ensures var m := Compute(sales, goal, year, month, daysInMonth, false, todayDay, useBusinessDays,
                             isBusinessDay, dateOf);
            m.projection == m.total && (m.paceStatus == "acima" <==> m.total >= goal)
  {
    ProjectionOverElapsed(Seqs.Sum(sales, Valor), DayCount(useBusinessDays, isBusinessDay, daysInMonth));
  }

  /** Projecting over exactly the days that have elapsed gives back the total. */
  lemma ProjectionOverElapsed(total: real, days: int)
    requires days != 0
    ensures Projection(total, days, days) == total
  {
    var p := Projection(total, days, days);
    assert (p - total) * (days as real) == 0.0;
  }
}

=== FILE: seqs.dfy ===
/** Sequence helpers standing for the JavaScript array methods the apps use:
    `filter`, `findIndex`, `slice(0, k)` and `reduce` with a sum. */
module Seqs {

  /** `xs.filter(p)`: the elements satisfying p, in their original order. */
  function Filter<T>(xs: seq<T>, p: T -> bool): (r: seq<T>)
    ensures |r| <= |xs|
    ensures forall i :: 0 <= i < |r| ==> p(r[i])
    ensures forall x :: x in r ==> x in xs
    ensures forall x :: x in xs && p(x) ==> x in r
    ensures multiset(r) <= multiset(xs)
  {
    if |xs| == 0 then []
    else
      assert xs == [xs[0]] + xs[1..];
      var rest := Filter(xs[1..], p);
      if p(xs[0]) then [xs[0]] + rest else rest
  }

  /** a is a subsequence of b: a can be obtained from b by dropping elements, keeping the order. */
  predicate IsSubseq<T(==)>(a: seq<T>, b: seq<T>)
    decreases |b|
  {
    if |a| == 0 then true
    else if |b| == 0 then false
    else (a[0] == b[0] && IsSubseq(a[1..], b[1..])) || IsSubseq(a, b[1..])
  }

  lemma {:induction false} SubseqRefl<T>(s: seq<T>)
    ensures IsSubseq(s, s)
  {
    if |s| > 0 {
      SubseqRefl(s[1..]);
    }
  }

  /** `filter` keeps order and multiplicity: the result is a subsequence of the input holding
      every element that satisfies p exactly as often as the input does, and no other. */
  lemma {:induction false} FilterSpec<T>(xs: seq<T>, p: T -> bool)
    ensures IsSubseq(Filter(xs, p), xs)
    ensures forall x :: multiset(Filter(xs, p))[x] == if p(x) then multiset(xs)[x] else 0
  {
    if |xs| > 0 {
      FilterSpec(xs[1..], p);
      var rest := Filter(xs[1..], p);
      assert xs == [xs[0]] + xs[1..];
      if p(xs[0]) {
        assert ([xs[0]] + rest)[1..] == rest;
      }
    }
  }

  /** Filtering distributes over concatenation, so the kept elements stay in order. */
  lemma {:induction false} FilterAppend<T>(a: seq<T>, b: seq<T>, p: T -> bool)
    ensures Filter(a + b, p) == Filter(a, p) + Filter(b, p)
  {
    if |a| == 0 {
      assert a + b == b;
    } else {
      assert (a + b)[1..] == a[1..] + b;
      FilterAppend(a[1..], b, p);
    }
  }

  /** Nothing is kept when no element satisfies p. */
  lemma {:induction false} FilterNone<T>(xs: seq<T>, p: T -> bool)
    requires forall i :: 0 <= i < |xs| ==> !p(xs[i])
    ensures Filter(xs, p) == []
  {
    if |xs| > 0 {
      FilterNone(xs[1..], p);
    }
  }

  /** Filtering changes nothing exactly when every element already satisfies p. */
  lemma {:induction false} FilterIdentity<T>(xs: seq<T>, p: T -> bool)
    ensures Filter(xs, p) == xs <==> forall i :: 0 <= i < |xs| ==> p(xs[i])
  {
    if |xs| > 0 {
      FilterIdentity(xs[1..], p);
      if !p(xs[0]) {
        assert |Filter(xs, p)| < |xs| by {
          assert Filter(xs, p) == Filter(xs[1..], p);
        }
      }
    }
  }

  /** `xs.findIndex(p)`: the first index satisfying p, or -1 when there is none. */
  function FindIndex<T>(xs: seq<T>, p: T -> bool): (r: int)
    ensures -1 <= r < |xs|
    ensures r == -1 <==> forall i :: 0 <= i < |xs| ==> !p(xs[i])
    ensures r >= 0 ==> p(xs[r]) && forall i :: 0 <= i < r ==> !p(xs[i])
  {
    if |xs| == 0 then -1
    else if p(xs[0]) then 0
    else
      var k := FindIndex(xs[1..], p);
      if k == -1 then -1 else k + 1
  }

  /** An index holding the first element that satisfies p is the one findIndex reports. */
  lemma FindIndexAt<T>(xs: seq<T>, p: T -> bool, k: int)
    requires 0 <= k < |xs| && p(xs[k])
    requires forall j :: 0 <= j < k ==> !p(xs[j])
    ensures FindIndex(xs, p) == k
  {
    var f := FindIndex(xs, p);
    assert f != -1;
    assert f <= k;
  }

  /** Dropping the first element shifts every later index down by one. */
  lemma TailAt<T>(s: seq<T>, rest: seq<T>, i: int)
    requires |s| > 0 && s[1..] == rest && 0 < i < |s|
    ensures s[i] == rest[i - 1]
  {
  }

  /** Updating one position leaves every other position as it was. */
  lemma UpdateFrame<T>(s: seq<T>, i: int, v: T)
    requires 0 <= i < |s|
    ensures s[i := v][i] == v
    ensures forall j :: 0 <= j < |s| && j != i ==> s[i := v][j] == s[j]
  {
  }

  /** `xs.slice(0, k)`. */
  function Take<T>(xs: seq<T>, k: nat): (r: seq<T>)
    ensures |r| == if |xs| <= k then |xs| else k
    ensures r <= xs
  {
    if |xs| <= k then xs else xs[..k]
  }

  /** `xs.reduce((sum, x) => sum + f(x), 0)`. */
  function Sum<T>(xs: seq<T>, f: T -> real): real
  {
    if |xs| == 0 then 0.0 else Sum(xs[..|xs| - 1], f) + f(xs[|xs| - 1])
  }

  /** A sum over a concatenation is the sum of the parts. */
  lemma {:induction false} SumAppend<T>(a: seq<T>, b: seq<T>, f: T -> real)
    ensures Sum(a + b, f) == Sum(a, f) + Sum(b, f)
  {
    if |b| == 0 {
      assert a + b == a;
    } else {
      assert (a + b)[..|a + b| - 1] == a + b[..|b| - 1];
      SumAppend(a, b[..|b| - 1], f);
    }
  }

  /** Appending one element adds its term to a filtered sum exactly when it passes the filter. */
  lemma FilterSumSnoc<T>(xs: seq<T>, x: T, p: T -> bool, f: T -> real)
    ensures Sum(Filter(xs + [x], p), f) == Sum(Filter(xs, p), f) + (if p(x) then f(x) else 0.0)
  {
    FilterAppend(xs, [x], p);
    SumAppend(Filter(xs, p), Filter([x], p), f);
    assert [x][1..] == [];
    if p(x) {
      assert Filter([x], p) == [x];
      assert [x][..0] == [];
    } else {
      assert Filter([x], p) == [];
    }
  }

  /** The positions of xs holding an element that satisfies p. */
  function PositionsWhere<T>(xs: seq<T>, p: T -> bool): set<int> {
    set i | 0 <= i < |xs| && p(xs[i])
  }

  /** Appending one element adds its position exactly when it satisfies p. */
  lemma PositionsSnoc<T>(xs: seq<T>, p: T -> bool)
    requires |xs| > 0
    ensures var n := |xs| - 1;
            PositionsWhere(xs, p) == PositionsWhere(xs[..n], p) + (if p(xs[n]) then {n} else {})
            && n !in PositionsWhere(xs[..n], p)
  {
    var n := |xs| - 1;
    forall i | 0 <= i < n
      ensures xs[..n][i] == xs[i]
    {
    }
  }

  /** Filtering a single element keeps it exactly when it satisfies p. */
  lemma FilterSingle<T>(x: T, p: T -> bool)
    ensures |Filter([x], p)| == if p(x) then 1 else 0
  {
    assert [x][1..] == [];
  }

  /** The number of elements filter keeps is the number of positions holding one that satisfies p. */
  lemma {:induction false} FilterLength<T>(xs: seq<T>, p: T -> bool)
    ensures |Filter(xs, p)| == |PositionsWhere(xs, p)|
  {
    if |xs| > 0 {
      var n := |xs| - 1;
      var init := xs[..n];
      FilterLength(init, p);
      assert xs == init + [xs[n]];
      FilterAppend(init, [xs[n]], p);
      FilterSingle(xs[n], p);
      PositionsSnoc(xs, p);
    }
  }

  /** Summing non-negative terms gives a non-negative total. */
  lemma {:induction false} SumNonNegative<T>(xs: seq<T>, f: T -> real)
    requires forall i :: 0 <= i < |xs| ==> f(xs[i]) >= 0.0
    ensures Sum(xs, f) >= 0.0
  {
    if |xs| > 0 {
      SumNonNegative(xs[..|xs| - 1], f);
    }
  }

  /** Summing positive terms over a non-empty sequence gives a positive total. */
  lemma {:induction false} SumPositive<T>(xs: seq<T>, f: T -> real)
    requires |xs| > 0
    requires forall i :: 0 <= i < |xs| ==> f(xs[i]) > 0.0
    ensures Sum(xs, f) > 0.0
  {
    if |xs| > 1 {
      SumPositive(xs[..|xs| - 1], f);
    }
  }
}

=== FILE: sorting.dfy ===
/** `Array.prototype.sort` with a comparator that orders by a key, as the apps use it: the
    sort is stable (elements with equal keys keep their order), and a key may be "last",
    which sorts after every number and ties with itself (a lead without a follow-up date). */
module Sorting {
  import Seqs

  datatype SortKey = Finite(v: real) | Last

  /** The comparator's "not after": numbers by value, Last after every number. */
  predicate KeyLe(a: SortKey, b: SortKey) {
    b.Last? || (a.Finite? && a.v <= b.v)
  }

  lemma KeyLeTotal(a: SortKey, b: SortKey)
    ensures KeyLe(a, b) || KeyLe(b, a)
    ensures KeyLe(a, b) && KeyLe(b, a) ==> a == b
  {
  }

  predicate Sorted<T>(s: seq<T>, key: T -> SortKey) {
    forall i, j :: 0 <= i < j < |s| ==> KeyLe(key(s[i]), key(s[j]))
  }

  /** Puts x before the first element whose key is not below x's, so that x precedes the
      elements with its key. */
  function Insert<T>(x: T, s: seq<T>, key: T -> SortKey): (r: seq<T>)
    ensures |r| == |s| + 1
    ensures multiset(r) == multiset(s) + multiset{x}
  {
    if |s| == 0 then [x]
    else if KeyLe(key(x), key(s[0])) then [x] + s
    else
      assert s == [s[0]] + s[1..];
      [s[0]] + Insert(x, s[1..], key)
  }

  /** The stable sort: each element, from the last to the first, is inserted in front of the
      elements with its key. */
  function Sort<T>(xs: seq<T>, key: T -> SortKey): (r: seq<T>)
    ensures |r| == |xs|
    ensures multiset(r) == multiset(xs)
  {
    if |xs| == 0 then []
    else
      assert xs == [xs[0]] + xs[1..];
      Insert(xs[0], Sort(xs[1..], key), key)
  }

  lemma {:induction false} InsertSorted<T>(x: T, s: seq<T>, key: T -> SortKey)
    requires Sorted(s, key)
    ensures Sorted(Insert(x, s, key), key)
  {
    if |s| > 0 && !KeyLe(key(x), key(s[0])) {
      InsertSorted(x, s[1..], key);
      var r := Insert(x, s, key);
      var t := Insert(x, s[1..], key);
      assert r == [s[0]] + t;
      forall j | 0 < j < |r| ensures KeyLe(key(s[0]), key(r[j])) {
        assert r[j] in multiset(t);
        assert r[j] in multiset(s[1..]) + multiset{x};
        if r[j] in multiset(s[1..]) {
          var m :| 0 <= m < |s[1..]| && s[1..][m] == r[j];
          assert s[m + 1] == r[j];
        }
      }
    }
  }

  /** The result is ordered by key. */
  lemma {:induction false} SortSorted<T>(xs: seq<T>, key: T -> SortKey)
    ensures Sorted(Sort(xs, key), key)
  {
    if |xs| > 0 {
      SortSorted(xs[1..], key);
      InsertSorted(xs[0], Sort(xs[1..], key), key);
    }
  }

  /** The elements of s whose key is k, in order. */
  function WithKey<T>(s: seq<T>, key: T -> SortKey, k: SortKey): seq<T> {
    Seqs.Filter(s, (x: T) => key(x) == k)
  }

  lemma {:induction false} InsertWithKey<T>(x: T, s: seq<T>, key: T -> SortKey, k: SortKey)
    requires Sorted(s, key)
    ensures WithKey(Insert(x, s, key), key, k) == if key(x) == k then [x] + WithKey(s, key, k) else WithKey(s, key, k)
  {
    var p := (y: T) => key(y) == k;
    if |s| == 0 {
    } else if KeyLe(key(x), key(s[0])) {
      assert Insert(x, s, key) == [x] + s;
      Seqs.FilterAppend([x], s, p);
    } else {
      InsertWithKey(x, s[1..], key, k);
      Seqs.FilterAppend([s[0]], Insert(x, s[1..], key), p);
      Seqs.FilterAppend([s[0]], s[1..], p);
      assert [s[0]] + s[1..] == s;
      if key(x) == k {
        assert key(s[0]) != k by {
          KeyLeTotal(key(x), key(s[0]));
        }
      }
    }
  }

  /** The sort is stable: the elements with any one key come out in their original order. */
  lemma {:induction false} SortStable<T>(xs: seq<T>, key: T -> SortKey, k: SortKey)
    ensures WithKey(Sort(xs, key), key, k) == WithKey(xs, key, k)
  {
    if |xs| > 0 {
      SortStable(xs[1..], key, k);
      SortSorted(xs[1..], key);
      InsertWithKey(xs[0], Sort(xs[1..], key), key, k);
      Seqs.FilterAppend([xs[0]], xs[1..], (y: T) => key(y) == k);
      assert [xs[0]] + xs[1..] == xs;
    }
  }

  /** `[...xs].sort(cmp).slice(0, n)`: the first n elements of the sorted sequence. */
  function SortTake<T>(xs: seq<T>, key: T -> SortKey, n: nat): (r: seq<T>)
    ensures |r| == if |xs| <= n then |xs| else n
    ensures forall i :: 0 <= i < |r| ==> r[i] in xs
  {
    var s := Sort(xs, key);
    var r := Seqs.Take(s, n);
    assert forall i :: 0 <= i < |r| ==> r[i] == s[i] && s[i] in multiset(xs);
    r
  }

  /** The selection is ordered, and every element left out has a key not below any selected one. */
  lemma SortTakeTop<T>(xs: seq<T>, key: T -> SortKey, n: nat)
    ensures Sorted(SortTake(xs, key, n), key)
    ensures forall i, j :: 0 <= i < |SortTake(xs, key, n)| <= j < |xs| ==>
              KeyLe(key(SortTake(xs, key, n)[i]), key(Sort(xs, key)[j]))
    ensures multiset(SortTake(xs, key, n)) + multiset(Sort(xs, key)[|SortTake(xs, key, n)|..]) == multiset(xs)
  {
    var s := Sort(xs, key);
    SortSorted(xs, key);
    var r := SortTake(xs, key, n);
    assert s == r + s[|r|..];
  }

  /** An element left out of the selection sorts no earlier than any selected element. */
  lemma SortTakeRest<T>(xs: seq<T>, key: T -> SortKey, n: nat, t: T)
    requires t in multiset(xs) - multiset(SortTake(xs, key, n))
    ensures forall i :: 0 <= i < |SortTake(xs, key, n)| ==> KeyLe(key(SortTake(xs, key, n)[i]), key(t))
  {
    var s := Sort(xs, key);
    var r := SortTake(xs, key, n);
    SortTakeTop(xs, key, n);
    var rest := s[|r|..];
    assert t in multiset(rest);
    var j :| 0 <= j < |rest| && rest[j] == t;
    assert s[|r| + j] == t;
  }
}

=== FILE: tally.dfy ===
/** Per-key totals as the dashboard and the cash-flow tracker compute them: a plain
    JavaScript object used as an ordered map from a name to an amount. The object is
    modelled as a list of (key, amount) entries in insertion order, which is the order
    `Object.keys`, `Object.values` and `Object.entries` report. */
module Tally {
  import opened Wrappers
  import Seqs

  type Entries = seq<(string, real)>

  function Keys(e: Entries): (r: seq<string>)
    ensures |r| == |e|
  {
    if |e| == 0 then [] else [e[0].0] + Keys(e[1..])
  }

  /** The i-th key is the key of the i-th entry. */
  lemma {:induction false} KeyAt(e: Entries, i: int)
    requires 0 <= i < |e|
    ensures Keys(e)[i] == e[i].0
  {
    if i > 0 {
      KeyAt(e[1..], i - 1);
    }
  }

  /** No key occurs twice, as in any JavaScript object. */
  predicate DistinctKeys(e: Entries) {
    |e| == 0 || (e[0].0 !in Keys(e[1..]) && DistinctKeys(e[1..]))
  }

  /** `obj[k]`, None standing for `undefined`. */
  function Get(e: Entries, k: string): (r: Option<real>)
    ensures r.None? <==> k !in Keys(e)
  {
    if |e| == 0 then None
    else if e[0].0 == k then Some(e[0].1)
    else Get(e[1..], k)
  }

  /** With distinct keys, looking up an entry's key finds that entry's amount. */
  lemma {:induction false} GetAt(e: Entries, i: int)
    requires DistinctKeys(e)
    requires 0 <= i < |e|
    ensures Get(e, e[i].0) == Some(e[i].1)
  {
    if i > 0 {
      GetAt(e[1..], i - 1);
      KeyAt(e[1..], i - 1);
    }
  }

  /** `obj[k] = v`: an existing key keeps its position, a new key goes last. */
  function Put(e: Entries, k: string, v: real): (r: Entries)
    ensures Get(r, k) == Some(v)
    ensures |r| == if k in Keys(e) then |e| else |e| + 1
  {
    if |e| == 0 then [(k, v)]
    else if e[0].0 == k then [(k, v)] + e[1..]
    else [e[0]] + Put(e[1..], k, v)
  }

  /** Putting a key keeps the existing keys in front, in their order. */
  lemma {:induction false} PutKeysPrefix(e: Entries, k: string, v: real)
    ensures Keys(e) <= Keys(Put(e, k, v))
  {
    if |e| > 0 && e[0].0 != k {
      PutKeysPrefix(e[1..], k, v);
      assert Put(e, k, v) == [e[0]] + Put(e[1..], k, v);
    }
  }

  /** Putting one key leaves every other key as it was. */
  lemma {:induction false} PutOther(e: Entries, k: string, v: real, k': string)
    requires k' != k
    ensures Get(Put(e, k, v), k') == Get(e, k')
  {
    if |e| > 0 && e[0].0 != k {
      PutOther(e[1..], k, v, k');
      assert Put(e, k, v)[1..] == Put(e[1..], k, v);
    }
  }

  /** Putting a key adds exactly that key. */
  lemma PutKeySet(e: Entries, k: string, v: real, k': string)
    ensures k' in Keys(Put(e, k, v)) <==> k' in Keys(e) || k' == k
  {
    if k' != k {
      PutOther(e, k, v, k');
    }
  }

  /** Putting a key keeps the keys distinct. */
  lemma {:induction false} PutDistinct(e: Entries, k: string, v: real)
    requires DistinctKeys(e)
    ensures DistinctKeys(Put(e, k, v))
  {
    var r := Put(e, k, v);
    if |e| > 0 {
      if e[0].0 == k {
        assert r[1..] == e[1..];
      } else {
        PutDistinct(e[1..], k, v);
        assert r[1..] == Put(e[1..], k, v);
        PutKeySet(e[1..], k, v, e[0].0);
      }
    }
  }

  /** `obj[k] = (obj[k] || 0) + v`. */
  function Add(e: Entries, k: string, v: real): (r: Entries)
    ensures Get(r, k) == Some(Get(e, k).GetOr(0.0) + v)
  {
    Put(e, k, Get(e, k).GetOr(0.0) + v)
  }

  /** `keys.forEach((k) => { obj[k] = 0; })` on an empty object. */
  function Zeros(keys: seq<string>): (r: Entries)
  {
    if |keys| == 0 then [] else Put(Zeros(keys[..|keys| - 1]), keys[|keys| - 1], 0.0)
  }

  /** Every listed key starts at zero, no other key is present, and no key is listed twice. */
  lemma {:induction false} ZerosContents(keys: seq<string>, k: string)
    ensures DistinctKeys(Zeros(keys))
    ensures Get(Zeros(keys), k) == if k in keys then Some(0.0) else None
  {
    if |keys| > 0 {
      var n := |keys| - 1;
      ZerosContents(keys[..n], k);
      PutDistinct(Zeros(keys[..n]), keys[n], 0.0);
      assert keys == keys[..n] + [keys[n]];
      if k != keys[n] {
        PutOther(Zeros(keys[..n]), keys[n], 0.0, k);
      }
    }
  }

  /** The keys of the items, in item order. */
  function ItemKeys<T>(items: seq<T>, key: T -> string): (r: seq<string>)
    ensures |r| == |items|
  {
    if |items| == 0 then [] else ItemKeys(items[..|items| - 1], key) + [key(items[|items| - 1])]
  }

  /** The total of the items whose key is k. */
  function SumWhere<T>(items: seq<T>, key: T -> string, val: T -> real, k: string): real {
    if |items| == 0 then 0.0
    else
      var last := items[|items| - 1];
      SumWhere(items[..|items| - 1], key, val, k) + (if key(last) == k then val(last) else 0.0)
  }

  /** The JavaScript totals loop: start from `Zeros(init)`, then for each item in order
      `totals[key(item)] = (totals[key(item)] || 0) + val(item)`. */
  function Totals<T>(init: seq<string>, items: seq<T>, key: T -> string, val: T -> real): (r: Entries)
  {
    if |items| == 0 then Zeros(init)
    else
      var last := items[|items| - 1];
      Add(Totals(init, items[..|items| - 1], key, val), key(last), val(last))
  }

  /** The sum of all amounts of an object. */
  function ValueSum(e: Entries): real {
    if |e| == 0 then 0.0 else e[0].1 + ValueSum(e[1..])
  }

  /** Accumulating into one key keeps the keys distinct. */
  lemma AddDistinct(e: Entries, k0: string, v: real)
    requires DistinctKeys(e)
    ensures DistinctKeys(Add(e, k0, v))
  {
    var total := Get(e, k0).GetOr(0.0) + v;
    PutDistinct(e, k0, total);
    assert Add(e, k0, v) == Put(e, k0, total);
  }

  /** Accumulating into one key leaves every other key as it was. */
  lemma AddOther(e: Entries, k0: string, v: real, k: string)
    requires k != k0
    ensures Get(Add(e, k0, v), k) == Get(e, k)
  {
    PutOther(e, k0, Get(e, k0).GetOr(0.0) + v, k);
  }

  /** Items whose keys all differ from k contribute nothing to k's total. */
  lemma {:induction false} SumWhereAbsent<T>(items: seq<T>, key: T -> string, val: T -> real, k: string)
    requires k !in ItemKeys(items, key)
    ensures SumWhere(items, key, val, k) == 0.0
  {
    if |items| > 0 {
      var n := |items| - 1;
      assert ItemKeys(items, key) == ItemKeys(items[..n], key) + [key(items[n])];
      SumWhereAbsent(items[..n], key, val, k);
    }
  }

  /** No key of the totals object is listed twice. */
  lemma {:induction false} TotalsDistinct<T>(init: seq<string>, items: seq<T>, key: T -> string, val: T -> real)
    ensures DistinctKeys(Totals(init, items, key, val))
  {
    if |items| == 0 {
      ZerosContents(init, "");
    } else {
      var n := |items| - 1;
      TotalsDistinct(init, items[..n], key, val);
      AddDistinct(Totals(init, items[..n], key, val), key(items[n]), val(items[n]));
    }
  }

  /** Every initial key and every item key has an entry, no other key does, and each entry
      holds the total of the items with that key. */
  lemma {:induction false} TotalsContents<T>(init: seq<string>, items: seq<T>, key: T -> string, val: T -> real,
                                             k: string)
    ensures Get(Totals(init, items, key, val), k) ==
              if k in init || k in ItemKeys(items, key) then Some(SumWhere(items, key, val, k)) else None
  {
    if |items| == 0 {
      ZerosContents(init, k);
    } else {
      var n := |items| - 1;
      var prev := Totals(init, items[..n], key, val);
      var k0 := key(items[n]);
      assert ItemKeys(items, key) == ItemKeys(items[..n], key) + [k0];
      TotalsContents(init, items[..n], key, val, k);
      if k != k0 {
        AddOther(prev, k0, val(items[n]), k);
      } else if !(k in init || k in ItemKeys(items[..n], key)) {
        SumWhereAbsent(items[..n], key, val, k);
      }
    }
  }

  /** Replacing one amount of an object with distinct keys changes its sum by the difference. */
  lemma {:induction false} ValueSumPut(e: Entries, k: string, v: real)
    requires DistinctKeys(e)
    ensures ValueSum(Put(e, k, v)) == ValueSum(e) - Get(e, k).GetOr(0.0) + v
  {
    if |e| > 0 {
      if e[0].0 == k {
        assert Put(e, k, v)[1..] == e[1..];
      } else {
        ValueSumPut(e[1..], k, v);
        assert Put(e, k, v)[1..] == Put(e[1..], k, v);
      }
    }
  }

  lemma {:induction false} ZerosSum(keys: seq<string>)
    ensures ValueSum(Zeros(keys)) == 0.0
  {
    if |keys| > 0 {
      ZerosSum(keys[..|keys| - 1]);
      ZerosContents(keys[..|keys| - 1], keys[|keys| - 1]);
      ValueSumPut(Zeros(keys[..|keys| - 1]), keys[|keys| - 1], 0.0);
    }
  }

  /** One accumulation step adds its amount to the sum of the object. */
  lemma AddSum(e: Entries, k: string, v: real)
    requires DistinctKeys(e)
    ensures ValueSum(Add(e, k, v)) == ValueSum(e) + v
  {
    ValueSumPut(e, k, Get(e, k).GetOr(0.0) + v);
  }

  /** The amounts of the totals object add up to the total of all items. */
  lemma {:induction false} TotalsSum<T>(init: seq<string>, items: seq<T>, key: T -> string, val: T -> real)
    ensures ValueSum(Totals(init, items, key, val)) == Seqs.Sum(items, val)
  {
    if |items| == 0 {
      ZerosSum(init);
    } else {
      var n := |items| - 1;
      TotalsSum(init, items[..n], key, val);
      TotalsDistinct(init, items[..n], key, val);
      AddSum(Totals(init, items[..n], key, val), key(items[n]), val(items[n]));
    }
  }

  /** `Math.max(...Object.values(obj), 0)`. */
  function MaxOrZero(e: Entries): (m: real)
    ensures m >= 0.0
    ensures forall i :: 0 <= i < |e| ==> e[i].1 <= m
    ensures m == 0.0 || exists i :: 0 <= i < |e| && e[i].1 == m
  {
    if |e| == 0 then 0.0
    else
      var rest := MaxOrZero(e[1..]);
      assert forall i :: 1 <= i < |e| ==> e[i].1 == e[1..][i - 1].1;
      if e[0].1 > rest then e[0].1 else rest
  }

  /** `Object.entries(obj).filter(([, v]) => v === max && v > 0).map(([k]) => k)`
      where max is `MaxOrZero(obj)`. */
  function KeysAtMax(e: Entries): (r: seq<string>)
  {
    var m := MaxOrZero(e);
    Keys(Seqs.Filter(e, (p: (string, real)) => p.1 == m && p.1 > 0.0))
  }

  /** A reported key belongs to an entry with the largest amount, and that amount is positive. */
  lemma KeysAtMaxSound(e: Entries, k: string)
    requires k in KeysAtMax(e)
    ensures exists i :: 0 <= i < |e| && e[i].0 == k && e[i].1 > 0.0
                        && forall j :: 0 <= j < |e| ==> e[j].1 <= e[i].1
  {
    var m := MaxOrZero(e);
    var p := (q: (string, real)) => q.1 == m && q.1 > 0.0;
    var kept := Seqs.Filter(e, p);
    var a :| 0 <= a < |kept| && Keys(kept)[a] == k;
    KeyAt(kept, a);
    assert kept[a] in e;
    var i :| 0 <= i < |e| && e[i] == kept[a];
    assert p(kept[a]);
  }

  /** The key of an entry with the largest amount is reported when that amount is positive. */
  lemma KeysAtMaxComplete(e: Entries, i: int)
    requires 0 <= i < |e| && e[i].1 > 0.0
    requires forall j :: 0 <= j < |e| ==> e[j].1 <= e[i].1
    ensures e[i].0 in KeysAtMax(e)
  {
    var m := MaxOrZero(e);
    var p := (q: (string, real)) => q.1 == m && q.1 > 0.0;
    var kept := Seqs.Filter(e, p);
    assert p(e[i]);
    assert e[i] in kept;
    var a :| 0 <= a < |kept| && kept[a] == e[i];
    KeyAt(kept, a);
  }

  /** Some key is reported exactly when some amount is positive. */
  lemma KeysAtMaxEmpty(e: Entries)
    ensures (forall i :: 0 <= i < |e| ==> e[i].1 <= 0.0) <==> |KeysAtMax(e)| == 0
  {
    if exists i :: 0 <= i < |e| && e[i].1 > 0.0 {
      var m := MaxOrZero(e);
      var w :| 0 <= w < |e| && e[w].1 == m;
      KeysAtMaxComplete(e, w);
    } else {
      var m := MaxOrZero(e);
      Seqs.FilterNone(e, (q: (string, real)) => q.1 == m && q.1 > 0.0);
    }
  }

  /** The keys reported at the maximum are exactly those whose positive amount is the largest,
      in insertion order; there are none when no amount is positive. */
  lemma KeysAtMaxSpec(e: Entries)
    ensures forall k :: k in KeysAtMax(e) <==>
              exists i :: 0 <= i < |e| && e[i].0 == k && e[i].1 > 0.0
                          && forall j :: 0 <= j < |e| ==> e[j].1 <= e[i].1
    ensures (forall i :: 0 <= i < |e| ==> e[i].1 <= 0.0) <==> |KeysAtMax(e)| == 0
  {
    forall k ensures k in KeysAtMax(e) <==>
              exists i :: 0 <= i < |e| && e[i].0 == k && e[i].1 > 0.0
                          && forall j :: 0 <= j < |e| ==> e[j].1 <= e[i].1
    {
      if k in KeysAtMax(e) {
        KeysAtMaxSound(e, k);
      }
      if exists i :: 0 <= i < |e| && e[i].0 == k && e[i].1 > 0.0
                     && forall j :: 0 <= j < |e| ==> e[j].1 <= e[i].1 {
        var i :| 0 <= i < |e| && e[i].0 == k && e[i].1 > 0.0
                 && forall j :: 0 <= j < |e| ==> e[j].1 <= e[i].1;
        KeysAtMaxComplete(e, i);
      }
    }
    KeysAtMaxEmpty(e);
  }

  /** The index of `Object.entries(obj).sort((a, b) => b[1] - a[1])[0]`: the stable sort puts the
      first entry with the largest amount in front. -1 for an empty object. */
  function FirstMaxIndex(e: Entries): (r: int)
    ensures |e| == 0 <==> r == -1
    ensures -1 <= r < |e|
    ensures r >= 0 ==> forall j :: 0 <= j < |e| ==> e[j].1 <= e[r].1
    ensures r >= 0 ==> forall j :: 0 <= j < r ==> e[j].1 < e[r].1
  {
    if |e| == 0 then -1
    else if |e| == 1 then 0
    else
      var j := FirstMaxIndex(e[..|e| - 1]);
      if e[|e| - 1].1 > e[j].1 then |e| - 1 else j
  }
}

=== FILE: text.dfy ===
/** String helpers standing for the JavaScript built-ins the apps call:
    the whitespace class of `\s` and `String.prototype.trim`, decimal
    rendering of integers (`String(n)`), digit parsing and `padStart`. */
module Text {
  import opened Wrappers

  /** JavaScript whitespace: the code points matched by `\s` and removed by `trim`
      (WhiteSpace and LineTerminator of ECMAScript, including the Unicode space separators). */
  predicate IsSpace(c: char) {
    var n := c as int;
    (0x09 <= n <= 0x0D) || n == 0x20 || n == 0xA0 || n == 0x1680
    || (0x2000 <= n <= 0x200A) || n == 0x2028 || n == 0x2029 || n == 0x202F
    || n == 0x205F || n == 0x3000 || n == 0xFEFF
  }

  /** A string that `trim` turns into the empty string. */
  predicate IsBlank(s: string) {
    forall i :: 0 <= i < |s| ==> IsSpace(s[i])
  }

  /** Removes the longest whitespace prefix. */
  function TrimStart(s: string): (r: string)
    ensures |r| <= |s| && r == s[|s| - |r|..]
    ensures forall i :: 0 <= i < |s| - |r| ==> IsSpace(s[i])
    ensures |r| == 0 || !IsSpace(r[0])
  {
    if |s| == 0 || !IsSpace(s[0]) then s else TrimStart(s[1..])
  }

  /** Removes the longest whitespace suffix. */
  function TrimEnd(s: string): (r: string)
    ensures |r| <= |s| && r == s[..|r|]
    ensures forall i :: |r| <= i < |s| ==> IsSpace(s[i])
    ensures |r| == 0 || !IsSpace(r[|r| - 1])
  {
    if |s| == 0 || !IsSpace(s[|s| - 1]) then s else TrimEnd(s[..|s| - 1])
  }

  /** `s.trim()`. */
  function Trim(s: string): (r: string)
  {
    TrimEnd(TrimStart(s))
  }

  /** Where `trim` cuts: the number of leading whitespace characters, and the end of the kept text. */
  function TrimBounds(s: string): (b: (nat, nat))
  {
    var i := |s| - |TrimStart(s)|;
    (i, i + |Trim(s)|)
  }

  /** The kept text is the slice of the input between the bounds. */
  lemma TrimSlice(s: string)
    ensures TrimBounds(s).0 <= TrimBounds(s).1 <= |s|
    ensures Trim(s) == s[TrimBounds(s).0..TrimBounds(s).1]
  {
    var t := TrimStart(s);
    var e := TrimEnd(t);
    var i := |s| - |t|;
    assert t == s[i..];
    assert e == t[..|e|];
    assert s[i..i + |e|] == t[..|e|];
  }

  /** Everything after the kept text is whitespace. */
  lemma TrimCutEnd(s: string)
    ensures forall k :: TrimBounds(s).1 <= k < |s| ==> IsSpace(s[k])
  {
    var t := TrimStart(s);
    var e := TrimEnd(t);
    var i := |s| - |t|;
    assert t == s[i..];
    assert forall m :: |e| <= m < |t| ==> IsSpace(t[m]);
    forall k | i + |e| <= k < |s| ensures IsSpace(s[k]) {
      assert s[k] == t[k - i];
    }
  }

  /** `trim` yields the slice of its input between its bounds, which neither starts nor ends with
      whitespace, and everything cut off on either side is whitespace. */
  lemma TrimIsCore(s: string)
    ensures var (i, j) := TrimBounds(s);
            0 <= i <= j <= |s| && Trim(s) == s[i..j]
            && (forall k :: 0 <= k < i ==> IsSpace(s[k]))
            && (forall k :: j <= k < |s| ==> IsSpace(s[k]))
    ensures |Trim(s)| == 0 || (!IsSpace(Trim(s)[0]) && !IsSpace(Trim(s)[|Trim(s)| - 1]))
  {
    TrimSlice(s);
    TrimCutEnd(s);
  }

  /** Trimming twice is the same as trimming once. */
  lemma TrimIdempotent(s: string)
    ensures Trim(Trim(s)) == Trim(s)
  {
    var t := Trim(s);
    TrimIsCore(s);
    assert TrimStart(t) == t;
    assert TrimEnd(t) == t;
  }

  /** `!s.trim()` holds exactly for the blank strings. */
  lemma TrimEmptyIffBlank(s: string)
    ensures Trim(s) == "" <==> IsBlank(s)
  {
    var t := TrimStart(s);
    if !IsBlank(s) {
      var k :| 0 <= k < |s| && !IsSpace(s[k]);
      assert |t| > 0;
      assert !IsSpace(t[0]);
    }
  }

  predicate IsDigit(c: char) {
    '0' <= c <= '9'
  }

  function DigitChar(d: nat): (c: char)
    requires d < 10
    ensures IsDigit(c)
  {
    ['0', '1', '2', '3', '4', '5', '6', '7', '8', '9'][d]
  }

  function DigitValue(c: char): (d: nat)
    requires IsDigit(c)
    ensures d < 10
  {
    (c as int) - ('0' as int)
  }

  lemma DigitRoundTrip(d: nat)
    requires d < 10
    ensures DigitValue(DigitChar(d)) == d
  {
  }

  /** `String(n)` for a non-negative integer: its decimal digits, without leading zeros. */
  function NatToString(n: nat): (r: string)
    ensures |r| > 0
    ensures forall i :: 0 <= i < |r| ==> IsDigit(r[i])
    ensures r[0] == '0' ==> n == 0
  {
    if n < 10 then [DigitChar(n)] else NatToString(n / 10) + [DigitChar(n % 10)]
  }

  /** A number below 100 has at most two digits. */
  lemma TwoDigits(n: nat)
    requires n < 100
    ensures |NatToString(n)| <= 2
  {
    if n >= 10 {
      assert NatToString(n) == NatToString(n / 10) + [DigitChar(n % 10)];
    }
  }

  /** `String(i)` for any integer. */
  function IntToString(i: int): (r: string)
    ensures |r| > 0
  {
    if i < 0 then "-" + NatToString(-i) else NatToString(i)
  }

  predicate AllDigits(s: string) {
    forall i :: 0 <= i < |s| ==> IsDigit(s[i])
  }

  /** The value of a string of decimal digits (leading zeros allowed). */
  function DigitsValue(s: string): nat
    requires AllDigits(s)
  {
    if |s| == 0 then 0 else DigitsValue(s[..|s| - 1]) * 10 + DigitValue(s[|s| - 1])
  }

  /** Reading the digits back gives the number rendered. */
  lemma {:induction false} NatToStringRoundTrip(n: nat)
    ensures DigitsValue(NatToString(n)) == n
  {
    var s := NatToString(n);
    if n < 10 {
      DigitRoundTrip(n);
      assert s[..0] == [];
    } else {
      NatToStringRoundTrip(n / 10);
      DigitRoundTrip(n % 10);
      assert s[..|s| - 1] == NatToString(n / 10);
    }
  }

  /** Leading zeros do not change the value of a digit string. */
  lemma {:induction false} LeadingZeros(z: nat, s: string)
    requires AllDigits(s)
    ensures AllDigits(Repeat('0', z) + s)
    ensures DigitsValue(Repeat('0', z) + s) == DigitsValue(s)
  {
    var t := Repeat('0', z) + s;
    if |s| == 0 {
      assert t == Repeat('0', z);
      ZerosValue(z);
    } else {
      assert t[..|t| - 1] == Repeat('0', z) + s[..|s| - 1];
      LeadingZeros(z, s[..|s| - 1]);
    }
  }

  lemma {:induction false} ZerosValue(z: nat)
    ensures AllDigits(Repeat('0', z))
    ensures DigitsValue(Repeat('0', z)) == 0
  {
    if z > 0 {
      ZerosValue(z - 1);
      assert Repeat('0', z)[..z - 1] == Repeat('0', z - 1);
    }
  }

  function Repeat(c: char, n: nat): (r: string)
    ensures |r| == n
    ensures forall i :: 0 <= i < n ==> r[i] == c
  {
    if n == 0 then [] else Repeat(c, n - 1) + [c]
  }

  /** `s.padStart(width, c)` with a one-character pad. */
  function PadStart(s: string, width: nat, c: char): (r: string)
    ensures |r| == if |s| >= width then |s| else width
    ensures r == Repeat(c, |r| - |s|) + s
  {
    if |s| >= width then (assert Repeat(c, 0) + s == s; s) else Repeat(c, width - |s|) + s
  }
}

=== FILE: whatsapp.dfy ===
/** The landing page's WhatsApp message: the sentence built from the contact form, and the copy
    and open buttons, which act only once a message has been generated. */
module WhatsappMessage {
  import opened Wrappers

  /** `[a, b].filter(Boolean).join(sep)`: the non-empty parts, joined. */
  function JoinNonEmpty(parts: seq<string>, sep: string): string {
    if |parts| == 0 then ""
    else
      var rest := JoinNonEmpty(parts[1..], sep);
      if parts[0] == "" then rest
      else if rest == "" then parts[0]
      else parts[0] + sep + rest
  }

  /** The fixed sentence with the name, interest and preferred time. */
  function Base(name: string, interest: string, time: string): (s: string)
    ensures |s| > 0
  {
    "Ola, meu nome e " + name + ". Tenho interesse em " + interest + ". Meu melhor horario e " + time + "."
  }

  const ExtraLabel := "Mensagem adicional: "

  /** `buildMessage`: the base sentence, then, when the extra field is filled, a space and the
      labelled extra message. extra is None when the form has no such field. */
  function BuildMessage(name: string, interest: string, time: string, extra: Option<string>): (m: string)
    ensures extra.None? || extra.value == "" ==> m == Base(name, interest, time)
    ensures extra.Some? && extra.value != "" ==> m == Base(name, interest, time) + " " + ExtraLabel + extra.value
  {
    var more := if extra.Some? && extra.value != "" then ExtraLabel + extra.value else "";
    var parts := [Base(name, interest, time), more];
    assert parts[1..] == [more];
    assert [more][1..] == [];
    assert JoinNonEmpty([more], " ") == more;
    JoinNonEmpty(parts, " ")
  }

  /** Reads the extra text back from a message over the base sentence b: what follows the
      space and the label, "" when nothing does. */
  function ExtraOf(m: string, b: string): string {
    if |m| <= |b| + 1 + |ExtraLabel| then "" else m[|b| + 1 + |ExtraLabel|..]
  }

  /** The extra text can always be read back from the message. */
  lemma BuildMessageExtraRecoverable(name: string, interest: string, time: string, extra: string)
    ensures ExtraOf(BuildMessage(name, interest, time, Some(extra)), Base(name, interest, time)) == extra
  {
  }

  /** Two messages from the same sentence fields are equal only when their extra texts are. */
  lemma BuildMessageExtraInjective(name: string, interest: string, time: string, e1: string, e2: string)
    requires BuildMessage(name, interest, time, Some(e1)) == BuildMessage(name, interest, time, Some(e2))
    ensures e1 == e2
  {
    BuildMessageExtraRecoverable(name, interest, time, e1);
    BuildMessageExtraRecoverable(name, interest, time, e2);
  }

  const GenerateFirst := "Gere a mensagem primeiro."

  /** What a button click does: show a toast, copy the text, or open WhatsApp with it. */
  datatype Action = Toast(message: string) | CopyText(text: string) | OpenChat(text: string)

  /** The copy button: with an empty output only the toast; otherwise the output is copied. */
  function CopyClick(output: string): (a: Action)
    ensures output == "" <==> a == Toast(GenerateFirst)
    ensures output != "" ==> a == CopyText(output)
  {
    if output == "" then Toast(GenerateFirst) else CopyText(output)
  }

  /** The open button: with an empty output only the toast; otherwise WhatsApp is opened with it. */
  function OpenClick(output: string): (a: Action)
    ensures output == "" <==> a == Toast(GenerateFirst)
    ensures output != "" ==> a == OpenChat(output)
  {
    if output == "" then Toast(GenerateFirst) else OpenChat(output)
  }

  /** Once the form has generated a message, both buttons act on it. */
  lemma ButtonsActAfterSubmit(name: string, interest: string, time: string, extra: Option<string>)
    ensures var m := BuildMessage(name, interest, time, extra);
            CopyClick(m) == CopyText(m) && OpenClick(m) == OpenChat(m)
  {
  }
}

=== FILE: wrappers.dfy ===
/** Option: absent values of the modelled apps. */
module Wrappers {

  datatype Option<+T> = None | Some(value: T) {
    function GetOr(default: T): T {
      match this
      case Some(v) => v
      case None => default
    }
  }
}
